=== FILE: README.md ===
# sheafui/cli, component engine — a Dafny model

`sheafui/cli` is a Laravel console package that installs UI components from a
registry into a project. It also removes them and initialises the project
for them. This project models its core as pure functions over explicit
state:

- the project's file tree, a map from path to content;
- the installed-components manifest `sheaf.json`, a map from name to installation time;
- the lock file `sheaf-lock.json`, three ordered maps from a file, helper or
  internal dependency to the list of components that need it;
- a transcript of events.

Operator answers, registry bundles and the clock are parameters: `Env`
holds the answer oracles, the registry and the current time.

Modules, in dependency order:

| file | module | what it holds |
|---|---|---|
| wrappers.dfy | Wrappers | `Option`, `Result` |
| strings.dfy | Strings | prefix/suffix/substring tests, ASCII lower-casing, `strlen` as UTF-8 length |
| seqs.dfy | Seqs | removal of every occurrence, duplicate freedom, subsequences |
| omap.dfy | OrderedMaps | PHP arrays with string keys: key order plus map |
| files.dfy | Files | the file tree; a directory exists while a file lies below it |
| registry.dfy | Registry | component bundles: files, `helpers` / `internal` / `external` dependencies |
| lock.dfy | SheafLock | the lock and `CanUpdateSheafLock` (recording owners) |
| sheafconfig.dfy | SheafConfig | `sheaf.json`, `saveInstalledComponent`, `saveProjectHash`, the staleness rule |
| file_installer.dfy | FileInstaller | the created / skipped / overwritten decision of the three installers |
| config.dfy | Config | `InstallationConfig` and the mutations the engine makes to it |
| state.dfy | State | the world, the transcript events, the operator oracles |
| engine.dfy | Engine | strategy factory, the four strategies, both dependency resolvers, `ComponentInstaller` |
| remover.dfy | Remover | `ComponentRemover`, as written and with the lock threaded through nested removals |
| remove_command.dfy | RemoveCommand | `sheaf:remove` |
| updater.dfy | Updater | `ComponentUpdater::handleUpdate` |
| init_config.dfy | InitConfig | the `fluxtor:init` validators and configuration, `InitializationConfig`, the service's constructor checks |
| init_assets.dfy | InitAssets | the CSS and JavaScript import edits, package lookups, `JavaScriptAssetService` |

Installation and dependency resolution recurse through each other
(`ComponentInstaller` → strategy → resolver → `ComponentInstaller`) with
no cycle guard. The model counts the depth with `fuel`: at zero fuel, a
dependency that would be installed is left alone.

## Model

| member | source | states |
|---|---|---|
| SheafLock.AddOwner | src/Traits/CanUpdateSheafLock.php:64-70 | afterwards the owner is listed under the key; an absent key gets `[owner]`; a list without the owner gets it appended at the end with the others in order; a list that has it is unchanged; other keys are untouched; duplicate-free lists stay duplicate free |
| SheafLock.AddOwnerIdempotent | src/Traits/CanUpdateSheafLock.php:67-69 | adding an owner twice is adding it once |
| SheafLock.AddOwnerToAll | src/Traits/CanUpdateSheafLock.php:55-62 | every key named is present and lists the owner; the key set grows by exactly the keys named; keys not named keep their lists; an existing list changes only by the owner appended at its end |
| SheafLock.AddOwnerToAllWellFormed | src/Traits/CanUpdateSheafLock.php:64-70 | recording keeps every owner list duplicate free and the section a valid ordered map |
| SheafLock.AddOwnerToAllNoop | src/Traits/CanUpdateSheafLock.php:67-69 | when every key already lists the owner, recording changes nothing |
| SheafLock.AddOwnerToAllIdempotent | src/Traits/CanUpdateSheafLock.php:55-62 | recording the same keys twice is recording them once |
| SheafLock.SkipCoversLongerNames | src/Traits/CanUpdateSheafLock.php:50-53 | the substring test that skips a component's own files also skips the files of every component whose name extends it (`icon` skips `icon-button`'s views) |
| SheafLock.RecordedPaths | src/Traits/CanUpdateSheafLock.php:30-34 | a path is recorded iff it is one of the files and does not contain `resources/views/components/ui/<name>` |
| SheafLock.UpdateFiles | src/Traits/CanUpdateSheafLock.php:24-35 | an empty file list leaves the lock unchanged; otherwise `files` exists and its keys are the old keys plus the recorded paths; every recorded path lists the component; an entry not recorded keeps its owner list; a recorded entry that existed keeps its owners, at most gaining the component at the end; the other two sections are untouched |
| SheafLock.UpdateDependencies | src/Traits/CanUpdateSheafLock.php:37-48 | falsy dependencies leave the lock unchanged; `files` is never touched; the keys of `helpers` and of `internal` list the component in `helpers` and `internalDependencies`, whose keys grow by exactly those keys; an entry not named keeps its owners and a named one at most gains the component at the end; an absent part leaves its section alone |
| SheafLock.RecordIdempotent | src/Traits/CanUpdateSheafLock.php:11-21 | recording a component twice leaves the same lock as recording it once |
| SheafConfig.GetInstalledComponents | src/Services/SheafConfig.php:124-133 | no file gives the empty (falsy) document; otherwise the decoded document itself |
| SheafConfig.SaveInstalledComponent | src/Services/SheafConfig.php:113-122 | the components map becomes the old one with `name` set to `now`; `project_hash` and `user` are kept |
| SheafConfig.SaveInstalledComponentUpsert | src/Services/SheafConfig.php:117-119 | saving a name again only replaces its timestamp |
| SheafConfig.SaveInstalledComponentCommutes | src/Services/SheafConfig.php:115-121 | saving two different names in either order gives the same file |
| SheafConfig.SaveProjectHash | src/Services/SheafConfig.php:28-49 | with a hash present, the file is unchanged and nothing is returned; otherwise the new hash is stored, the other keys kept, and the hash returned |
| SheafConfig.SaveProjectHashOnce | src/Services/SheafConfig.php:39-41 | a second call never replaces the first hash |
| SheafConfig.ShouldInstallAsWritten | src/Traits/CanHandleDependenciesInstallation.php:130-143 | the code as written faults exactly when the file is non-empty but has no `components` key; otherwise it answers absent-file, absent-name or strictly-older |
| SheafConfig.IsStaleAgreesWithSource | src/Traits/CanHandleDependenciesInstallation.php:130-143 | wherever the code as written returns, it returns the corrected staleness answer |
| SheafConfig.ShouldInstallFaultsOnHashOnlyFile | src/Traits/CanHandleDependenciesInstallation.php:138 | a `sheaf.json` holding only the project hash makes the check as written fault, while the corrected rule says install |
| SheafConfig.StalenessStrict | src/Services/ComponentUpdater.php:109-122 | for a recorded component, stale iff the recorded time is strictly before `lastModified` |
| SheafConfig.SavedIsCurrent | src/Services/ComponentUpdater.php:121 | a component saved at `now` is not stale for any `lastModified <= now` |
| FileInstaller.Install | src/Services/SheafFileInstaller.php:14-52 | one record per file in input order with the same path; only the targets of records not skipped change or appear; with force, nothing is skipped and nothing is asked |
| FileInstaller.InstallWritesContent | src/Traits/CanHandleFilesInstallation.php:20-58 | a file that is not skipped and is the last entry for its path holds exactly its bundle content below the base directory afterwards |
| FileInstaller.SheafInstallDecisions | src/Services/SheafFileInstaller.php:19-51 | for independent paths each record is the decision against the tree before the call: absent is created, force overwrites, otherwise the answer decides |
| FileInstaller.SheafInstallContents | src/Services/SheafFileInstaller.php:19-49 | for independent paths, a file not skipped holds exactly its bundle content afterwards, and a skipped file that existed keeps its old content |
| FileInstaller.RepeatedPathSeesEarlierWrite | src/Services/SheafFileInstaller.php:19-27 | existence is tested per entry, so a path listed twice is created once and then never created again |
| FileInstaller.InstallAtEmptyBaseIsSheafInstall | src/Traits/CanHandleFilesInstallation.php:20-58 | when `base_path` is the identity, the trait and the service take the same decisions and write the same tree |
| FileInstaller.BaseMismatchReplacesSilently | src/Traits/CanHandleFilesInstallation.php:29-62 | the test uses the path as given and the write uses `base_path(path)`, so an existing target is replaced without a question and reported `created` |
| FileInstaller.AddComponentFiles | src/Commands/AddComponentCommand.php:95-120 | one record per fetched file in order; the older command never reports `overwritten` |
| FileInstaller.RenameOverwritten | src/Commands/AddComponentCommand.php:113-115 | an overwrite is recorded as `overrided`; every other record is kept |
| FileInstaller.AddComponentFilesMatchesSheafInstall | src/Commands/AddComponentCommand.php:97-119 | the older command writes the same tree as the service without force, and its created / skipped / `overrided` records match the service's created / skipped / overwritten |
| FileInstaller.AddComponentHandle | src/Commands/AddComponentCommand.php:34-56 | a failed fetch is caught and reported and touches no file; a successful one gives one record per file |
| Config.NewConfig | src/Support/InstallationConfig.php:8-29 | the getters return the constructor arguments in the order force, internal, external, dry-run; the fields no constructor sets start false or empty |
| Config.ForComponent | src/Services/ComponentUpdater.php:102 | the updater's configuration is the all-false one, named after the component |
| Config.ForDependency | src/Traits/CanHandleDependenciesInstallation.php:77-85 | before each stale dependency: outdated set, onlyDeps cleared, name set to the dependency, the four constructor flags kept |
| Engine.Create | src/Strategies/Installation/InstallationStrategyFactory.php:14-31 | DryRun iff dry-run; DependencyOnly iff not dry-run and onlyDeps; Full otherwise; never SkipDependencies |
| Engine.CreateReadsOnlyTwoFlags | src/Strategies/Installation/InstallationStrategyFactory.php:14-31 | two configurations that agree on dry-run and onlyDeps get the same strategy, whatever their name or other flags |
| Engine.CheckOutdated | src/Traits/CanHandleDependenciesInstallation.php:97-106 | true iff some dependency from the given position on is stale |
| Engine.ComponentInstall | src/Services/ComponentInstaller.php:30-56 | a failed fetch yields FAILURE with nothing but the failure logged and no strategy run; otherwise the fetch is logged first and SUCCESS is returned; a dry run leaves the tree, the manifest and the configuration alone; a full install puts the name in the manifest, and without dependencies leaves exactly the file installer's tree; dependencies only, with no internal entry, changes neither tree nor manifest; the lock is never written |
| Engine.ExecuteFull | src/Strategies/Installation/FullInstallationStrategy.php:18-32 | SUCCESS; the component is in the manifest even if every file was skipped; without internal dependencies the tree is the file installer's and the manifest gains exactly `name := now`; with consent, every internal dependency the registry serves ends up installed; the lock is never written |
| Engine.ExecuteDependencyOnly | src/Strategies/Installation/DependencyOnlyStrategy.php:14-34 | SUCCESS; without dependencies only a notice is logged; otherwise the dependencies are announced first; with no internal entry neither the tree nor the manifest changes, so the strategy writes no file or manifest entry of its own |
| Engine.ExecuteDryRun | src/Strategies/Installation/DryRunStrategy.php:15-29 | SUCCESS; tree, manifest, lock and configuration unchanged; the transcript gains one "Will create" line per file |
| Engine.InstallDependencies | src/Traits/CanHandleDependenciesInstallation.php:36-51 | falsy dependencies do nothing; without internal entries no file, manifest or configuration change; with consent every internal dependency the registry serves ends up installed; when the external commands run they close the transcript, so the internal dependencies come first; the lock is never written |
| Engine.InstallInternalDeps | src/Traits/CanHandleDependenciesInstallation.php:53-95 | nothing stale: no prompt and nothing installed; not stale-free, no flag and a declined prompt: nothing installed; with the flag no question is asked; with the flag or consent, every dependency the registry serves ends up in the manifest |
| Engine.InternalLoop | src/Traits/CanHandleDependenciesInstallation.php:77-91 | current dependencies are passed over without a line: when some dependency from the loop's position on is stale, the loop's first line starts the installation of the first stale one in map order (its fetch, failed fetch or fuel bound), and the same holds at every later position against the manifest as it then is; each is installed under the edited shared configuration; the loop installs something iff some dependency from its position on is stale; afterwards every dependency from its position on that the registry serves is in the manifest |
| Engine.NestedInstallRenamesConfig | src/Traits/CanHandleDependenciesInstallation.php:77-89 | the configuration object is shared with the nested installer: a loop over the single stale dependency `a`, where `a` needs `b`, ends with the configuration named `b`, not `a` |
| Engine.ExternalCommands | src/Traits/CanHandleDependenciesInstallation.php:119-125 | one recorded command per `external` entry, in map order, running its `dep[1]` |
| Engine.ExternalCommandsRun | src/Traits/CanHandleDependenciesInstallation.php:119-125 | the commands the external loop runs are exactly the `dep[1]` strings of its entries, in map order |
| Engine.CommandsNone | src/Traits/CanHandleDependenciesInstallation.php:119-125 | a transcript runs no command iff none of its events is a process run |
| Engine.CommandsAppend | src/Traits/CanHandleDependenciesInstallation.php:119-125 | the commands of two transcripts in a row are the first's followed by the second's |
| Engine.InstallExternalDeps | src/Traits/CanHandleDependenciesInstallation.php:108-128 | without the flag nothing happens; with it the operator is asked first, and the commands are run only when they agree |
| Engine.ServiceInstall | src/Services/DependencyInstaller.php:16-37 | falsy dependencies do nothing; `shouldSkipInstallDeps` returns with a warning before any internal or external installation |
| Engine.ServiceInternalDeps | src/Services/DependencyInstaller.php:39-74 | without the flag the question comes first, stale or not; a refusal installs nothing; with consent the closing line says "already up to date" iff nothing was stale |
| Engine.ConsentOrderDiffers | src/Services/DependencyInstaller.php:42-51 | with nothing stale and no flag, the trait asks nothing while the service still asks |
| Engine.HandleExistingComponent | src/Strategies/Installation/SkipDependenciesStrategy.php:54-118 | no prompt when `ui/<name>` is absent or force is set; `interactive` keeps the configuration; `dependencies` sets onlyDeps; `overwrite` sets force when confirmed and cancels otherwise; `cancel` cancels |
| Engine.ExecuteSkipDependencies | src/Strategies/Installation/SkipDependenciesStrategy.php:19-36 | INVALID leaves tree and manifest alone; SUCCESS installs the files and upserts the manifest; dependencies are never processed and the lock never written |
| Engine.DependenciesChoiceStillInstallsFiles | src/Strategies/Installation/SkipDependenciesStrategy.php:96-101 | the `dependencies` choice sets onlyDeps yet the files are still installed, since nothing re-dispatches |
| Engine.OverwriteChoiceOverwritesAll | src/Strategies/Installation/SkipDependenciesStrategy.php:104-113 | a confirmed `overwrite` writes every file with no per-file question and no skip |
| Updater.Paths | src/Services/ComponentUpdater.php:58-64 | the set of paths of a file list |
| Updater.ReplaceFiles | src/Services/ComponentUpdater.php:58-67 | exactly the listed paths are written or added; every other file is unchanged |
| Updater.ReplaceFilesLastWins | src/Services/ComponentUpdater.php:125-130 | each file is put unconditionally, so a path's last listed content is what remains |
| Updater.UpdateDependencies | src/Services/ComponentUpdater.php:69-84 | without dependencies only a notice; otherwise the trait's resolver under the updater's configuration, the lock untouched |
| Updater.InstallMissingComponent | src/Services/ComponentUpdater.php:94-107 | the question comes first; declining returns FAILURE with nothing installed; accepting installs and returns SUCCESS |
| Updater.HandleUpdate | src/Services/ComponentUpdater.php:25-50 | no `ui/<name>` directory: straight to the install question, no fetch; current or declined: SUCCESS with no file or manifest change; accepted: files replaced, dependencies processed, then the manifest records `now`; the lock is never written |
| Updater.AcceptedUpdateOverwritesAll | src/Services/ComponentUpdater.php:39-64 | an accepted update without dependencies writes exactly the fetched files, asks nothing per file, and the transcript is fetch, question, update, no-dependencies |
| Remover.DeleteComponentFiles | src/Services/ComponentRemover.php:28-42 | afterwards neither the view directory nor the single-file view exists; no file changes content; files outside both survive; manifest and lock untouched |
| Remover.RemoveOwner | src/Services/ComponentRemover.php:134-137 | every strictly-equal occurrence of the name is dropped, the other owners keep their order, and a list without the name is unchanged |
| Remover.CleanSection | src/Services/ComponentRemover.php:59-72 | an entry whose filtered list is empty loses its key; otherwise its list becomes the filtered list; entries not visited are untouched |
| Remover.CleanSectionValid | src/Services/ComponentRemover.php:59-72 | cleaning keeps a section a valid ordered map |
| Remover.Emptied | src/Services/ComponentRemover.php:64-67 | the entries whose owner list was the removed component alone |
| Remover.DeleteTargets | src/Services/ComponentRemover.php:139-153 | the backing file of every emptied entry is gone (a `files` key is its path, a helper is `ui/<helper>.blade.php`); nothing else is deleted or changed |
| Remover.UnsetComponent | src/Services/ComponentRemover.php:125-132 | the manifest's components lose exactly `name` |
| Remover.CleanOptional | src/Services/ComponentRemover.php:106-123 | an absent section stays absent; a present one keeps its validity and no longer lists the name |
| Remover.EmptiedOptional | src/Services/ComponentRemover.php:106-123 | the emptied entries of a present section are no longer keys of the cleaned section |
| Remover.Remove | src/Services/ComponentRemover.php:18-57 | the name leaves the manifest and the lock; the lock only loses entries or owners; the views are gone; every emptied `files` entry's path is deleted and no longer listed; files are only deleted, never written; every deleted path is a view of the component or one the starting lock lists, as a file, a helper view or a view of an internal dependency; with no nested removal exactly the views and the emptied entries' files go; as written, the saved `files` section is the cleaned loaded copy |
| Remover.CleaningSheafLock | src/Services/ComponentRemover.php:44-57 | the same lock, manifest and emptied-file outcome as `remove`, and every deleted path is one the starting lock lists |
| Remover.CleaningFiles | src/Services/ComponentRemover.php:59-72 | the copy's `files` section loses the component; exactly the emptied entries' files are deleted, one removal message each |
| Remover.CleaningHelpers | src/Services/ComponentRemover.php:106-123 | the copy's `helpers` section loses the component; exactly the emptied helpers' views are deleted, one removal message each |
| Remover.RemoveKeepsShared | src/Services/ComponentRemover.php:68-69 | as written, or with no nested removal, a `files` entry other components still own stays in the saved lock with those owners, in order |
| Remover.CleanDeps | src/Services/ComponentRemover.php:74-104 | the dependencies loop keeps the lock valid and shrinking; a visited dependency the removed component no longer heads is gone from its list |
| Remover.CleanDep | src/Services/ComponentRemover.php:80-102 | one round keeps the lock valid and only shrinking; afterwards the component is no longer listed under `dep`; files only disappear; when the component was `dep`'s only user and the removal is confirmed, every file `dep` alone owned is deleted from disk and, threaded, no longer listed |
| Remover.RemoveDependencyOf | src/Services/ComponentRemover.php:99-102 | a confirmed removal unsets `dep`'s key in the copy; as written the copy is the loaded one with that key unset, keeping nothing of the nested removal's own edits; the files `dep` alone owned are deleted |
| Remover.RemoveAsWritten | src/Services/ComponentRemover.php:44-57 | as written: the name leaves the manifest and the lock, the lock stays valid and shrinks; the saved `files` section is the cleaned loaded copy, so shared entries keep their other owners; the views and the emptied entries' files are gone; files are only deleted, and only paths the loaded lock reaches besides the views |
| Remover.RemoveThreaded | src/Services/ComponentRemover.php:44-57 | corrected: the same lock and tree frame as written, and in addition every file reported removed is absent from the saved lock |
| Remover.AsWrittenLockIgnoresNested | src/Services/ComponentRemover.php:46-56 | as written, the saved lock does not depend on what the nested removals did |
| Remover.StaleLockSaveCounterexample | src/Services/ComponentRemover.php:99-102 | removing `radio`, which alone needs `icon`, and confirming: as written, `icon`'s file is deleted yet the saved lock still lists it; threaded, the entry is gone |
| RemoveCommand.ComponentNames | src/Commands/RemoveComponentCommand.php:61-72 | the arguments in order, or the one typed name as a one-element list; never empty |
| RemoveCommand.RemoveEach | src/Commands/RemoveComponentCommand.php:41-53 | something is removed iff some name is present; with none present only the notices are added; afterwards no named component has a view left; files are only deleted, each a view of a named component or a path the loaded lock reaches; the lock stays valid and shrinks; with the corrected removal every file reported removed is unlisted |
| RemoveCommand.Handle | src/Commands/RemoveComponentCommand.php:33-59 | always SUCCESS; the summary line closes the transcript iff some named component was present; with none present only notices are added; every named component's views are gone; files are only deleted; with the corrected removal every file reported removed is unlisted |
| RemoveCommand.BannerLines | src/Commands/RemoveComponentCommand.php:74-83 | three lines: a rule of `═`, the title indented by two spaces, the same rule |
| RemoveCommand.BannerWidth | src/Commands/RemoveComponentCommand.php:76-81 | the rule is at least four longer than the indented title, and exactly `|title| + 6` for an ASCII title |
| InitConfig.ValidateCssFileName | src/Commands/FluxtorInitCommand.php:186-201 | accepted iff not PHP-empty (so not `"0"`), ending in `.css`, with at least one character of `[a-zA-Z0-9_/-]` before it and nothing else; each failure gives the first failing check's message |
| InitConfig.CssValidatorMessages | src/Commands/FluxtorInitCommand.php:188-198 | `"0"` and `""` are empty, `"app.css\n"` lacks the suffix, `".css"` and `"my app.css"` have the wrong format, `"admin/app.css"` is accepted |
| InitConfig.ValidateFileNameAsWritten | src/Commands/FluxtorInitCommand.php:206-221 | as written: PCRE's `$` also matches before a final newline, so a valid name plus `"\n"` is accepted |
| InitConfig.ValidateFileName | src/Commands/FluxtorInitCommand.php:206-221 | corrected: accepted iff non-empty, not `"0"`, only `[a-zA-Z0-9_-]`, and not a reserved name in any case |
| InitConfig.TrailingNewlineAccepted | src/Commands/FluxtorInitCommand.php:212 | `"theme\n"` passes the validator as written and fails the corrected one |
| InitConfig.ValidateFileNameAgrees | src/Commands/FluxtorInitCommand.php:206-221 | without a trailing newline both validators give the same answer |
| InitConfig.ValidateFileNameCaseInsensitive | src/Commands/FluxtorInitCommand.php:216-218 | names equal up to ASCII case get the same verdict |
| InitConfig.ZeroThemeNameIsEmpty | src/Commands/FluxtorInitCommand.php:208-210 | `"0"` has the right shape but is rejected as empty |
| InitConfig.ReservedNameRefused | src/Commands/FluxtorInitCommand.php:216-218 | a well-shaped name that lower-cases to a reserved one gets the reserved-name message |
| InitConfig.ThemeValidatorExamples | src/Commands/FluxtorInitCommand.php:212-214 | `"my theme"` gets the character-class message |
| InitConfig.PromptUntilValid | src/Commands/FluxtorInitCommand.php:158-164 | the prompt yields the first submitted value the validator accepts, and yields nothing iff none is accepted |
| InitConfig.DefaultThemeFileRejected | src/Commands/FluxtorInitCommand.php:24 | the default `theme.css` fails the theme prompt's own validator, while `theme` passes and suffixes to the same file |
| InitConfig.DefaultNamesSuffixed | src/Commands/FluxtorInitCommand.php:23-24 | the default `app.css` passes the CSS-file validator; suffixing leaves the default `theme.css` as it is and turns `theme` into it |
| InitConfig.GatherConfiguration | src/Commands/FluxtorInitCommand.php:92-181 | with skip-prompts the options are taken verbatim; otherwise a flag given as an option is true without asking, and each name is the first accepted answer |
| InitConfig.EnsureCssSuffix | src/Services/PackageInitializationService.php:69-75 | the result ends with `.css`; a name that already does is unchanged; otherwise exactly `.css` is appended |
| InitConfig.EnsureCssSuffixIdempotent | src/Support/InitializationConfig.php:32-36 | suffixing twice is suffixing once |
| InitConfig.GetThemeFileName | src/Support/InitializationConfig.php:29-37 | the returned name ends with `.css`, is the stored name when it already did, and is written back |
| InitConfig.GetTargetCssFile | src/Support/InitializationConfig.php:39-46 | the same three rules for the target CSS file |
| InitConfig.GettersStable | src/Support/InitializationConfig.php:29-46 | repeated calls return the same value, and each getter is unaffected by the other's write-back |
| InitConfig.ValidateConfiguration | src/Services/PackageInitializationService.php:54-76 | succeeds iff neither name is PHP-empty and dark mode has a non-empty JS directory; the first failing check's message otherwise; on success both names end with `.css` |
| InitConfig.ValidateConfigurationStable | src/Services/PackageInitializationService.php:69-75 | validating the validated names again gives them back unchanged |
| InitAssets.AddImportToAppCss | src/Services/PackageInitializationService.php:106-124 | content already containing `@import './<theme>'` is unchanged; otherwise the result is the import statement followed by the old content; afterwards the content always contains the import |
| InitAssets.AddImportToAppCssIdempotent | src/Services/PackageInitializationService.php:111-122 | adding the import twice is adding it once |
| InitAssets.Require | src/Services/PackageInitializationService.php:137 | a successful `composer require` lists the package and keeps every other listing |
| InitAssets.PackagesToRequire | src/Services/PackageInitializationService.php:126-145 | a package is required iff it is heroicons, or phosphoricons with the option on, and `composer.json` does not list it; heroicons comes first |
| InitAssets.Unlisted | src/Services/PackageInitializationService.php:135-136 | exactly the candidates that are not listed, in order |
| InitAssets.ComposerCommands | src/Services/PackageInitializationService.php:137 | one `composer require <package>` per package to require, in order |
| InitAssets.ComposerInstallIdempotent | src/Services/PackageInitializationService.php:134-143 | once the required packages are installed, a second run requires nothing |
| InitAssets.RequireAll | src/Services/PackageInitializationService.php:134-143 | installing a list lists all of it and keeps every earlier listing |
| InitAssets.CreateAssetFile | src/Services/JavaScriptAssetService.php:122-140 | written iff absent, forced or confirmed; a kept file leaves the tree unchanged; a written one holds the stub; other paths are untouched |
| InitAssets.MainJsFilePath | src/Services/JavaScriptAssetService.php:216-231 | `resources/js/app.js` when it exists, else the typed path; an error iff neither exists |
| InitAssets.ThemeImportStatementMatches | src/Services/JavaScriptAssetService.php:205-208 | the prepended statement matches the theme-import pattern, whatever follows it |
| InitAssets.AddImportToAppJs | src/Services/JavaScriptAssetService.php:205-209 | content starting with the theme import is unchanged; otherwise the statement is prepended; the result always starts with it |
| InitAssets.AddImportToAppJsIdempotent | src/Services/JavaScriptAssetService.php:203-211 | adding the JavaScript import twice is adding it once |
| InitAssets.AddImportToAppJsFile | src/Services/JavaScriptAssetService.php:198-214 | fails iff the main file cannot be located or is a directory; otherwise only that file changes, and it starts with the theme import |
| InitAssets.WriteAssets | src/Services/JavaScriptAssetService.php:33-34 | `utils.js` and `globals/theme.js` each written iff absent, forced or confirmed; something written iff either was; nothing else changes |
| InitAssets.CreateDarkModeAssets | src/Services/JavaScriptAssetService.php:28-47 | true iff a file was written and the import was added; nothing written means unchanged and false; an exception keeps the files already written and gives false |
| InitAssets.SetupAppJs | src/Services/JavaScriptAssetService.php:52-98 | the Livewire route iff `shouldSetupLivewire`; that route runs nothing; the Alpine route runs npm iff Alpine is unlisted and the operator agrees; a declined or failed install leaves the tree alone |
| InitAssets.AppendUnlessPresent | src/Services/JavaScriptAssetService.php:103-116 | the main file gets the stub appended unless the sniffer already finds it; every other file is unchanged |
| InitAssets.SetupAppJsIdempotent | src/Services/JavaScriptAssetService.php:52-117 | when the sniffers recognise their own stubs and Alpine is listed, a second setup changes nothing |

## Left out

- Registry HTTP (`ComponentHttpClient`, `fetchComponentResources`): the fetch is the `registry` parameter, returning a bundle or nothing.
- Credentials, tokens and the login / logout / whoami commands: secret storage, unrelated to the engine.
- `Process::run` for composer, npm and external commands: recorded as events or command strings, never executed; whether a command fails is a parameter.
- Prompts (`confirm`, `select`, `text`): operator oracles. A `text` prompt's default pre-fills the input, so an attempt is the value the operator submits. An operator who answers the same question differently twice is not modelled.
- Console colours, banners, `displayBanner` and `displayCreationSummary`: presentation only. The remove banner's width is kept.
- Stub reading (`ContentTemplateService`): stub texts are parameters.
- Regular-expression sniffing of Alpine and Livewire imports: oracle predicates. `SetupAppJsIdempotent` assumes each sniffer recognises its own stub.
- `InitService`, `InitCommand`, `ListCommand`, `UpdateCommand`, `InstallComponentCommand`, `ServiceProvider`: wiring or I/O only.
- `PackageInitializationService::initializePackage`, `createCssThemeFile` and `installNodeDependencies` are not part of this model. `initializePackage` passes the JS directory where `JavaScriptAssetService` expects `forceOverwrite`; the model takes `force` as given.
- `DryRunStrategy` dependency handling passes the `internal` map itself as the descriptor, so only keys literally named `internal` or `external` would act. The model treats it as no action.
- Engine.HandleExistingComponent: the source's namespaces are only partly migrated from Fluxtor to Sheaf, so some calls name members that are not in the repository. The model identifies them as follows:
  - `setOverwrite(true)` at src/Strategies/Installation/SkipDependenciesStrategy.php:107 sets the configuration's `force` flag. The `InstallationConfig` in src/Support/InstallationConfig.php has no such method.
  - `FluxtorFileInstaller` (same file, line 8) is the Sheaf file installer, `SheafInstall`, reading that shared flag.
  - `FluxtorConfig::saveInstalledComponent` (same file, line 31) and `FluxtorConfig::getInstalledComponents()` at src/Services/DependencyInstaller.php:100 are the `sheaf.json` manifest operations. src/Services/FluxtorConfig.php defines neither.
  - The `Fluxtor\Cli\Traits\DependencyInstaller` trait used at src/Strategies/Installation/DependencyOnlyStrategy.php:7 is `CanHandleDependenciesInstallation`.
  - These identifications carry over to Engine.ExecuteSkipDependencies, Engine.OverwriteChoiceOverwritesAll, Engine.ServiceInternalDeps and Engine.ExecuteDependencyOnly.
- Engine.ComponentInstall: thrown exceptions other than a failed fetch are not modelled; every strategy the factory picks returns SUCCESS.
- Engine.InternalLoop: the recursion depth is bounded by `fuel`; at zero fuel, a stale dependency is not installed. The source has no bound and loops on a dependency cycle.
- Remover.Remove: the nested removal of a dependency is bounded by `fuel` in the same way.
- Updater.HandleUpdate: the Sheaf-side `InstallationConfig` the updater builds is not in the repository. It is modelled as all flags false, named after the component.
- `resource_path('/js/app.js')` and the other `resource_path` / `base_path` paths are project-relative (`resources/js/app.js`). `File::exists` on the typed main-JS path is treated as project-relative too.
- An undecodable `sheaf.json`, `composer.json` or `package.json` is treated as absent. JSON encoding, and the `isset` test on a null version, are not modelled.
- `ensureDirectoryStructure` and `ensureDirectoryExists`: directories exist implicitly once a file lies below them.
- FileInstaller.Install: a bundle path without `/` is written and reported `created`. The source fails on it: `str($filePath)->beforeLast('/')` returns the whole path, `File::ensureDirectoryExists` makes a directory there, and `File::put` onto that directory raises a warning that Laravel turns into an exception. This happens at src/Services/SheafFileInstaller.php:56-58, src/Services/ComponentUpdater.php:127-129 and src/Commands/AddComponentCommand.php:60-62, so the same gap holds for FileInstaller.AddComponentFiles and Updater.ReplaceFiles. Only the trait at src/Traits/CanHandleFilesInstallation.php:62-64 is safe, because it goes through `base_path`.
- Engine.ExecuteFull: with internal dependencies the contract states which dependencies end up installed, not the final tree, because nested installs may write the same paths again.
- Engine.InternalLoop: staleness is the corrected `IsStale`, which reads a `sheaf.json` without `components` as "not installed"; the source faults there (first row of Findings).
- Updater.HandleUpdate: `needsUpdate` is the corrected `IsStale` as well; line 117 of src/Services/ComponentUpdater.php makes the same unguarded `components` lookup as the dependency check.
- Remover.Remove: a lock without `files` reaches the unguarded `foreach` at line 61 of src/Services/ComponentRemover.php. Laravel turns the undefined-key warning into an exception, after the views are already deleted. The model treats a missing `files` section as nothing to clean, like the guarded `internalDependencies` and `helpers` sections.
- Remover.Remove: src/Services/SheafConfig.php does not define four helpers that the lock and manifest code calls:
  - `loadSheafLock` and `saveSheafLock` (src/Services/ComponentRemover.php:46 and :56, src/Traits/CanUpdateSheafLock.php:13 and :20);
  - `getSheafFile` and `saveSheafFile` (src/Services/ComponentRemover.php:127 and :131, src/Services/ComponentUpdater.php:111).
  - As written, the first call would fail as an undefined method. The model reads each as a whole-file read or write: `sheaf-lock.json` for the lock and `sheaf.json` for the manifest. A missing file reads as empty.
  - This reading also underlies SheafLock.UpdateFiles, SheafLock.UpdateDependencies, Remover.UnsetComponent and Updater.HandleUpdate, and the second row of Findings. If `saveSheafLock` merged rather than overwrote, that row would not hold.
- Remover.Remove: the paths of the remove and update flows are project-relative; unlike the installer's, they do not use `Env.base`. `ComponentView` and `UiRoot` stand for `resource_path(...)`.
- RemoveCommand.RemoveEach: `threaded` selects the removal. False is the command as written, whose saved lock can keep entries a nested removal deleted (second row of Findings); true is the corrected removal. The transcript and tree clauses hold for both.
- RemoveCommand.RemoveEach: `checkComponentExistence` also holds for a plain file at the directory path, which `deleteComponentFiles` does not delete. The contract therefore promises `ViewsGone` (no view directory, no single-file view) rather than the absence of the component.

## Findings

| source | as written | input that shows it | evidently intended | confidence | as-written member | corrected member |
|---|---|---|---|---|---|---|
| src/Traits/CanHandleDependenciesInstallation.php:138 | `array_key_exists($dep, $installedComponents['components'])` is reached whenever `sheaf.json` decodes to a non-empty array, even one without `components`; `needsUpdate` at src/Services/ComponentUpdater.php:117 makes the same lookup | a `sheaf.json` holding only `project_hash` (what `saveProjectHash` writes on a fresh project): the lookup receives null and PHP 8 throws a TypeError | a missing `components` key means the dependency is not installed, so install it | high; not executed | SheafConfig.ShouldInstallFaultsOnHashOnlyFile | SheafConfig.IsStaleAgreesWithSource |
| src/Services/ComponentRemover.php:99-102 | the outer removal loads the lock once, lets the nested `remove($dep)` load and save its own copy, then saves its stale copy over it | lock `files: {shared.js: [icon]}`, `internalDependencies: {icon: [radio]}`; remove `radio` and confirm removing `icon`: `shared.js` is deleted but the saved lock still lists it for `icon` | the nested removal's lock edits survive: the outer removal continues from the lock the nested one saved | high, given whole-file lock load/save; not executed | Remover.StaleLockSaveCounterexample | Remover.RemoveThreaded |
| src/Commands/FluxtorInitCommand.php:212 | `preg_match('/^[a-zA-Z0-9_-]+$/', ...)` without the `D` modifier: `$` also matches before a final newline | `"theme\n"` is accepted and becomes the theme file `theme\n.css` | only letters, digits, `-` and `_` | medium; not executed | InitConfig.TrailingNewlineAccepted | InitConfig.ValidateFileName |

=== FILE: config.dfy ===
/** `InstallationConfig`: the flag record every installation reads, shared
    by reference across the whole recursive installation. The shown class
    holds the four constructor flags; the name, `onlyDeps`, `skipDeps` and
    `outdated` fields are the state behind the mutators and getters the
    strategies and resolvers call on it. */
module Config {
  datatype InstallConfig = InstallConfig(
    force: bool,
    internalDeps: bool,
    externalDeps: bool,
    isDryRun: bool,
    componentName: string,
    onlyDeps: bool,
    skipDeps: bool,
    outdated: bool)

  /** `new InstallationConfig(force, internalDeps, externalDeps, isDryRun)`;
      every flag left out defaults to false. */
  function NewConfig(force: bool, internalDeps: bool, externalDeps: bool, isDryRun: bool): (c: InstallConfig)
    ensures c.force == force && c.internalDeps == internalDeps
    ensures c.externalDeps == externalDeps && c.isDryRun == isDryRun
    ensures !c.onlyDeps && !c.skipDeps && !c.outdated && c.componentName == ""
  {
    InstallConfig(force, internalDeps, externalDeps, isDryRun, "", false, false, false)
  }

  /** The configuration `ComponentUpdater` builds for one component: its name
      and nothing else set. */
  function ForComponent(name: string): (c: InstallConfig)
    ensures c == NewConfig(false, false, false, false).(componentName := name)
  {
    InstallConfig(false, false, false, false, name, false, false, false)
  }

  /** The flags no code path of an installation writes. */
  predicate SameFlags(a: InstallConfig, b: InstallConfig) {
    && a.force == b.force
    && a.internalDeps == b.internalDeps
    && a.externalDeps == b.externalDeps
    && a.isDryRun == b.isDryRun
    && a.skipDeps == b.skipDeps
  }

  /** The dependency loop's edit before each recursive installation:
      `setComponentState(outDated: true)`, `setOnlyDeps(false)`,
      `setComponentName(dep)`. */
  function ForDependency(c: InstallConfig, dep: string): (r: InstallConfig)
    ensures SameFlags(c, r)
    ensures r.outdated && !r.onlyDeps && r.componentName == dep
  {
    c.(outdated := true, onlyDeps := false, componentName := dep)
  }
}

=== FILE: engine.dfy ===
/** The installation engine: `ComponentInstaller::install`, the strategy
    factory, the Full / DependencyOnly / DryRun strategies and the
    dependency resolver of `CanHandleDependenciesInstallation`, which
    recurses into `ComponentInstaller` for every stale dependency. The
    configuration object is shared by reference, so every step returns it.
    The registry has no cycle guard; `fuel` bounds the recursion depth. */
module Engine {
  import opened Wrappers
  import opened OrderedMaps
  import opened Files
  import opened Registry
  import opened SheafConfig
  import opened FileInstaller
  import opened Config
  import opened State

  datatype Strategy = DryRun | DependencyOnly | Full | SkipDependencies

  /** `InstallationStrategyFactory::create`. */
  function Create(c: InstallConfig): (s: Strategy)
    ensures s != SkipDependencies
    ensures s == DryRun <==> c.isDryRun
    ensures s == DependencyOnly <==> !c.isDryRun && c.onlyDeps
    ensures s == Full <==> !c.isDryRun && !c.onlyDeps
  {
    if c.isDryRun then DryRun
    else if c.onlyDeps then DependencyOnly
    else Full
  }

  /** The choice reads two flags and nothing else: not the name, the other
      flags, the files or the disk. */
  lemma CreateReadsOnlyTwoFlags(a: InstallConfig, b: InstallConfig)
    requires a.isDryRun == b.isDryRun && a.onlyDeps == b.onlyDeps
    ensures Create(a) == Create(b)
  {
  }

  datatype Run = Run(world: World, cfg: InstallConfig, status: Status)
  datatype Progress = Progress(world: World, cfg: InstallConfig)
  datatype LoopRun = LoopRun(world: World, cfg: InstallConfig, installed: bool)

  /** What every step of an installation keeps: the lock is never written,
      the transcript only grows, no component leaves the manifest, the four
      constructor flags and `skipDeps` never change, `outdated` is only ever
      set and `onlyDeps` only ever cleared. */
  ghost predicate Keeps(w: World, c: InstallConfig, w2: World, c2: InstallConfig) {
    && w2.lock == w.lock
    && w.log <= w2.log
    && Installed(w.sheaf).Keys <= Installed(w2.sheaf).Keys
    && SameFlags(c, c2)
    && (c.outdated ==> c2.outdated)
    && (c2.onlyDeps ==> c.onlyDeps)
  }

  lemma KeepsTransitive(w1: World, c1: InstallConfig, w2: World, c2: InstallConfig, w3: World, c3: InstallConfig)
    requires Keeps(w1, c1, w2, c2) && Keeps(w2, c2, w3, c3)
    ensures Keeps(w1, c1, w3, c3)
  {
    assert w1.log <= w3.log by {
      assert w3.log[..|w2.log|] == w2.log;
      assert w3.log[..|w1.log|] == w3.log[..|w2.log|][..|w1.log|];
    }
  }

  /** `checkOutDatedDependencies`: is some dependency stale right now? */
  function CheckOutdated(sheaf: SheafFile, deps: PhpArray<int>, i: nat): (r: bool)
    requires i <= |deps.keys|
    ensures r <==> exists j :: i <= j < |deps.keys| && IsStale(sheaf, deps.keys[j], deps.values[deps.keys[j]])
    decreases |deps.keys| - i
  {
    if i == |deps.keys| then false
    else IsStale(sheaf, deps.keys[i], deps.values[deps.keys[i]]) || CheckOutdated(sheaf, deps, i + 1)
  }

  /** Every dependency from position `i` on is current against `sheaf`. */
  ghost predicate AllCurrent(sheaf: SheafFile, deps: PhpArray<int>, i: nat) {
    forall j :: i <= j < |deps.keys| ==> !IsStale(sheaf, deps.keys[j], deps.values[deps.keys[j]])
  }

  /** The transcript lines "Will create: path", one per file. */
  function WillCreateLines(files: seq<FileEntry>): (r: seq<Event>)
    ensures |r| == |files|
    ensures forall i :: 0 <= i < |files| ==> r[i] == WillCreate(files[i].path)
  {
    seq(|files|, i requires 0 <= i < |files| => WillCreate(files[i].path))
  }

  /** One "Overwrite?" prompt per path asked. */
  function OverwritePrompts(paths: seq<string>): (r: seq<Event>)
    ensures |r| == |paths|
    ensures forall i :: 0 <= i < |paths| ==> r[i] == Prompted(OverwriteFile, paths[i])
  {
    seq(|paths|, i requires 0 <= i < |paths| => Prompted(OverwriteFile, paths[i]))
  }

  /** `ComponentInstaller::install`: fetch, pick the strategy for the shared
      configuration, run it. A failed fetch is caught and becomes FAILURE
      before any strategy exists. */
  function ComponentInstall(env: Env, w: World, c: InstallConfig, name: string, fuel: nat): (r: Run)
    ensures Keeps(w, c, r.world, r.cfg)
    ensures env.registry(name).None? ==> r == Run(w.Emit(FetchFailed(name)), c, Failure)
    ensures env.registry(name).Some? ==> r.status == Success && |r.world.log| > |w.log| && r.world.log[|w.log|] == Fetched(name)
    // a dry run writes neither the tree nor the manifest
    ensures env.registry(name).Some? && c.isDryRun ==> r.world.fs == w.fs && r.world.sheaf == w.sheaf && r.cfg == c
    // a full installation records the component, and without dependencies
    // its tree is exactly the file installer's
    ensures env.registry(name).Some? && !c.isDryRun && !c.onlyDeps ==> name in Installed(r.world.sheaf)
    ensures env.registry(name).Some? && !c.isDryRun && !c.onlyDeps && NoDependencies(env.registry(name).value.dependencies) ==>
      r.world.fs == Install(w.fs, env.registry(name).value.files, c.force, env.op.overwriteFile, env.base).fs
    // dependencies only: no file and no manifest write unless an internal
    // dependency is installed
    ensures env.registry(name).Some? && !c.isDryRun && c.onlyDeps && !HasInternal(env.registry(name).value.dependencies) ==>
      r.world.fs == w.fs && r.world.sheaf == w.sheaf
    decreases fuel, 4, 0
  {
    match env.registry(name)
    case None => Run(w.Emit(FetchFailed(name)), c, Failure)
    case Some(b) =>
      var w1 := w.Emit(Fetched(name));
      var s := Create(c);
      var r :=
        if s == DryRun then ExecuteDryRun(w1, c, b)
        else if s == DependencyOnly then ExecuteDependencyOnly(env, w1, c, b, fuel)
        else ExecuteFull(env, w1, c, name, b, fuel);
      KeepsTransitive(w, c, w1, c, r.world, r.cfg);
      assert r.world.log[..|w1.log|] == w1.log;
      r
  }

  /** `FullInstallationStrategy::execute`: files first, then the manifest,
      then the dependencies. The lock is not written. */
  function ExecuteFull(env: Env, w: World, c: InstallConfig, name: string, b: Bundle, fuel: nat): (r: Run)
    ensures Keeps(w, c, r.world, r.cfg)
    ensures r.status == Success
    // recorded even when every file was skipped
    ensures name in Installed(r.world.sheaf)
    // without internal dependencies the tree is the file installer's
    ensures !HasInternal(b.dependencies) ==>
      && r.world.fs == Install(w.fs, b.files, c.force, env.op.overwriteFile, env.base).fs
      && Installed(r.world.sheaf) == Installed(w.sheaf)[name := env.now]
      && r.cfg == c
    // with consent, every internal dependency the registry serves is installed too
    ensures HasInternal(b.dependencies) && fuel > 0 && !c.isDryRun && (c.internalDeps || env.op.installInternal(c.componentName)) ==>
      RegisteredInstalled(env, b.dependencies.value.internal.value, 0, r.world.sheaf)
    decreases fuel, 3, 0
  {
    var o := Install(w.fs, b.files, c.force, env.op.overwriteFile, env.base);
    var w1 := w.(fs := o.fs, sheaf := SaveInstalledComponent(w.sheaf, name, env.now),
                 log := w.log + OverwritePrompts(o.asked) + [Reported(name, o.reports)]);
    var p := InstallDependencies(env, w1, c, b.dependencies, fuel);
    KeepsTransitive(w, c, w1, c, p.world, p.cfg);
    Run(p.world, p.cfg, Success)
  }

  /** The descriptor names at least one internal dependency. */
  predicate HasInternal(deps: Option<Deps>) {
    !NoDependencies(deps) && deps.value.internal.Some? && !deps.value.internal.value.IsEmpty()
  }

  /** The descriptor names at least one external dependency. */
  predicate HasExternal(deps: Option<Deps>) {
    !NoDependencies(deps) && deps.value.external.Some? && !deps.value.external.value.IsEmpty()
  }

  /** `DependencyOnlyStrategy::execute`: no files, no manifest entry. */
  function ExecuteDependencyOnly(env: Env, w: World, c: InstallConfig, b: Bundle, fuel: nat): (r: Run)
    ensures Keeps(w, c, r.world, r.cfg)
    ensures r.status == Success
    // the tree and the manifest change only through internal dependencies
    ensures !HasInternal(b.dependencies) ==> r.world.fs == w.fs && r.world.sheaf == w.sheaf
    ensures NoDependencies(b.dependencies) ==> r == Run(w.Emit(HasNoDependencies(c.componentName)), c, Success)
    ensures !NoDependencies(b.dependencies) ==> |r.world.log| > |w.log| && r.world.log[|w.log|] == OnlyDependencies(c.componentName)
    decreases fuel, 3, 0
  {
    if NoDependencies(b.dependencies) then Run(w.Emit(HasNoDependencies(c.componentName)), c, Success)
    else
      var w1 := w.Emit(OnlyDependencies(c.componentName));
      var p := InstallDependencies(env, w1, c, b.dependencies, fuel);
      KeepsTransitive(w, c, w1, c, p.world, p.cfg);
      assert p.world.log[..|w1.log|] == w1.log;
      Run(p.world, p.cfg, Success)
  }

  /** `DryRunStrategy::execute`: announce each file, touch nothing. */
  function ExecuteDryRun(w: World, c: InstallConfig, b: Bundle): (r: Run)
    ensures r.status == Success && r.cfg == c
    ensures r.world.fs == w.fs && r.world.sheaf == w.sheaf && r.world.lock == w.lock
    ensures |r.world.log| == |w.log| + |b.files|
    ensures r.world.log[..|w.log|] == w.log
    ensures forall i :: 0 <= i < |b.files| ==> r.world.log[|w.log| + i] == WillCreate(b.files[i].path)
  {
    Run(w.(log := w.log + WillCreateLines(b.files)), c, Success)
  }

  /** `installDependencies` of the trait: internal entries, then external. */
  function InstallDependencies(env: Env, w: World, c: InstallConfig, deps: Option<Deps>, fuel: nat): (r: Progress)
    ensures Keeps(w, c, r.world, r.cfg)
    ensures NoDependencies(deps) ==> r == Progress(w, c)
    // without internal entries nothing is installed
    ensures !HasInternal(deps) ==> r.world.fs == w.fs && r.world.sheaf == w.sheaf && r.cfg == c
    // with consent, every internal dependency the registry serves ends up
    // in the manifest
    ensures HasInternal(deps) && fuel > 0 && !c.isDryRun && (c.internalDeps || env.op.installInternal(c.componentName)) ==>
      RegisteredInstalled(env, deps.value.internal.value, 0, r.world.sheaf)
    // the external commands, when run, close the transcript: the internal
    // dependencies are handled first
    ensures HasExternal(deps) && c.externalDeps && env.op.installExternal(r.cfg.componentName) ==>
      var cmds := ExternalCommands(deps.value.external.value, 0);
      |r.world.log| >= |w.log| + |cmds| && r.world.log[|r.world.log| - |cmds|..] == cmds
    decreases fuel, 2, 0
  {
    if NoDependencies(deps) then Progress(w, c)
    else
      var d := deps.value;
      var p1 :=
        if d.internal.Some? && !d.internal.value.IsEmpty() then InstallInternalDeps(env, w, c, d.internal.value, fuel)
        else Progress(w, c);
      if d.external.Some? && !d.external.value.IsEmpty() then
        var p2 := InstallExternalDeps(w := p1.world, c := p1.cfg, deps := d.external.value, env := env);
        KeepsTransitive(w, c, p1.world, p1.cfg, p2.world, p2.cfg);
        p2
      else p1
  }

  /** `installInternalDeps` of the trait: staleness is checked before the
      operator is asked for consent. */
  function InstallInternalDeps(env: Env, w: World, c: InstallConfig, deps: PhpArray<int>, fuel: nat): (r: Progress)
    ensures Keeps(w, c, r.world, r.cfg)
    // nothing stale: no prompt, nothing installed
    ensures AllCurrent(w.sheaf, deps, 0) ==> r == Progress(w.Emit(DepsUpToDate(c.componentName)), c)
    // no flag and a declined prompt: nothing installed
    ensures !AllCurrent(w.sheaf, deps, 0) && !c.internalDeps && !env.op.installInternal(c.componentName) ==>
      r == Progress(w.Emit(Prompted(InstallInternal, c.componentName)), c)
    ensures !AllCurrent(w.sheaf, deps, 0) && c.internalDeps ==> |r.world.log| > |w.log| && r.world.log[|w.log|] == InstallingDeps(c.componentName)
    // with consent, every dependency the registry serves ends up in the
    // manifest: stale ones are installed, current ones already were
    ensures fuel > 0 && !c.isDryRun && (c.internalDeps || env.op.installInternal(c.componentName)) ==>
      RegisteredInstalled(env, deps, 0, r.world.sheaf)
    decreases fuel, 1, 0
  {
    var name := c.componentName;
    if !CheckOutdated(w.sheaf, deps, 0) then Progress(w.Emit(DepsUpToDate(name)), c)
    else
      var w1 := if c.internalDeps then w else w.Emit(Prompted(InstallInternal, name));
      if !(c.internalDeps || env.op.installInternal(name)) then Progress(w1, c)
      else
        var w2 := w1.Emit(InstallingDeps(name));
        var l := InternalLoop(env, w2, c, deps, 0, false, fuel);
        KeepsTransitive(w, c, w2, c, l.world, l.cfg);
        assert l.world.log[..|w2.log|] == w2.log;
        Progress(l.world.Emit(DepsFinished(name, l.installed)), l.cfg)
  }

  /** Every dependency from position `i` on that the registry serves is
      recorded in `sheaf`. */
  ghost predicate RegisteredInstalled(env: Env, deps: PhpArray<int>, i: nat, sheaf: SheafFile) {
    forall j :: i <= j < |deps.keys| && env.registry(deps.keys[j]).Some? ==> deps.keys[j] in Installed(sheaf)
  }


  /** The position of the first dependency from `i` on that is stale
      against `sheaf`: the one the loop reaches first with work to do. */
  ghost function FirstStale(sheaf: SheafFile, deps: PhpArray<int>, i: nat): (j: nat)
    requires i <= |deps.keys| && !AllCurrent(sheaf, deps, i)
    ensures i <= j < |deps.keys| && IsStale(sheaf, deps.keys[j], deps.values[deps.keys[j]])
    ensures forall k :: i <= k < j ==> !IsStale(sheaf, deps.keys[k], deps.values[deps.keys[k]])
    decreases |deps.keys| - i
  {
    if IsStale(sheaf, deps.keys[i], deps.values[deps.keys[i]]) then i else FirstStale(sheaf, deps, i + 1)
  }

  /** The first line an installation of `dep` writes: its fetch, its failed
      fetch, or the fuel bound. */
  predicate StartsInstallOf(e: Event, dep: string) {
    e == Fetched(dep) || e == FetchFailed(dep) || e == FuelExhausted(dep)
  }

  /** The `foreach` of `installInternalDeps`, in map order from position
      `i`: each dependency still stale against the manifest as it is now gets
      the shared configuration edited and is installed recursively; current
      ones are passed over. `installed` is the loop's flag so far. */
  function InternalLoop(env: Env, w: World, c: InstallConfig, deps: PhpArray<int>, i: nat, installed: bool, fuel: nat): (r: LoopRun)
    requires i <= |deps.keys|
    ensures Keeps(w, c, r.world, r.cfg)
    ensures installed ==> r.installed
    // the flag is raised iff some dependency was stale when reached
    ensures !r.installed ==> r.world == w && r.cfg == c && AllCurrent(w.sheaf, deps, i)
    ensures AllCurrent(w.sheaf, deps, i) ==> r == LoopRun(w, c, installed)
    ensures r.installed && !installed ==> !AllCurrent(w.sheaf, deps, i)
    ensures r.installed && !installed ==> r.cfg.outdated && !r.cfg.onlyDeps
    // every dependency the registry serves is in the manifest afterwards: a
    // stale one is installed when reached, a current one already was
    ensures fuel > 0 && !c.isDryRun ==> RegisteredInstalled(env, deps, i, r.world.sheaf)
    // current dependencies are passed over without a line: the first thing
    // the loop does is install the first stale one in map order
    ensures !AllCurrent(w.sheaf, deps, i) ==>
      |r.world.log| > |w.log| && StartsInstallOf(r.world.log[|w.log|], deps.keys[FirstStale(w.sheaf, deps, i)])
    decreases fuel, 0, |deps.keys| - i
  {
    if i == |deps.keys| then LoopRun(w, c, installed)
    else
      var dep := deps.keys[i];
      if IsStale(w.sheaf, dep, deps.values[dep]) then
        var c1 := ForDependency(c, dep);
        var r1 :=
          if fuel == 0 then Run(w.Emit(FuelExhausted(dep)), c1, Failure)
          else ComponentInstall(env, w, c1, dep, fuel - 1);
        var l := InternalLoop(env, r1.world, r1.cfg, deps, i + 1, true, fuel);
        KeepsTransitive(w, c, w, c1, r1.world, r1.cfg);
        KeepsTransitive(w, c, r1.world, r1.cfg, l.world, l.cfg);
        assert fuel > 0 && !c.isDryRun && env.registry(dep).Some? ==> dep in Installed(l.world.sheaf);
        l
      else
        var l := InternalLoop(env, w, c, deps, i + 1, installed, fuel);
        assert dep in Installed(l.world.sheaf);
        l
  }

  /** The configuration is shared down the recursion: when `a`, the only
      dependency of a loop, itself needs `b`, the loop hands back a
      configuration named after `b`, not after the last dependency it
      reached itself. */
  lemma NestedInstallRenamesConfig(env: Env, w: World, c: InstallConfig, a: string, b: string, ta: int, tb: int)
    requires a != b && a !in Installed(w.sheaf) && b !in Installed(w.sheaf)
    requires env.registry(a) == Some(Bundle([], Some(Deps(Some(OMap([b], map[b := tb])), None, None)), ta))
    requires env.registry(b) == Some(Bundle([], None, tb))
    requires c.internalDeps && !c.isDryRun
    ensures InternalLoop(env, w, c, OMap([a], map[a := ta]), 0, false, 2).cfg.componentName == b
  {
    LoopOfOne(env, w, c, OMap([a], map[a := ta]), 2);
    InstallRenamesConfig(env, w, ForDependency(c, a), a, b, ta, tb);
  }

  /** A loop over one stale dependency hands back the configuration its
      installation hands back. */
  lemma LoopOfOne(env: Env, w: World, c: InstallConfig, deps: PhpArray<int>, fuel: nat)
    requires |deps.keys| == 1 && IsStale(w.sheaf, deps.keys[0], deps.values[deps.keys[0]]) && fuel > 0
    ensures InternalLoop(env, w, c, deps, 0, false, fuel).cfg ==
      ComponentInstall(env, w, ForDependency(c, deps.keys[0]), deps.keys[0], fuel - 1).cfg
  {
    var r1 := ComponentInstall(env, w, ForDependency(c, deps.keys[0]), deps.keys[0], fuel - 1);
    assert InternalLoop(env, r1.world, r1.cfg, deps, 1, true, fuel).cfg == r1.cfg;
  }

  /** Installing `a`, which needs `b`, leaves the configuration named `b`. */
  lemma InstallRenamesConfig(env: Env, w: World, c: InstallConfig, a: string, b: string, ta: int, tb: int)
    requires a != b && b !in Installed(w.sheaf)
    requires env.registry(a) == Some(Bundle([], Some(Deps(Some(OMap([b], map[b := tb])), None, None)), ta))
    requires env.registry(b) == Some(Bundle([], None, tb))
    requires c.internalDeps && !c.isDryRun && !c.onlyDeps
    ensures ComponentInstall(env, w, c, a, 1).cfg.componentName == b
  {
    var inner := OMap([b], map[b := tb]);
    var wa := w.Emit(Fetched(a));
    var bundle := env.registry(a).value;
    var full := ExecuteFull(env, wa, c, a, bundle, 1);
    assert ComponentInstall(env, w, c, a, 1).cfg == full.cfg;
    var oa := Install(wa.fs, [], c.force, env.op.overwriteFile, env.base);
    var wa1 := wa.(fs := oa.fs, sheaf := SaveInstalledComponent(wa.sheaf, a, env.now),
                   log := wa.log + OverwritePrompts(oa.asked) + [Reported(a, oa.reports)]);
    assert full.cfg == InstallDependencies(env, wa1, c, bundle.dependencies, 1).cfg;
    assert InstallDependencies(env, wa1, c, bundle.dependencies, 1).cfg == InstallInternalDeps(env, wa1, c, inner, 1).cfg;
    assert b !in Installed(wa1.sheaf);
    assert CheckOutdated(wa1.sheaf, inner, 0);
    var wa2 := wa1.Emit(InstallingDeps(a));
    assert InstallInternalDeps(env, wa1, c, inner, 1).cfg == InternalLoop(env, wa2, c, inner, 0, false, 1).cfg;
    LoopRenamesConfig(env, wa2, c, b, tb);
  }

  /** A loop whose only dependency `b` is stale installs it under a
      configuration named `b`. */
  lemma LoopRenamesConfig(env: Env, w: World, c: InstallConfig, b: string, tb: int)
    requires b !in Installed(w.sheaf)
    requires env.registry(b) == Some(Bundle([], None, tb))
    ensures InternalLoop(env, w, c, OMap([b], map[b := tb]), 0, false, 1).cfg.componentName == b
  {
    LoopOfOne(env, w, c, OMap([b], map[b := tb]), 1);
    assert ComponentInstall(env, w, ForDependency(c, b), b, 0).cfg == ForDependency(c, b);
  }

  /** The commands run, in order, as recorded in a transcript. */
  function Commands(log: seq<Event>): (r: seq<string>)
    ensures |r| <= |log|
  {
    if log == [] then []
    else (if log[0].RanProcess? then [log[0].command] else []) + Commands(log[1..])
  }

  /** A transcript shows no command exactly when it has no process line. */
  lemma {:induction false} CommandsNone(log: seq<Event>)
    ensures Commands(log) == [] <==> forall i :: 0 <= i < |log| ==> !log[i].RanProcess?
    decreases |log|
  {
    if log != [] {
      CommandsNone(log[1..]);
      assert forall i :: 1 <= i < |log| ==> log[i] == log[1..][i - 1];
    }
  }

  /** The commands of a joined transcript are those of its parts, in order. */
  lemma {:induction false} CommandsAppend(a: seq<Event>, b: seq<Event>)
    ensures Commands(a + b) == Commands(a) + Commands(b)
    decreases |a|
  {
    if a == [] {
      assert a + b == b;
    } else {
      assert (a + b)[0] == a[0];
      assert (a + b)[1..] == a[1..] + b;
      CommandsAppend(a[1..], b);
    }
  }

  /** The `dep[1]` strings of an `external` map from position `i`, in map
      order. */
  function ExternalCommandLines(deps: PhpArray<External>, i: nat): (r: seq<string>)
    requires i <= |deps.keys|
    ensures |r| == |deps.keys| - i
    decreases |deps.keys| - i
  {
    if i == |deps.keys| then [] else [deps.values[deps.keys[i]].command] + ExternalCommandLines(deps, i + 1)
  }

  /** The commands the transcript shows for an `external` map are its
      `dep[1]` strings, in map order. */
  lemma {:induction false} ExternalCommandsRun(deps: PhpArray<External>, i: nat)
    requires i <= |deps.keys|
    ensures Commands(ExternalCommands(deps, i)) == ExternalCommandLines(deps, i)
    decreases |deps.keys| - i
  {
    if i < |deps.keys| {
      var x := RanProcess(deps.keys[i], deps.values[deps.keys[i]].command);
      ExternalCommandsStep(deps, i);
      CommandsCons(x, ExternalCommands(deps, i + 1));
      ExternalCommandsRun(deps, i + 1);
    }
  }

  lemma ExternalCommandsStep(deps: PhpArray<External>, i: nat)
    requires i < |deps.keys|
    ensures ExternalCommands(deps, i) == [RanProcess(deps.keys[i], deps.values[deps.keys[i]].command)] + ExternalCommands(deps, i + 1)
  {
  }

  lemma CommandsCons(x: Event, t: seq<Event>)
    ensures Commands([x] + t) == (if x.RanProcess? then [x.command] else []) + Commands(t)
  {
    assert ([x] + t)[1..] == t;
  }

  /** The `dep[1]` shell commands of an `external` map, in map order. */
  function ExternalCommands(deps: PhpArray<External>, i: nat): (r: seq<Event>)
    requires i <= |deps.keys|
    ensures |r| == |deps.keys| - i
    ensures forall j :: 0 <= j < |r| ==> r[j] == RanProcess(deps.keys[i + j], deps.values[deps.keys[i + j]].command)
    decreases |deps.keys| - i
  {
    if i == |deps.keys| then []
    else [RanProcess(deps.keys[i], deps.values[deps.keys[i]].command)] + ExternalCommands(deps, i + 1)
  }

  /** `installExternalDeps`: with the flag set the operator is asked, and only
      a confirmation runs the commands. */
  function InstallExternalDeps(env: Env, w: World, c: InstallConfig, deps: PhpArray<External>): (r: Progress)
    ensures Keeps(w, c, r.world, r.cfg)
    ensures r.cfg == c && r.world.fs == w.fs && r.world.sheaf == w.sheaf
    ensures !c.externalDeps ==> r.world == w
    ensures c.externalDeps ==> |r.world.log| > |w.log| && r.world.log[|w.log|] == Prompted(InstallExternal, c.componentName)
    ensures c.externalDeps && env.op.installExternal(c.componentName) ==>
      |r.world.log| >= |w.log| + 2 && r.world.log[|w.log| + 2..] == ExternalCommands(deps, 0)
    ensures !(c.externalDeps && env.op.installExternal(c.componentName)) ==>
      Commands(r.world.log[|w.log|..]) == []
  {
    var name := c.componentName;
    if !c.externalDeps then Progress(w, c)
    else
      var w1 := w.Emit(Prompted(InstallExternal, name));
      if !env.op.installExternal(name) then
        assert w1.log[|w.log|..] == [Prompted(InstallExternal, name)];
        Progress(w1, c)
      else
        var w2 := w1.(log := w1.log + [InstallingExternal(name)] + ExternalCommands(deps, 0));
        assert w2.log[..|w.log|] == w.log;
        Progress(w2, c)
  }

  /** `DependencyInstaller::install`, the service variant: it honours
      `skipDeps`, and the operator is asked for consent before staleness is
      looked at. */
  function ServiceInstall(env: Env, w: World, c: InstallConfig, deps: Option<Deps>, fuel: nat): (r: Progress)
    ensures Keeps(w, c, r.world, r.cfg)
    ensures NoDependencies(deps) ==> r == Progress(w, c)
    // skipping returns before any internal or external installation
    ensures !NoDependencies(deps) && c.skipDeps ==> r == Progress(w.Emit(SkipDepsWarning(c.componentName)), c)
  {
    if NoDependencies(deps) then Progress(w, c)
    else if c.skipDeps then Progress(w.Emit(SkipDepsWarning(c.componentName)), c)
    else
      var d := deps.value;
      var p1 :=
        if d.internal.Some? && !d.internal.value.IsEmpty() then ServiceInternalDeps(env, w, c, d.internal.value, fuel)
        else Progress(w, c);
      if d.external.Some? && !d.external.value.IsEmpty() then
        var p2 := InstallExternalDeps(env, p1.world, p1.cfg, d.external.value);
        KeepsTransitive(w, c, p1.world, p1.cfg, p2.world, p2.cfg);
        p2
      else p1
  }

  /** `DependencyInstaller::installInternalDeps`: consent first, then the same
      loop; the closing line says whether anything was installed. */
  function ServiceInternalDeps(env: Env, w: World, c: InstallConfig, deps: PhpArray<int>, fuel: nat): (r: Progress)
    ensures Keeps(w, c, r.world, r.cfg)
    // the prompt comes first, whether or not anything is stale
    ensures !c.internalDeps ==> |r.world.log| > |w.log| && r.world.log[|w.log|] == Prompted(InstallInternal, c.componentName)
    ensures !c.internalDeps && !env.op.installInternal(c.componentName) ==>
      r == Progress(w.Emit(Prompted(InstallInternal, c.componentName)), c)
    // with consent, "already up to date" is reported iff nothing was stale
    ensures (c.internalDeps || env.op.installInternal(c.componentName)) ==>
      |r.world.log| > |w.log| &&
      (r.world.log[|r.world.log| - 1] == DepsFinished(c.componentName, false) <==> AllCurrent(w.sheaf, deps, 0))
  {
    var name := c.componentName;
    var w1 := if c.internalDeps then w else w.Emit(Prompted(InstallInternal, name));
    if !(c.internalDeps || env.op.installInternal(name)) then Progress(w1, c)
    else
      var l := InternalLoop(env, w1.Emit(InstallingDeps(name)), c, deps, 0, false, fuel);
      ServiceFinish(w, c, w1, deps, l);
      Progress(l.world.Emit(DepsFinished(name, l.installed)), l.cfg)
  }

  /** The closing line of `DependencyInstaller::installInternalDeps`, after
      the loop `l` has run on the transcript `w1` plus the opening line. */
  lemma ServiceFinish(w: World, c: InstallConfig, w1: World, deps: PhpArray<int>, l: LoopRun)
    requires w1 == if c.internalDeps then w else w.Emit(Prompted(InstallInternal, c.componentName))
    requires Keeps(w1.Emit(InstallingDeps(c.componentName)), c, l.world, l.cfg)
    requires !l.installed ==> AllCurrent(w.sheaf, deps, 0)
    requires l.installed ==> !AllCurrent(w.sheaf, deps, 0)
    ensures var r := l.world.Emit(DepsFinished(c.componentName, l.installed));
      && Keeps(w, c, r, l.cfg)
      && (!c.internalDeps ==> |r.log| > |w.log| && r.log[|w.log|] == Prompted(InstallInternal, c.componentName))
      && |r.log| > |w.log|
      && (r.log[|r.log| - 1] == DepsFinished(c.componentName, false) <==> AllCurrent(w.sheaf, deps, 0))
  {
    var w2 := w1.Emit(InstallingDeps(c.componentName));
    assert Keeps(w, c, w2, c);
    KeepsTransitive(w, c, w2, c, l.world, l.cfg);
    assert l.world.log[..|w1.log|] == w1.log by {
      assert l.world.log[..|w2.log|] == w2.log;
      assert w2.log[..|w1.log|] == w1.log;
    }
  }

  /** The two resolvers differ in when they ask: with nothing stale and no
      flag, the trait asks nothing while the service still asks. */
  lemma ConsentOrderDiffers(env: Env, w: World, c: InstallConfig, deps: PhpArray<int>, fuel: nat)
    requires AllCurrent(w.sheaf, deps, 0) && !c.internalDeps
    ensures InstallInternalDeps(env, w, c, deps, fuel).world.log == w.log + [DepsUpToDate(c.componentName)]
    ensures ServiceInternalDeps(env, w, c, deps, fuel).world.log[|w.log|] == Prompted(InstallInternal, c.componentName)
  {
  }

  /** `views/components/ui/<name>` exists, as a directory or a file. */
  predicate ComponentPresent(fs: Fs, name: string) {
    Exists(fs, SheafLock.UiRoot + name)
  }

  /** `handleExistingComponent` with `processExistingComponentChoice`: `None`
      is the `null` that lets `execute` proceed, `Some(Invalid)` stops it. */
  function HandleExistingComponent(env: Env, w: World, c: InstallConfig): (r: (World, InstallConfig, Option<Status>))
    ensures r.2.None? || r.2 == Some(Invalid)
    ensures r.0.fs == w.fs && r.0.sheaf == w.sheaf && r.0.lock == w.lock
    // no prompt when the component is absent or force is set
    ensures !ComponentPresent(w.fs, c.componentName) || c.force ==> r == (w, c, None)
    ensures ComponentPresent(w.fs, c.componentName) && !c.force ==>
      |r.0.log| > |w.log| && r.0.log[|w.log|] == Prompted(ExistingComponent, c.componentName)
    ensures ComponentPresent(w.fs, c.componentName) && !c.force ==>
      match env.op.existingComponent(c.componentName)
      case Interactive => r.1 == c && r.2.None?
      case DependenciesOnly => r.1 == c.(onlyDeps := true) && r.2.None?
      case OverwriteAll =>
        if env.op.confirmDestructive(c.componentName) then r.1 == c.(force := true) && r.2.None?
        else r.1 == c && r.2 == Some(Invalid)
      case Cancel => r.1 == c && r.2 == Some(Invalid)
  {
    var name := c.componentName;
    if !ComponentPresent(w.fs, name) || c.force then (w, c, None)
    else
      var w1 := w.Emit(Prompted(ExistingComponent, name));
      match env.op.existingComponent(name)
      case Interactive => (w1, c, None)
      case DependenciesOnly => (w1.Emit(SkippingFiles), c.(onlyDeps := true), None)
      case OverwriteAll =>
        var w2 := w1.Emit(Prompted(ConfirmDestructive, name));
        if env.op.confirmDestructive(name) then (w2.Emit(OverwriteAllWarning), c.(force := true), None)
        else (w2, c, Some(Invalid))
      case Cancel => (w1, c, Some(Invalid))
  }

  /** `SkipDependenciesStrategy::execute`: the conflict choice, then files and
      the manifest; dependencies are never looked at. */
  function ExecuteSkipDependencies(env: Env, w: World, c: InstallConfig, name: string, b: Bundle): (r: Run)
    ensures r.status == Success || r.status == Invalid
    ensures r.world.lock == w.lock
    // cancelled: no file and no manifest change
    ensures r.status == Invalid ==> r.world.fs == w.fs && r.world.sheaf == w.sheaf
    ensures r.status == Success ==>
      && r.world.fs == SheafInstall(w.fs, b.files, r.cfg.force, env.op.overwriteFile).fs
      && Installed(r.world.sheaf) == Installed(w.sheaf)[name := env.now]
  {
    var (w1, c1, stop) := HandleExistingComponent(env, w, c);
    if stop.Some? then Run(w1.Emit(Cancelled), c1, Invalid)
    else
      var o := SheafInstall(w1.fs, b.files, c1.force, env.op.overwriteFile);
      var w2 := w1.(fs := o.fs, sheaf := SaveInstalledComponent(w1.sheaf, name, env.now),
                    log := w1.log + OverwritePrompts(o.asked) + [Reported(name, o.reports)]);
      Run(w2, c1, Success)
  }

  /** Choosing "dependencies" still installs every file: nothing re-dispatches
      on the `onlyDeps` flag it sets. */
  lemma DependenciesChoiceStillInstallsFiles(env: Env, w: World, c: InstallConfig, name: string, b: Bundle)
    requires ComponentPresent(w.fs, c.componentName) && !c.force
    requires env.op.existingComponent(c.componentName) == DependenciesOnly
    ensures var r := ExecuteSkipDependencies(env, w, c, name, b);
      && r.status == Success && r.cfg.onlyDeps
      && r.world.fs == SheafInstall(w.fs, b.files, false, env.op.overwriteFile).fs
  {
  }

  /** Confirming "overwrite" sets force for the file installer, so every file
      is written and nobody is asked per file. */
  lemma OverwriteChoiceOverwritesAll(env: Env, w: World, c: InstallConfig, name: string, b: Bundle)
    requires ComponentPresent(w.fs, c.componentName) && !c.force
    requires env.op.existingComponent(c.componentName) == OverwriteAll
    requires env.op.confirmDestructive(c.componentName)
    ensures var r := ExecuteSkipDependencies(env, w, c, name, b);
      var o := SheafInstall(w.fs, b.files, true, env.op.overwriteFile);
      && r.status == Success && r.cfg.force
      && r.world.fs == o.fs
      && o.asked == []
      && forall i :: 0 <= i < |b.files| ==> o.reports[i].action != Skipped
  {
  }
}

=== FILE: file_installer.dfy ===
/** The per-file create / skip / overwrite decision shared by
    `SheafFileInstaller::install`, `CanHandleFilesInstallation::installFiles`
    and the older `AddComponentCommand::addComponentFiles`. The operator's
    "Overwrite?" answer is an oracle keyed by path. */
module FileInstaller {
  import opened Strings
  import opened Registry
  import opened Files
  import opened Wrappers

  datatype Action = Created | Skipped | Overwritten | Overrided

  /** One `['path' => ..., 'action' => ...]` record. */
  datatype Report = Report(path: string, action: Action)

  /** The tree after the loop, one record per input file, and the paths the
      operator was asked about, in asking order. */
  datatype Outcome = Outcome(fs: Fs, reports: seq<Report>, asked: seq<string>)

  /** The decision for one file against the tree as it is at that moment. */
  function Decide(fs: Fs, path: string, force: bool, confirm: string -> bool): Action {
    if !Exists(fs, path) then Created
    else if force || confirm(path) then Overwritten
    else Skipped
  }

  /** The write targets of the entries not skipped. */
  ghost function Targets(files: seq<FileEntry>, reports: seq<Report>, base: string): set<string> {
    set i | 0 <= i < |files| && i < |reports| && reports[i].action != Skipped :: base + files[i].path
  }

  lemma TargetsSplit(files: seq<FileEntry>, reports: seq<Report>, base: string)
    requires files != [] && reports != []
    ensures Targets(files, reports, base)
         == (if reports[0].action != Skipped then {base + files[0].path} else {})
          + Targets(files[1..], reports[1..], base)
  {
    var rest := Targets(files[1..], reports[1..], base);
    forall t | t in Targets(files, reports, base)
      ensures t in rest || (reports[0].action != Skipped && t == base + files[0].path)
    {
      var i :| 0 <= i < |files| && i < |reports| && reports[i].action != Skipped && t == base + files[i].path;
      if i > 0 {
        assert files[1..][i - 1] == files[i] && reports[1..][i - 1] == reports[i];
      }
    }
    forall t | t in rest ensures t in Targets(files, reports, base) {
      var j :| 0 <= j < |files[1..]| && j < |reports[1..]| && reports[1..][j].action != Skipped
        && t == base + files[1..][j].path;
      assert files[j + 1] == files[1..][j] && reports[j + 1] == reports[1..][j];
    }
  }

  /** The loop: the existence test uses the path as given, the write goes to
      `base + path` (`base_path`; the empty string when the two agree). The
      force flag is read once and applies to every file. */
  function Install(fs: Fs, files: seq<FileEntry>, force: bool, confirm: string -> bool, base: string): (o: Outcome)
    ensures |o.reports| == |files|
    ensures forall i :: 0 <= i < |files| ==> o.reports[i].path == files[i].path
    ensures forall i :: 0 <= i < |files| ==> o.reports[i].action != Overrided
    // only the targets of entries recorded as created or overwritten change
    ensures o.fs.Keys == fs.Keys + Targets(files, o.reports, base)
    ensures forall k :: k in fs && k !in Targets(files, o.reports, base) ==> o.fs[k] == fs[k]
    // with force set nothing is skipped and nobody is asked
    ensures force ==> o.asked == [] && forall i :: 0 <= i < |files| ==> o.reports[i].action != Skipped
    ensures |o.asked| <= |files|
    decreases |files|
  {
    if files == [] then Outcome(fs, [], [])
    else
      var p := files[0].path;
      var a := Decide(fs, p, force, confirm);
      var fs1 := if a == Skipped then fs else fs[base + p := files[0].content];
      var asked := if Exists(fs, p) && !force then [p] else [];
      var rest := Install(fs1, files[1..], force, confirm, base);
      var o := Outcome(rest.fs, [Report(p, a)] + rest.reports, asked + rest.asked);
      assert forall i :: 1 <= i < |files| ==> files[i] == files[1..][i - 1] && o.reports[i] == rest.reports[i - 1];
      InstallFrameStep(fs, fs1, files, base, a, rest.fs, rest.reports, o.reports);
      o
  }

  /** The frame of one step of the loop extends to the whole loop. */
  lemma InstallFrameStep(fs: Fs, fs1: Fs, files: seq<FileEntry>, base: string, a: Action,
                         restFs: Fs, restReports: seq<Report>, reports: seq<Report>)
    requires files != []
    requires reports == [Report(files[0].path, a)] + restReports
    requires fs1 == if a == Skipped then fs else fs[base + files[0].path := files[0].content]
    requires restFs.Keys == fs1.Keys + Targets(files[1..], restReports, base)
    requires forall k :: k in fs1 && k !in Targets(files[1..], restReports, base) ==> restFs[k] == fs1[k]
    ensures restFs.Keys == fs.Keys + Targets(files, reports, base)
    ensures forall k :: k in fs && k !in Targets(files, reports, base) ==> restFs[k] == fs[k]
  {
    TargetsSplit(files, reports, base);
    assert reports[1..] == restReports;
  }

  /** A written entry leaves its own content at its target, unless a later
      entry of the same path writes over it. */
  lemma {:induction false} InstallWritesContent(fs: Fs, files: seq<FileEntry>, force: bool, confirm: string -> bool, base: string)
    ensures var o := Install(fs, files, force, confirm, base);
      forall i :: 0 <= i < |files| && o.reports[i].action != Skipped && LastOfPath(files, i) ==>
        base + files[i].path in o.fs && o.fs[base + files[i].path] == files[i].content
    decreases |files|
  {
    if files != [] {
      var p := files[0].path;
      var a := Decide(fs, p, force, confirm);
      var fs1 := if a == Skipped then fs else fs[base + p := files[0].content];
      var rest := Install(fs1, files[1..], force, confirm, base);
      var o := Install(fs, files, force, confirm, base);
      assert o.fs == rest.fs && o.reports == [Report(p, a)] + rest.reports;
      InstallWritesContent(fs1, files[1..], force, confirm, base);
      WritesContentStep(files, base, fs1, a, rest.fs, rest.reports, o.reports);
    }
  }

  /** One step of that induction, apart from the loop itself. */
  lemma WritesContentStep(files: seq<FileEntry>, base: string, fs1: Fs, a: Action,
                          restFs: Fs, restReports: seq<Report>, reports: seq<Report>)
    requires files != [] && |restReports| == |files| - 1
    requires reports == [Report(files[0].path, a)] + restReports
    requires a != Skipped ==> base + files[0].path in fs1 && fs1[base + files[0].path] == files[0].content
    requires forall k :: k in fs1 && k !in Targets(files[1..], restReports, base) ==> k in restFs && restFs[k] == fs1[k]
    requires forall i :: 0 <= i < |files[1..]| && restReports[i].action != Skipped && LastOfPath(files[1..], i) ==>
      base + files[1..][i].path in restFs && restFs[base + files[1..][i].path] == files[1..][i].content
    ensures forall i :: 0 <= i < |files| && reports[i].action != Skipped && LastOfPath(files, i) ==>
      base + files[i].path in restFs && restFs[base + files[i].path] == files[i].content
  {
    forall i | 0 <= i < |files| && reports[i].action != Skipped && LastOfPath(files, i)
      ensures base + files[i].path in restFs && restFs[base + files[i].path] == files[i].content
    {
      if i == 0 {
        LastTargetKept(files, restReports, base);
      } else {
        assert files[i] == files[1..][i - 1] && reports[i] == restReports[i - 1];
        assert LastOfPath(files[1..], i - 1);
      }
    }
  }

  /** Entry `i` is the last one naming its path. */
  predicate LastOfPath(files: seq<FileEntry>, i: int)
    requires 0 <= i < |files|
  {
    forall j :: i < j < |files| ==> files[j].path != files[i].path
  }

  /** The first entry's target is no later entry's target when no later
      entry names its path. */
  lemma LastTargetKept(files: seq<FileEntry>, reports: seq<Report>, base: string)
    requires files != [] && LastOfPath(files, 0)
    ensures base + files[0].path !in Targets(files[1..], reports, base)
  {
    var t := base + files[0].path;
    forall j | 0 <= j < |files[1..]| ensures base + files[1..][j].path != t {
      assert files[1..][j] == files[j + 1];
      assert (base + files[j + 1].path)[|base|..] == files[j + 1].path;
      assert t[|base|..] == files[0].path;
    }
  }

  /** `SheafFileInstaller::install`: the target is the path itself. */
  function SheafInstall(fs: Fs, files: seq<FileEntry>, force: bool, confirm: string -> bool): Outcome {
    Install(fs, files, force, confirm, "")
  }

  /** No path of the list is repeated or lies inside the directory of another,
      so no entry's write changes what a later entry's existence test sees. */
  predicate Independent(files: seq<FileEntry>) {
    forall i, j :: 0 <= i < |files| && 0 <= j < |files| && i != j ==>
      files[i].path != files[j].path && !StartsWith(files[j].path, files[i].path + "/")
  }

  /** The decision table against the tree before the call: absent is
      created, force overwrites, otherwise the operator's answer decides. */
  lemma {:induction false} SheafInstallDecisions(fs: Fs, files: seq<FileEntry>, force: bool, confirm: string -> bool)
    requires Independent(files)
    ensures var o := SheafInstall(fs, files, force, confirm);
      forall i :: 0 <= i < |files| ==> o.reports[i].action == Decide(fs, files[i].path, force, confirm)
    decreases |files|
  {
    if files != [] {
      var p := files[0].path;
      var a := Decide(fs, p, force, confirm);
      var fs1 := if a == Skipped then fs else Write(fs, "" + p, files[0].content);
      assert Independent(files[1..]) by {
        forall i, j | 0 <= i < |files[1..]| && 0 <= j < |files[1..]| && i != j
          ensures files[1..][i].path != files[1..][j].path && !StartsWith(files[1..][j].path, files[1..][i].path + "/")
        {
          assert files[1..][i] == files[i + 1] && files[1..][j] == files[j + 1];
        }
      }
      SheafInstallDecisions(fs1, files[1..], force, confirm);
      var o := SheafInstall(fs, files, force, confirm);
      forall i | 1 <= i < |files| ensures o.reports[i].action == Decide(fs, files[i].path, force, confirm) {
        assert files[1..][i - 1] == files[i];
        var q := files[i].path;
        assert q != p && !StartsWith(q, p + "/");
        ExistsUnaffected(fs, p, files[0].content, q);
      }
    }
  }

  /** With independent entries, every entry not skipped leaves its content
      at its path, and a skipped file keeps what it held. */
  lemma SheafInstallContents(fs: Fs, files: seq<FileEntry>, force: bool, confirm: string -> bool)
    requires Independent(files)
    ensures var o := SheafInstall(fs, files, force, confirm);
      forall i :: 0 <= i < |files| ==>
        && (Decide(fs, files[i].path, force, confirm) != Skipped ==>
              files[i].path in o.fs && o.fs[files[i].path] == files[i].content)
        && (Decide(fs, files[i].path, force, confirm) == Skipped && files[i].path in fs ==>
              files[i].path in o.fs && o.fs[files[i].path] == fs[files[i].path])
  {
    var o := SheafInstall(fs, files, force, confirm);
    SheafInstallDecisions(fs, files, force, confirm);
    InstallWritesContent(fs, files, force, confirm, "");
    assert forall k :: k in fs ==> k in o.fs;
    ContentsFromDecisions(fs, files, force, confirm, o.reports, o.fs);
  }

  lemma ContentsFromDecisions(fs: Fs, files: seq<FileEntry>, force: bool, confirm: string -> bool, reports: seq<Report>, ofs: Fs)
    requires Independent(files) && |reports| == |files|
    requires forall i :: 0 <= i < |files| ==> reports[i].action == Decide(fs, files[i].path, force, confirm)
    requires forall i :: 0 <= i < |files| && reports[i].action != Skipped && LastOfPath(files, i) ==>
      "" + files[i].path in ofs && ofs["" + files[i].path] == files[i].content
    requires forall k :: k in fs && k !in Targets(files, reports, "") ==> k in ofs && ofs[k] == fs[k]
    ensures forall i :: 0 <= i < |files| ==>
      && (Decide(fs, files[i].path, force, confirm) != Skipped ==>
            files[i].path in ofs && ofs[files[i].path] == files[i].content)
      && (Decide(fs, files[i].path, force, confirm) == Skipped && files[i].path in fs ==>
            files[i].path in ofs && ofs[files[i].path] == fs[files[i].path])
  {
    forall i | 0 <= i < |files|
      ensures Decide(fs, files[i].path, force, confirm) != Skipped ==>
        files[i].path in ofs && ofs[files[i].path] == files[i].content
      ensures Decide(fs, files[i].path, force, confirm) == Skipped && files[i].path in fs ==>
        files[i].path in ofs && ofs[files[i].path] == fs[files[i].path]
    {
      var q := files[i].path;
      assert "" + q == q;
      assert LastOfPath(files, i);
      forall j | 0 <= j < |files| && j != i ensures "" + files[j].path != q {
        assert "" + files[j].path == files[j].path;
      }
    }
  }

  /** Writing `p` does not change whether an unrelated path `q` exists. */
  lemma ExistsUnaffected(fs: Fs, p: string, content: string, q: string)
    requires q != p && !StartsWith(p, q + "/")
    ensures Exists(Write(fs, "" + p, content), q) == Exists(fs, q)
  {
    assert "" + p == p;
    var fs1 := Write(fs, p, content);
    if IsDirectory(fs1, q) {
      var k :| k in fs1 && StartsWith(k, q + "/");
      assert k != p;
      assert k in fs;
    }
  }

  /** A repeated path sees the earlier write: the second entry is never
      `created`. */
  lemma RepeatedPathSeesEarlierWrite(fs: Fs, a: FileEntry, b: FileEntry, force: bool, confirm: string -> bool)
    requires a.path == b.path
    requires !Exists(fs, a.path)
    ensures SheafInstall(fs, [a, b], force, confirm).reports[1].action != Created
    ensures SheafInstall(fs, [a, b], force, confirm).reports[0].action == Created
  {
    assert [a, b][1..] == [b];
    assert "" + a.path == a.path;
    var fs1 := Write(fs, "" + a.path, a.content);
    assert b.path in fs1;
    assert Exists(fs1, b.path);
    assert SheafInstall(fs, [a, b], force, confirm).reports[1] == SheafInstall(fs1, [b], force, confirm).reports[0];
  }

  /** `CanHandleFilesInstallation::installFiles`: the same decision, with the
      write sent to `base_path(path)`. */
  function InstallAtBase(fs: Fs, files: seq<FileEntry>, force: bool, confirm: string -> bool, base: string): Outcome {
    Install(fs, files, force, confirm, base)
  }

  /** When `base_path` is the identity the trait and the service agree. */
  lemma InstallAtEmptyBaseIsSheafInstall(fs: Fs, files: seq<FileEntry>, force: bool, confirm: string -> bool)
    ensures InstallAtBase(fs, files, force, confirm, "") == SheafInstall(fs, files, force, confirm)
  {
  }

  /** When the tested path and the written path differ, an existing file at
      the written path is replaced without asking and reported `created`. */
  lemma BaseMismatchReplacesSilently()
    ensures var fs := map["/app/x.blade.php" := "mine"];
      var o := InstallAtBase(fs, [FileEntry("x.blade.php", "theirs")], false, (p: string) => false, "/app/");
      && o.reports == [Report("x.blade.php", Created)]
      && o.asked == []
      && o.fs["/app/x.blade.php"] == "theirs"
  {
    var fs := map["/app/x.blade.php" := "mine"];
    var k := "/app/x.blade.php";
    assert k[0] == '/';
    assert !StartsWith(k, "x.blade.php" + "/") by {
      assert ("x.blade.php" + "/")[0] == 'x';
    }
    assert !Exists(fs, "x.blade.php");
    var files := [FileEntry("x.blade.php", "theirs")];
    assert files[1..] == [];
    var o := InstallAtBase(fs, files, false, (p: string) => false, "/app/");
    assert o.reports[0] == Report("x.blade.php", Created);
    assert o.asked == [];
    assert "/app/" + "x.blade.php" == k;
  }

  /** `addComponentFiles`: no force flag, and the overwrite is recorded as
      `overrided`. */
  function AddComponentFiles(fs: Fs, files: seq<FileEntry>, confirm: string -> bool): (o: Outcome)
    ensures |o.reports| == |files|
    ensures forall i :: 0 <= i < |files| ==> o.reports[i].path == files[i].path
    ensures forall i :: 0 <= i < |files| ==> o.reports[i].action != Overwritten
  {
    var o := SheafInstall(fs, files, false, confirm);
    Outcome(o.fs, RenameOverwritten(o.reports), o.asked)
  }

  function RenameOverwritten(rs: seq<Report>): (r: seq<Report>)
    ensures |r| == |rs|
    ensures forall i :: 0 <= i < |rs| ==>
      r[i].path == rs[i].path &&
      r[i].action == (if rs[i].action == Overwritten then Overrided else rs[i].action)
  {
    if rs == [] then []
    else [if rs[0].action == Overwritten then Report(rs[0].path, Overrided) else rs[0]] + RenameOverwritten(rs[1..])
  }

  /** The older command takes the same decisions as the service without
      force, writing the same tree. */
  lemma AddComponentFilesMatchesSheafInstall(fs: Fs, files: seq<FileEntry>, confirm: string -> bool)
    ensures var legacy := AddComponentFiles(fs, files, confirm);
      var current := SheafInstall(fs, files, false, confirm);
      && legacy.fs == current.fs
      && forall i :: 0 <= i < |files| ==>
           (legacy.reports[i].action == Overrided <==> current.reports[i].action == Overwritten) &&
           (legacy.reports[i].action == Created <==> current.reports[i].action == Created) &&
           (legacy.reports[i].action == Skipped <==> current.reports[i].action == Skipped)
  {
  }

  /** `AddComponentCommand::handle` after the name is known: a failed fetch
      throws, is caught and reported, and no file is touched. */
  function AddComponentHandle(fs: Fs, fetched: Option<seq<FileEntry>>, confirm: string -> bool): (r: (Fs, Result<seq<Report>>))
    ensures fetched.None? ==> r == (fs, Err("Faield to add the component."))
    ensures fetched.Some? ==> r.1.Ok? && |r.1.value| == |fetched.value|
    ensures fetched.Some? ==> r.0 == SheafInstall(fs, fetched.value, false, confirm).fs
  {
    match fetched
    case None => (fs, Err("Faield to add the component."))
    case Some(files) =>
      var o := AddComponentFiles(fs, files, confirm);
      AddComponentFilesMatchesSheafInstall(fs, files, confirm);
      (o.fs, Ok(o.reports))
  }
}

=== FILE: files.dfy ===
/** The project's file tree as a map from project-relative path to content.
    A directory exists while some file lies below it; creating parent
    directories is implicit in writing a file. */
module Files {
  import opened Strings

  type Fs = map<string, string>

  /** `File::isDirectory(p)`. */
  predicate IsDirectory(fs: Fs, p: string) {
    exists k :: k in fs && StartsWith(k, p + "/")
  }

  /** `File::exists(p)` / `file_exists(p)`: a file or a directory. */
  predicate Exists(fs: Fs, p: string) {
    p in fs || IsDirectory(fs, p)
  }

  /** `File::put` / `File::replace`, after `ensureDirectoryExists`. */
  function Write(fs: Fs, p: string, content: string): (r: Fs)
    ensures p in r && r[p] == content
    ensures forall k :: k in fs && k != p ==> k in r && r[k] == fs[k]
    ensures r.Keys == fs.Keys + {p}
  {
    fs[p := content]
  }

  /** `File::delete(p)`. */
  function Delete(fs: Fs, p: string): (r: Fs)
    ensures p !in r
    ensures r.Keys == fs.Keys - {p}
    ensures forall k :: k in r ==> r[k] == fs[k]
  {
    fs - {p}
  }

  /** `File::deleteDirectory(p)`: everything below `p` goes. */
  function DeleteDirectory(fs: Fs, p: string): (r: Fs)
    ensures !IsDirectory(r, p)
    ensures forall k :: k in fs && !StartsWith(k, p + "/") ==> k in r && r[k] == fs[k]
    ensures forall k :: k in r ==> k in fs && !StartsWith(k, p + "/")
  {
    map k | k in fs && !StartsWith(k, p + "/") :: fs[k]
  }
}

=== FILE: init_assets.dfy ===
/** The edits `fluxtor:init` makes to the project: the theme import in the
    main CSS file, the Composer packages it requires, and the JavaScript
    assets of `JavaScriptAssetService`. File contents are strings; the stub
    texts are parameters. */
module InitAssets {
  import opened Wrappers
  import opened Strings
  import opened Files

  /** The text `addImportToAppCssFile` searches for. */
  function CssImportNeedle(themeFileName: string): string {
    "@import './" + themeFileName + "'"
  }

  /** The statement it prepends. */
  function CssImportStatement(themeFileName: string): string {
    CssImportNeedle(themeFileName) + "; /* By Fluxtor.dev */ \n\n"
  }

  /** `addImportToAppCssFile` on the file's content: the new content and
      whether the statement was added. */
  function AddImportToAppCss(content: string, themeFileName: string): (r: (string, bool))
    ensures Contains(r.0, CssImportNeedle(themeFileName))
    // an existing import is left alone; otherwise the old content follows the new statement
    ensures !r.1 <==> Contains(content, CssImportNeedle(themeFileName))
    ensures !r.1 ==> r.0 == content
    ensures r.1 ==> StartsWith(r.0, CssImportStatement(themeFileName)) && r.0[|CssImportStatement(themeFileName)|..] == content
  {
    if Contains(content, CssImportNeedle(themeFileName)) then (content, false)
    else
      var statement := CssImportStatement(themeFileName);
      var tail := "; /* By Fluxtor.dev */ \n\n";
      assert statement + content == CssImportNeedle(themeFileName) + (tail + content);
      ContainsOwnPrefix(CssImportNeedle(themeFileName), tail + content);
      assert (statement + content)[..|statement|] == statement;
      (statement + content, true)
  }

  /** Adding the import twice is adding it once. */
  lemma AddImportToAppCssIdempotent(content: string, themeFileName: string)
    ensures var once := AddImportToAppCss(content, themeFileName).0;
      AddImportToAppCss(once, themeFileName) == (once, false)
  {
  }

  /** A decoded `composer.json` or `package.json`: the two sections that
      list packages (`require` / `require-dev`, `dependencies` /
      `devDependencies`). `None` is a missing section. */
  datatype PackageManifest = PackageManifest(
    primary: Option<map<string, string>>,
    secondary: Option<map<string, string>>)

  /** `isComposerPackageInstalled` / `isNpmPackageInstalled`: the manifest
      file (`None` when it is missing or does not decode) lists the package
      in either section. */
  predicate IsListed(manifest: Option<PackageManifest>, name: string) {
    && manifest.Some?
    && ((manifest.value.primary.Some? && name in manifest.value.primary.value)
        || (manifest.value.secondary.Some? && name in manifest.value.secondary.value))
  }

  /** What a successful `composer require` / `npm install` leaves in the
      manifest: the package under the primary section. */
  function Require(manifest: Option<PackageManifest>, name: string, version: string): (r: Option<PackageManifest>)
    ensures IsListed(r, name)
    ensures forall other :: IsListed(manifest, other) ==> IsListed(r, other)
    ensures forall other :: other != name && IsListed(r, other) ==> IsListed(manifest, other)
  {
    var m := manifest.GetOr(PackageManifest(None, None));
    Some(m.(primary := Some(m.primary.GetOr(map[])[name := version])))
  }

  /** The packages `installComposerDependencies` considers, in order. */
  function ComposerPackages(enablePhosphorIcons: bool): seq<string> {
    ["wireui/heroicons"] + (if enablePhosphorIcons then ["wireui/phosphoricons"] else [])
  }

  /** The packages it runs `composer require` for, in order: those of the
      list that `composer.json` does not list yet. */
  function PackagesToRequire(composer: Option<PackageManifest>, enablePhosphorIcons: bool): (r: seq<string>)
    ensures forall p :: p in r <==> p in ComposerPackages(enablePhosphorIcons) && !IsListed(composer, p)
    ensures |r| <= 2 && (|r| == 2 ==> r == ComposerPackages(enablePhosphorIcons))
    ensures "wireui/heroicons" in r <==> !IsListed(composer, "wireui/heroicons")
    ensures "wireui/phosphoricons" in r <==> enablePhosphorIcons && !IsListed(composer, "wireui/phosphoricons")
  {
    Unlisted(composer, ComposerPackages(enablePhosphorIcons))
  }

  function Unlisted(composer: Option<PackageManifest>, packages: seq<string>): (r: seq<string>)
    ensures forall p :: p in r <==> p in packages && !IsListed(composer, p)
    ensures |r| <= |packages|
    ensures |r| == |packages| ==> r == packages
    decreases |packages|
  {
    if packages == [] then []
    else
      var rest := Unlisted(composer, packages[1..]);
      assert forall p :: p in packages <==> p == packages[0] || p in packages[1..];
      if IsListed(composer, packages[0]) then rest
      else
        assert [packages[0]] + packages[1..] == packages;
        [packages[0]] + rest
  }

  /** The commands `installComposerDependencies` runs, one per package. */
  function ComposerCommands(composer: Option<PackageManifest>, enablePhosphorIcons: bool): (r: seq<string>)
    ensures |r| == |PackagesToRequire(composer, enablePhosphorIcons)|
    ensures forall i :: 0 <= i < |r| ==> r[i] == "composer require " + PackagesToRequire(composer, enablePhosphorIcons)[i]
  {
    var ps := PackagesToRequire(composer, enablePhosphorIcons);
    seq(|ps|, i requires 0 <= i < |ps| => "composer require " + ps[i])
  }

  /** Once the required packages are installed, running again requires
      nothing. */
  lemma ComposerInstallIdempotent(composer: Option<PackageManifest>, enablePhosphorIcons: bool, version: string)
    ensures var after := RequireAll(composer, PackagesToRequire(composer, enablePhosphorIcons), version);
      PackagesToRequire(after, enablePhosphorIcons) == []
  {
  }

  function RequireAll(manifest: Option<PackageManifest>, names: seq<string>, version: string): (r: Option<PackageManifest>)
    ensures forall p :: p in names ==> IsListed(r, p)
    ensures forall p :: IsListed(manifest, p) ==> IsListed(r, p)
    decreases |names|
  {
    if names == [] then manifest
    else
      assert forall p :: p in names ==> p == names[0] || p in names[1..];
      RequireAll(Require(manifest, names[0], version), names[1..], version)
  }

  const UtilsJsPath: string := "resources/js/utils.js"
  const ThemeJsPath: string := "resources/js/globals/theme.js"
  const AppJsPath: string := "resources/js/app.js"

  /** `createUtilsFile` / `createThemeFile`: an existing file is kept unless
      `force` is set or the operator agrees to overwrite it. The new tree
      and whether the file was written. */
  function CreateAssetFile(fs: Fs, path: string, stub: string, force: bool, confirm: bool): (r: (Fs, bool))
    ensures r.1 <==> !Exists(fs, path) || force || confirm
    ensures !r.1 ==> r.0 == fs
    ensures r.1 ==> path in r.0 && r.0[path] == stub
    ensures forall p :: p != path ==> (p in r.0 <==> p in fs) && (p in fs ==> r.0[p] == fs[p])
  {
    if Exists(fs, path) && !force && !confirm then (fs, false)
    else (Write(fs, path, stub), true)
  }

  /** `getMainJsFilePath`: `resources/js/app.js`, or the path the operator
      types when that is missing; an error when neither exists. */
  function MainJsFilePath(fs: Fs, typed: string): (r: Result<string>)
    ensures r.Ok? ==> Exists(fs, r.value)
    ensures r.Ok? ==> r.value == AppJsPath || (r.value == typed && !Exists(fs, AppJsPath))
    ensures r.Err? <==> !Exists(fs, AppJsPath) && !Exists(fs, typed)
  {
    var path := if Exists(fs, AppJsPath) then AppJsPath else typed;
    if !Exists(fs, path) then
      Err("The file '" + path + "' does not exist in resources/. Please create it or specify the correct path.")
    else Ok(path)
  }

  /** `\s` of PCRE: space, tab, line feed, vertical tab, form feed, carriage
      return. */
  predicate IsSpace(c: char) {
    c == ' ' || c == '\t' || c == '\n' || c == '\U{B}' || c == '\U{C}' || c == '\r'
  }

  predicate IsQuote(c: char) {
    c == '\'' || c == '"'
  }

  const ThemeModule: string := "./globals/theme.js"

  /** The content matches `/^import\s+['"]\.\/globals\/theme\.js['"]/` with
      `k` whitespace characters after `import`. */
  predicate ThemeImportWithGap(content: string, k: int) {
    && 1 <= k
    && 6 + k + |ThemeModule| + 2 <= |content|
    && content[..6] == "import"
    && (forall i :: 6 <= i < 6 + k ==> IsSpace(content[i]))
    && IsQuote(content[6 + k])
    && content[6 + k + 1..6 + k + 1 + |ThemeModule|] == ThemeModule
    && IsQuote(content[6 + k + 1 + |ThemeModule|])
  }

  predicate StartsWithThemeImport(content: string) {
    exists k :: 1 <= k <= |content| && ThemeImportWithGap(content, k)
  }

  const ThemeImportTail: string := "; /* By Fluxtor.dev */ \n\n"

  const ThemeImportStatement: string := "import" + [' ', '\''] + ThemeModule + ['\''] + ThemeImportTail

  /** The statement satisfies the pattern, whatever follows it. */
  lemma ThemeImportStatementMatches(rest: string)
    ensures StartsWithThemeImport(ThemeImportStatement + rest)
  {
    var c := ThemeImportStatement + rest;
    var front := "import" + [' ', '\''];
    assert |front| == 8;
    assert c == front + ThemeModule + (['\''] + ThemeImportTail + rest);
    assert c[..6] == "import";
    assert c[6] == ' ' && c[7] == '\'';
    assert c[8..8 + |ThemeModule|] == ThemeModule;
    assert c[8 + |ThemeModule|] == '\'';
    assert ThemeImportWithGap(c, 1);
  }

  /** `addImportToAppJsFile` on the content: the theme import is prepended
      unless the content already starts with one. */
  function AddImportToAppJs(content: string): (r: string)
    ensures StartsWithThemeImport(r)
    ensures StartsWithThemeImport(content) ==> r == content
    ensures !StartsWithThemeImport(content) ==>
      StartsWith(r, ThemeImportStatement) && r[|ThemeImportStatement|..] == content
  {
    if StartsWithThemeImport(content) then content
    else
      ThemeImportStatementMatches(content);
      assert (ThemeImportStatement + content)[..|ThemeImportStatement|] == ThemeImportStatement;
      ThemeImportStatement + content
  }

  /** Adding the JavaScript import twice is adding it once. */
  lemma AddImportToAppJsIdempotent(content: string)
    ensures AddImportToAppJs(AddImportToAppJs(content)) == AddImportToAppJs(content)
  {
  }

  /** `addImportToAppJsFile` on the tree: the main file is located, read
      (a directory cannot be read) and written back with the import. */
  function AddImportToAppJsFile(fs: Fs, typed: string): (r: Result<Fs>)
    ensures r.Ok? ==> MainJsFilePath(fs, typed).Ok?
    ensures r.Ok? ==> var path := MainJsFilePath(fs, typed).value;
      && path in fs && path in r.value && r.value[path] == AddImportToAppJs(fs[path])
      && StartsWithThemeImport(r.value[path])
      && r.value.Keys == fs.Keys
      && (forall p :: p in fs && p != path ==> r.value[p] == fs[p])
    ensures r.Err? <==> MainJsFilePath(fs, typed).Err? || MainJsFilePath(fs, typed).value !in fs
  {
    match MainJsFilePath(fs, typed)
    case Err(e) => Err(e)
    case Ok(path) =>
      if path !in fs then Err("File does not exist at path " + path + ".")
      else Ok(Write(fs, path, AddImportToAppJs(fs[path])))
  }

  /** The operator's answers and the stub texts `createDarkModeAssets` uses. */
  datatype DarkModeInputs = DarkModeInputs(
    overwriteUtils: bool,
    overwriteTheme: bool,
    typedMainJs: string,
    utilsStub: string,
    themeStub: string)

  lemma AssetPathsDistinct()
    ensures UtilsJsPath != ThemeJsPath && !StartsWith(UtilsJsPath, ThemeJsPath + "/")
    ensures !StartsWith(ThemeJsPath, UtilsJsPath + "/")
  {
    assert UtilsJsPath[13] == 'u' && ThemeJsPath[13] == 'g';
    assert (ThemeJsPath + "/")[13] == 'g' && (UtilsJsPath + "/")[13] == 'u';
  }

  /** The two writes of `createDarkModeAssets`, each subject to its
      overwrite rule: the tree and whether anything was written. */
  function WriteAssets(fs: Fs, force: bool, inputs: DarkModeInputs): (r: (Fs, bool))
    ensures var utils := !Exists(fs, UtilsJsPath) || force || inputs.overwriteUtils;
      var theme := !Exists(fs, ThemeJsPath) || force || inputs.overwriteTheme;
      && (r.1 <==> utils || theme)
      && (utils ==> UtilsJsPath in r.0 && r.0[UtilsJsPath] == inputs.utilsStub)
      && (theme ==> ThemeJsPath in r.0 && r.0[ThemeJsPath] == inputs.themeStub)
      && r.0.Keys == fs.Keys + (if utils then {UtilsJsPath} else {}) + (if theme then {ThemeJsPath} else {})
    ensures forall p :: p in fs && p != UtilsJsPath && p != ThemeJsPath ==> r.0[p] == fs[p]
    ensures !r.1 ==> r.0 == fs
    // with force set nothing is asked and both files are written
    ensures force ==> UtilsJsPath in r.0 && ThemeJsPath in r.0
  {
    var (fs1, utils) := CreateAssetFile(fs, UtilsJsPath, inputs.utilsStub, force, inputs.overwriteUtils);
    AssetPathsDistinct();
    WriteKeepsExists(fs, UtilsJsPath, inputs.utilsStub, ThemeJsPath);
    var (fs2, theme) := CreateAssetFile(fs1, ThemeJsPath, inputs.themeStub, force, inputs.overwriteTheme);
    (fs2, utils || theme)
  }

  /** `createDarkModeAssets`: write the two files, and add the import only
      when one of them was written. Any exception is caught and reported as
      `false`; files written before it stay written. */
  function CreateDarkModeAssets(fs: Fs, force: bool, inputs: DarkModeInputs): (r: (Fs, bool))
    // true exactly when a file was written and the main file could be found and read
    ensures r.1 <==> WriteAssets(fs, force, inputs).1 && AddImportToAppJsFile(WriteAssets(fs, force, inputs).0, inputs.typedMainJs).Ok?
    ensures !r.1 ==> r.0 == WriteAssets(fs, force, inputs).0
    ensures !WriteAssets(fs, force, inputs).1 ==> r == (fs, false)
    // on success the main file, found where it was, starts with the theme import
    ensures r.1 ==> var path := MainJsFilePath(r.0, inputs.typedMainJs);
      path.Ok? && path.value in r.0 && StartsWithThemeImport(r.0[path.value])
    ensures r.0.Keys == WriteAssets(fs, force, inputs).0.Keys
  {
    var (fs2, written) := WriteAssets(fs, force, inputs);
    if !written then (fs2, false)
    else
      match AddImportToAppJsFile(fs2, inputs.typedMainJs)
      case Err(_) => (fs2, false)
      case Ok(fs3) =>
        SameKeysSameExists(fs2, fs3);
        (fs3, true)
  }

  /** Writing `p` does not change whether an unrelated path `q` exists. */
  lemma WriteKeepsExists(fs: Fs, p: string, content: string, q: string)
    requires q != p && !StartsWith(p, q + "/")
    ensures Exists(Write(fs, p, content), q) == Exists(fs, q)
  {
    if IsDirectory(Write(fs, p, content), q) {
      var k :| k in Write(fs, p, content) && StartsWith(k, q + "/");
      assert k != p;
    }
  }

  /** Rewriting files in place changes no existence test, so the main file
      is found where it was. */
  lemma SameKeysSameExists(a: Fs, b: Fs)
    requires a.Keys == b.Keys
    ensures forall p :: Exists(a, p) == Exists(b, p)
    ensures forall typed :: MainJsFilePath(a, typed) == MainJsFilePath(b, typed)
  {
    forall p ensures Exists(a, p) == Exists(b, p) {
      if IsDirectory(a, p) {
        var k :| k in a && StartsWith(k, p + "/");
        assert k in b;
      }
      if IsDirectory(b, p) {
        var k :| k in b && StartsWith(k, p + "/");
        assert k in a;
      }
    }
  }

  /** The oracles of the `app.js` setup: whether the Livewire and Alpine
      imports are already present (regular-expression sniffing, not
      modelled), the operator's consent to install Alpine and whether the
      install succeeds, and the stub texts. */
  datatype AppJsInputs = AppJsInputs(
    typedMainJs: string,
    livewireImported: string -> bool,
    alpineImported: string -> bool,
    installAlpine: bool,
    npmSucceeds: bool,
    livewireStub: string,
    alpineStub: string)

  datatype AppJsRoute = LivewireRoute | AlpineRoute

  /** What a setup did: the tree, the npm command run if any, and the
      route taken. An error is the exception thrown while locating or
      reading the main file. */
  datatype AppJsOutcome = AppJsOutcome(fs: Fs, ran: seq<string>, route: AppJsRoute)

  /** Append `stub` to the main file unless `present` says it is there. */
  function AppendUnlessPresent(fs: Fs, typed: string, present: string -> bool, stub: string): (r: Result<Fs>)
    ensures r.Ok? ==> MainJsFilePath(fs, typed).Ok?
    ensures r.Ok? && MainJsFilePath(fs, typed).Ok? ==> var path := MainJsFilePath(fs, typed).value;
      && path in fs && r.value.Keys == fs.Keys
      && (forall p :: p in fs && p != path ==> r.value[p] == fs[p])
      && r.value[path] == (if present(fs[path]) then fs[path] else fs[path] + stub)
    ensures r.Err? <==> MainJsFilePath(fs, typed).Err? || MainJsFilePath(fs, typed).value !in fs
  {
    match MainJsFilePath(fs, typed)
    case Err(e) => Err(e)
    case Ok(path) =>
      if path !in fs then Err("File does not exist at path " + path + ".")
      else if present(fs[path]) then Ok(fs)
      else Ok(Write(fs, path, fs[path] + stub))
  }

  /** `setupAppJs`: the Livewire route when `shouldSetupLivewire`, else the
      Alpine route, which first installs Alpine when `package.json` does not
      list it and stops when the operator declines or npm fails. */
  function SetupAppJs(fs: Fs, shouldSetupLivewire: bool, packageJson: Option<PackageManifest>, inputs: AppJsInputs): (r: Result<AppJsOutcome>)
    ensures r.Ok? ==> (r.value.route == LivewireRoute <==> shouldSetupLivewire)
    // the Livewire route runs nothing; the Alpine route runs npm only when Alpine is missing and the operator agrees
    ensures r.Ok? && shouldSetupLivewire ==> r.value.ran == []
    ensures r.Ok? && !shouldSetupLivewire ==>
      (r.value.ran != [] <==> !IsListed(packageJson, "alpinejs") && inputs.installAlpine)
    // a declined or failed install leaves the tree alone
    ensures r.Ok? && !shouldSetupLivewire && !IsListed(packageJson, "alpinejs") && !(inputs.installAlpine && inputs.npmSucceeds) ==>
      r.value.fs == fs
    ensures r.Ok? ==> r.value.fs.Keys == fs.Keys
  {
    if shouldSetupLivewire then
      match AppendUnlessPresent(fs, inputs.typedMainJs, inputs.livewireImported, inputs.livewireStub)
      case Err(e) => Err(e)
      case Ok(fs1) => Ok(AppJsOutcome(fs1, [], LivewireRoute))
    else if !IsListed(packageJson, "alpinejs") && !inputs.installAlpine then
      Ok(AppJsOutcome(fs, [], AlpineRoute))
    else
      var ran := if IsListed(packageJson, "alpinejs") then [] else ["npm install alpinejs @alpinejs/anchor"];
      if ran != [] && !inputs.npmSucceeds then Ok(AppJsOutcome(fs, ran, AlpineRoute))
      else
        match AppendUnlessPresent(fs, inputs.typedMainJs, inputs.alpineImported, inputs.alpineStub)
        case Err(e) => Err(e)
        case Ok(fs1) => Ok(AppJsOutcome(fs1, ran, AlpineRoute))
  }

  /** When the sniffing recognises its own stub, a second setup changes
      nothing and installs nothing more. */
  lemma SetupAppJsIdempotent(fs: Fs, shouldSetupLivewire: bool, packageJson: Option<PackageManifest>, inputs: AppJsInputs)
    requires forall c :: inputs.livewireImported(c + inputs.livewireStub)
    requires forall c :: inputs.alpineImported(c + inputs.alpineStub)
    requires IsListed(packageJson, "alpinejs")
    requires SetupAppJs(fs, shouldSetupLivewire, packageJson, inputs).Ok?
    ensures var once := SetupAppJs(fs, shouldSetupLivewire, packageJson, inputs).value;
      SetupAppJs(once.fs, shouldSetupLivewire, packageJson, inputs) == Ok(once)
  {
    var once := SetupAppJs(fs, shouldSetupLivewire, packageJson, inputs).value;
    SameKeysSameExists(fs, once.fs);
  }
}

=== FILE: init_config.dfy ===
/** `fluxtor:init` before anything is written: the file-name validators of
    `FluxtorInitCommand`, how the configuration is gathered, the `.css`
    suffixing of `InitializationConfig`, and the constructor validation of
    `PackageInitializationService`. */
module InitConfig {
  import opened Wrappers
  import opened Strings

  /** PHP `empty()` on a string: `""` and `"0"` are empty. */
  predicate PhpEmpty(s: string) {
    s == "" || s == "0"
  }

  /** A character of `[a-zA-Z0-9_-]`. */
  predicate NameChar(c: char) {
    ('a' <= c <= 'z') || ('A' <= c <= 'Z') || ('0' <= c <= '9') || c == '_' || c == '-'
  }

  /** A character of `[a-zA-Z0-9_\/-]`. */
  predicate CssPathChar(c: char) {
    NameChar(c) || c == '/'
  }

  /** The whole string is `[a-zA-Z0-9_-]+`. */
  predicate NameShape(s: string) {
    |s| > 0 && forall i :: 0 <= i < |s| ==> NameChar(s[i])
  }

  /** The whole string is `[a-zA-Z0-9_\/-]+\.css`. */
  predicate CssNameShape(s: string) {
    |s| > 4 && EndsWith(s, ".css") && forall i :: 0 <= i < |s| - 4 ==> CssPathChar(s[i])
  }

  /** PCRE's `$` without the `D` modifier also matches just before a final
      newline, so `/^X$/` accepts `X` and `X` followed by one `\n`. */
  predicate DollarMatch(shape: string -> bool, s: string) {
    shape(s) || (|s| > 0 && s[|s| - 1] == '\n' && shape(s[..|s| - 1]))
  }

  const CssEmptyMessage: string := "CSS file name cannot be empty"
  const CssExtensionMessage: string := "CSS file name must end with .css extension"
  const CssFormatMessage: string := "Invalid CSS file name format"

  /** `validateCssFileName`: the first failed check's message, `None` (PHP
      `null`) when the name is accepted. */
  function ValidateCssFileName(input: string): (r: Option<string>)
    // accepted exactly when the name is a path of `[a-zA-Z0-9_/-]` ending in `.css`
    ensures r.None? <==> CssNameShape(input)
    ensures r.Some? ==> r.value in {CssEmptyMessage, CssExtensionMessage, CssFormatMessage}
  {
    if PhpEmpty(input) then Some(CssEmptyMessage)
    else if !EndsWith(input, ".css") then Some(CssExtensionMessage)
    else if !DollarMatch(CssNameShape, input) then Some(CssFormatMessage)
    else None
  }

  /** The checks run in order: `"0"` is refused as empty, a trailing newline
      fails the extension check before the pattern sees it, and `.css` alone
      has the extension but not the format. */
  lemma CssValidatorMessages()
    ensures ValidateCssFileName("0") == Some(CssEmptyMessage)
    ensures ValidateCssFileName("") == Some(CssEmptyMessage)
    ensures ValidateCssFileName("app.css\n") == Some(CssExtensionMessage)
    ensures ValidateCssFileName("app.scss.txt") == Some(CssExtensionMessage)
    ensures ValidateCssFileName(".css") == Some(CssFormatMessage)
    ensures ValidateCssFileName("my app.css") == Some(CssFormatMessage)
    ensures ValidateCssFileName("admin/app.css") == None
  {
    assert !EndsWith("app.css\n", ".css") by {
      assert "app.css\n"[|"app.css\n"| - 1] == '\n';
    }
    assert !EndsWith("app.scss.txt", ".css") by {
      assert "app.scss.txt"[|"app.scss.txt"| - 1] == 't';
    }
    assert EndsWith(".css", ".css");
    assert !DollarMatch(CssNameShape, ".css") by {
      assert ".css"[3] == 's';
    }
    assert EndsWith("my app.css", ".css") by {
      assert "my app.css"[6..] == ".css";
    }
    assert !CssPathChar("my app.css"[2]);
    assert EndsWith("admin/app.css", ".css") by {
      assert "admin/app.css"[9..] == ".css";
    }
  }

  const ThemeEmptyMessage: string := "Theme file name cannot be empty"
  const ThemeCharsMessage: string := "File name can only contain letters, numbers, hyphens, and underscores"
  const ThemeReservedMessage: string := "Please choose a different name to avoid conflicts with common CSS frameworks"

  /** The names `validateFileName` refuses, compared after `strtolower`. */
  const ReservedNames: seq<string> := ["index", "main", "bootstrap", "tailwind"]

  /** `validateFileName` as written: the pattern `^[a-zA-Z0-9_-]+$` also
      lets one trailing newline through. */
  function ValidateFileNameAsWritten(input: string): (r: Option<string>)
    ensures r.None? <==> DollarMatch(NameShape, input) && !PhpEmpty(input) && Lower(input) !in ReservedNames
  {
    if PhpEmpty(input) then Some(ThemeEmptyMessage)
    else if !DollarMatch(NameShape, input) then Some(ThemeCharsMessage)
    else if Lower(input) in ReservedNames then Some(ThemeReservedMessage)
    else None
  }

  /** `validateFileName` with the pattern matched strictly, as its message
      promises: only letters, digits, hyphens and underscores. */
  function ValidateFileName(input: string): (r: Option<string>)
    ensures r.None? <==> NameShape(input) && input != "0" && Lower(input) !in ReservedNames
    ensures r.Some? ==> r.value in {ThemeEmptyMessage, ThemeCharsMessage, ThemeReservedMessage}
  {
    if PhpEmpty(input) then Some(ThemeEmptyMessage)
    else if !NameShape(input) then Some(ThemeCharsMessage)
    else if Lower(input) in ReservedNames then Some(ThemeReservedMessage)
    else None
  }

  /** As written, a name followed by a newline passes; corrected, it is
      refused for its characters. */
  lemma TrailingNewlineAccepted()
    ensures ValidateFileNameAsWritten("theme\n") == None
    ensures ValidateFileName("theme\n") == Some(ThemeCharsMessage)
  {
    var s := "theme\n";
    assert s[..|s| - 1] == "theme";
    assert NameShape("theme");
    assert !NameChar(s[5]);
    assert Lower(s) == "theme\n";
    assert Lower(s) !in ReservedNames by {
      assert |Lower(s)| == 6;
    }
  }

  /** The two agree on every input that does not end in a newline. */
  lemma ValidateFileNameAgrees(input: string)
    requires input == [] || input[|input| - 1] != '\n'
    ensures ValidateFileNameAsWritten(input) == ValidateFileName(input)
  {
  }

  /** The reserved-name check is case-insensitive: inputs that agree after
      `strtolower` get the same verdict and the same message. */
  lemma ValidateFileNameCaseInsensitive(s: string, t: string)
    requires Lower(s) == Lower(t)
    ensures ValidateFileName(s) == ValidateFileName(t)
  {
    assert |s| == |t|;
    forall i | 0 <= i < |s| ensures NameChar(s[i]) <==> NameChar(t[i]) {
      assert LowerChar(s[i]) == Lower(s)[i] == Lower(t)[i] == LowerChar(t[i]);
    }
    if s == "0" {
      assert LowerChar(t[0]) == LowerChar(s[0]) == '0';
    }
    if t == "0" {
      assert LowerChar(s[0]) == LowerChar(t[0]) == '0';
    }
  }

  /** `"0"` is a well-formed name that `empty()` refuses. */
  lemma ZeroThemeNameIsEmpty()
    ensures NameShape("0") && ValidateFileName("0") == Some(ThemeEmptyMessage)
  {
  }

  /** Every spelling of a framework name is refused. */
  lemma ReservedNameRefused(s: string, reserved: string)
    requires NameShape(s) && reserved in ReservedNames && Lower(s) == reserved
    ensures ValidateFileName(s) == Some(ThemeReservedMessage)
  {
  }

  /** A space is not a name character. */
  lemma ThemeValidatorExamples()
    ensures ValidateFileName("my theme") == Some(ThemeCharsMessage)
  {
    assert !NameChar("my theme"[2]);
  }

  /** `text(..., validate: ...)`: the prompt re-asks until the validator
      returns `null`; the answer is the first accepted attempt, `None` when
      the operator never gives one. */
  function PromptUntilValid(attempts: seq<string>, validate: string -> Option<string>): (r: Option<string>)
    ensures r.Some? <==> exists i :: 0 <= i < |attempts| && validate(attempts[i]).None?
    ensures r.Some? ==> validate(r.value).None? && r.value in attempts
    ensures r.Some? ==> exists i :: (0 <= i < |attempts| && attempts[i] == r.value &&
      forall j :: 0 <= j < i ==> validate(attempts[j]).Some?)
    decreases |attempts|
  {
    if attempts == [] then None
    else if validate(attempts[0]).None? then Some(attempts[0])
    else
      var r := PromptUntilValid(attempts[1..], validate);
      assert forall i :: 1 <= i < |attempts| ==> attempts[i] == attempts[1..][i - 1];
      if r.Some? then
        var i :| 0 <= i < |attempts[1..]| && attempts[1..][i] == r.value &&
          forall j :: 0 <= j < i ==> validate(attempts[1..][j]).Some?;
        assert attempts[i + 1] == r.value;
        assert forall j :: 0 <= j < i + 1 ==> validate(attempts[j]).Some? by {
          forall j | 0 <= j < i + 1 ensures validate(attempts[j]).Some? {
            if j > 0 {
              assert attempts[j] == attempts[1..][j - 1];
            }
          }
        }
        r
      else
        assert forall i :: 0 <= i < |attempts| ==> validate(attempts[i]).Some? by {
          forall i | 0 <= i < |attempts| ensures validate(attempts[i]).Some? {
            if i > 0 {
              assert attempts[i] == attempts[1..][i - 1];
            }
          }
        }
        r
  }

  /** The command's options. */
  datatype InitOptions = InitOptions(
    withDarkMode: bool,
    withPhosphor: bool,
    cssFile: string,
    themeFile: string,
    skipPrompts: bool,
    force: bool)

  /** The operator's answers to the four questions; a text answer is the
      sequence of values submitted. */
  datatype InitAnswers = InitAnswers(
    installPhosphor: bool,
    includeDarkMode: bool,
    cssAttempts: seq<string>,
    themeAttempts: seq<string>)

  datatype InitChoices = InitChoices(phosphorIcons: bool, darkMode: bool, cssFile: string, themeFile: string)

  /** The option defaults of the command signature. */
  const DefaultCssFile: string := "app.css"
  const DefaultThemeFile: string := "theme.css"

  /** The default theme name the option promises, "without extension". */
  const IntendedDefaultThemeFile: string := "theme"

  /** As written, the theme name the prompt offers by default is refused by
      the prompt's own validator; the name without extension is accepted
      and becomes the same file once suffixed. */
  lemma DefaultThemeFileRejected()
    ensures ValidateFileName(DefaultThemeFile) == Some(ThemeCharsMessage)
    ensures ValidateFileName(IntendedDefaultThemeFile) == None
    ensures EnsureCssSuffix(IntendedDefaultThemeFile) == EnsureCssSuffix(DefaultThemeFile)
  {
    assert !NameChar(DefaultThemeFile[5]);
    IntendedThemeNameAccepted();
    DefaultNamesSuffixed();
  }

  lemma IntendedThemeNameAccepted()
    ensures ValidateFileName(IntendedDefaultThemeFile) == None
  {
    var s := IntendedDefaultThemeFile;
    assert NameShape(s);
    var l := Lower(s);
    assert |l| == 5 && l[0] == 't';
    assert l != "index" by {
      assert "index"[0] == 'i';
    }
  }

  /** Both defaults already end in `.css` except the intended theme name,
      which is suffixed to the default file; the default CSS file passes its
      validator. */
  lemma DefaultNamesSuffixed()
    ensures EnsureCssSuffix(IntendedDefaultThemeFile) == DefaultThemeFile
    ensures EnsureCssSuffix(DefaultThemeFile) == DefaultThemeFile
    ensures ValidateCssFileName(DefaultCssFile) == None
  {
    assert EndsWith(DefaultThemeFile, ".css") by {
      assert DefaultThemeFile[5..] == ".css";
    }
    assert !EndsWith(IntendedDefaultThemeFile, ".css") by {
      assert IntendedDefaultThemeFile[1] == 'h';
    }
    assert IntendedDefaultThemeFile + ".css" == DefaultThemeFile;
    assert EndsWith(DefaultCssFile, ".css") by {
      assert DefaultCssFile[3..] == ".css";
    }
  }

  /** `gatherConfiguration`: with `--skip-prompts` the options verbatim;
      otherwise a set flag answers its question, and each file name is the
      first submitted value its validator accepts. */
  function GatherConfiguration(opts: InitOptions, answers: InitAnswers): (r: Option<InitChoices>)
    ensures opts.skipPrompts ==>
      r == Some(InitChoices(opts.withPhosphor, opts.withDarkMode, opts.cssFile, opts.themeFile))
    ensures !opts.skipPrompts && r.Some? ==>
      && r.value.phosphorIcons == (opts.withPhosphor || answers.installPhosphor)
      && r.value.darkMode == (opts.withDarkMode || answers.includeDarkMode)
      && ValidateCssFileName(r.value.cssFile).None? && r.value.cssFile in answers.cssAttempts
      && ValidateFileName(r.value.themeFile).None? && r.value.themeFile in answers.themeAttempts
    ensures !opts.skipPrompts ==>
      (r.None? <==> ((forall i :: 0 <= i < |answers.cssAttempts| ==> !CssNameShape(answers.cssAttempts[i]))
                  || (forall i :: 0 <= i < |answers.themeAttempts| ==> ValidateFileName(answers.themeAttempts[i]).Some?)))
  {
    if opts.skipPrompts then
      Some(InitChoices(opts.withPhosphor, opts.withDarkMode, opts.cssFile, opts.themeFile))
    else
      var css := PromptUntilValid(answers.cssAttempts, ValidateCssFileName);
      var theme := PromptUntilValid(answers.themeAttempts, ValidateFileName);
      if css.None? || theme.None? then None
      else Some(InitChoices(opts.withPhosphor || answers.installPhosphor,
                            opts.withDarkMode || answers.includeDarkMode, css.value, theme.value))
  }

  /** The `.css` suffixing of `getThemeFileName`, `getTargetCssFile` and
      `validateConfiguration`. */
  function EnsureCssSuffix(s: string): (r: string)
    ensures EndsWith(r, ".css")
    ensures EndsWith(s, ".css") ==> r == s
    ensures !EndsWith(s, ".css") ==> r == s + ".css"
  {
    if EndsWith(s, ".css") then s
    else
      assert (s + ".css")[|s|..] == ".css";
      s + ".css"
  }

  /** Suffixing twice is suffixing once. */
  lemma EnsureCssSuffixIdempotent(s: string)
    ensures EnsureCssSuffix(EnsureCssSuffix(s)) == EnsureCssSuffix(s)
  {
  }

  /** `InitializationConfig`. The two name getters write the suffixed name
      back into the object. */
  datatype InitializationConfig = InitializationConfig(
    enablePhosphorIcons: bool,
    enableDarkMode: bool,
    themeFileName: string,
    targetCssFile: string,
    forceOverwrite: bool,
    isUseLivewire: bool)

  /** `getThemeFileName`: the object afterwards and the value returned. */
  function GetThemeFileName(c: InitializationConfig): (r: (InitializationConfig, string))
    ensures EndsWith(r.1, ".css")
    ensures EndsWith(c.themeFileName, ".css") ==> r == (c, c.themeFileName)
    ensures r.0 == c.(themeFileName := r.1)
  {
    var name := EnsureCssSuffix(c.themeFileName);
    (c.(themeFileName := name), name)
  }

  /** `getTargetCssFile`: the same rule on the target file. */
  function GetTargetCssFile(c: InitializationConfig): (r: (InitializationConfig, string))
    ensures EndsWith(r.1, ".css")
    ensures EndsWith(c.targetCssFile, ".css") ==> r == (c, c.targetCssFile)
    ensures r.0 == c.(targetCssFile := r.1)
  {
    var name := EnsureCssSuffix(c.targetCssFile);
    (c.(targetCssFile := name), name)
  }

  /** Asking again returns the same name and leaves the object as the first
      call left it; the two getters do not disturb each other. */
  lemma GettersStable(c: InitializationConfig)
    ensures var (c1, t1) := GetThemeFileName(c);
      GetThemeFileName(c1) == (c1, t1)
    ensures var (c1, f1) := GetTargetCssFile(c);
      GetTargetCssFile(c1) == (c1, f1)
    ensures GetTargetCssFile(GetThemeFileName(c).0).1 == GetTargetCssFile(c).1
    ensures GetThemeFileName(GetTargetCssFile(c).0).1 == GetThemeFileName(c).1
    ensures var c1 := GetThemeFileName(c).0;
      && c1.enablePhosphorIcons == c.enablePhosphorIcons && c1.enableDarkMode == c.enableDarkMode
      && c1.forceOverwrite == c.forceOverwrite && c1.isUseLivewire == c.isUseLivewire
  {
    EnsureCssSuffixIdempotent(c.themeFileName);
    EnsureCssSuffixIdempotent(c.targetCssFile);
  }

  /** The constructor-time checks of `PackageInitializationService`: the
      thrown message, or the two names with `.css` ensured. */
  function ValidateConfiguration(themeFileName: string, targetCssFile: string, enableDarkMode: bool,
                                 jsDirectory: Option<string>): (r: Result<(string, string)>)
    ensures r.Ok? <==> (!PhpEmpty(themeFileName) && !PhpEmpty(targetCssFile) &&
      (enableDarkMode ==> jsDirectory.Some? && !PhpEmpty(jsDirectory.value)))
    ensures PhpEmpty(themeFileName) ==> r == Err("Theme file name cannot be empty")
    ensures !PhpEmpty(themeFileName) && PhpEmpty(targetCssFile) ==> r == Err("Target CSS file name cannot be empty")
    ensures r.Ok? ==> EndsWith(r.value.0, ".css") && EndsWith(r.value.1, ".css")
    ensures r.Ok? ==> r.value.0 == EnsureCssSuffix(themeFileName) && r.value.1 == EnsureCssSuffix(targetCssFile)
  {
    if PhpEmpty(themeFileName) then Err("Theme file name cannot be empty")
    else if PhpEmpty(targetCssFile) then Err("Target CSS file name cannot be empty")
    else if enableDarkMode && (jsDirectory.None? || PhpEmpty(jsDirectory.value)) then
      Err("JavaScript directory is required when dark mode is enabled")
    else Ok((EnsureCssSuffix(themeFileName), EnsureCssSuffix(targetCssFile)))
  }

  /** Names that already carry the extension pass through unchanged, and
      validating the validated names again changes nothing. */
  lemma ValidateConfigurationStable(themeFileName: string, targetCssFile: string, enableDarkMode: bool,
                                    jsDirectory: Option<string>)
    requires ValidateConfiguration(themeFileName, targetCssFile, enableDarkMode, jsDirectory).Ok?
    ensures var (t, f) := ValidateConfiguration(themeFileName, targetCssFile, enableDarkMode, jsDirectory).value;
      ValidateConfiguration(t, f, enableDarkMode, jsDirectory) == Ok((t, f))
  {
    var (t, f) := ValidateConfiguration(themeFileName, targetCssFile, enableDarkMode, jsDirectory).value;
    assert t != "" && t != "0" by {
      assert |t| >= 4;
    }
    assert f != "" && f != "0" by {
      assert |f| >= 4;
    }
  }
}

=== FILE: lock.dfy ===
/** The lock file (`sheaf-lock.json`): a reverse index from files,
    internal dependencies and helpers to the components that need them, and
    the recording half of its reference counting (`CanUpdateSheafLock`). */
module SheafLock {
  import opened Wrappers
  import opened Seqs
  import opened Strings
  import opened OrderedMaps
  import opened Registry

  /** The components that reference one entry, in the order they were added. */
  type Owners = seq<string>

  type Section = OMap<Owners>

  /** `None` is a section key missing from the document. */
  datatype LockFile = LockFile(
    files: Option<Section>,
    internalDependencies: Option<Section>,
    helpers: Option<Section>)

  /** Where component views live, relative to the project root. */
  const UiRoot: string := "resources/views/components/ui/"

  /** A section is a valid ordered map whose owner lists have no repeats. */
  ghost predicate WellFormedSection(s: Section) {
    s.Valid() && forall k :: k in s.values ==> NoDuplicates(s.values[k])
  }

  ghost predicate WellFormed(lock: LockFile) {
    && (lock.files.Some? ==> WellFormedSection(lock.files.value))
    && (lock.internalDependencies.Some? ==> WellFormedSection(lock.internalDependencies.value))
    && (lock.helpers.Some? ==> WellFormedSection(lock.helpers.value))
  }

  /** `addComponentToLockEntry`: make sure `owner` is listed under `key`,
      creating the entry when it is missing. */
  function AddOwner(s: Section, key: string, owner: string): (r: Section)
    ensures key in r.values && owner in r.values[key]
    ensures r.values.Keys == s.values.Keys + {key}
    ensures forall k :: k in s.values && k != key ==> r.values[k] == s.values[k]
    // existing owners keep their order; the new owner is appended once, at the end
    ensures key in s.values && owner in s.values[key] ==> r == s
    ensures key in s.values && owner !in s.values[key] ==> r.values[key] == s.values[key] + [owner]
    ensures key !in s.values ==> r.values[key] == [owner]
    // the existing keys keep their order, a new key goes at the end
    ensures |s.keys| <= |r.keys| && r.keys[..|s.keys|] == s.keys
    ensures WellFormedSection(s) ==> WellFormedSection(r)
  {
    var current := if key in s.values then s.values[key] else [];
    if owner in current then s else s.Put(key, current + [owner])
  }

  /** Adding an owner twice is adding it once. */
  lemma AddOwnerIdempotent(s: Section, key: string, owner: string)
    ensures AddOwner(AddOwner(s, key, owner), key, owner) == AddOwner(s, key, owner)
  {
  }

  /** The loop of `addComponentToLockSection` / `updateFilesInLock`: add
      `owner` under every key of `keys`, in order. */
  function AddOwnerToAll(s: Section, keys: seq<string>, owner: string): (r: Section)
    ensures forall i :: 0 <= i < |keys| ==> keys[i] in r.values && owner in r.values[keys[i]]
    ensures forall k :: k in r.values <==> k in s.values || k in keys
    ensures forall k :: k in s.values && k !in keys ==> r.values[k] == s.values[k]
    ensures forall k :: k in s.values ==>
      r.values[k] == s.values[k] || (owner !in s.values[k] && r.values[k] == s.values[k] + [owner])
    ensures forall k :: k in r.values && k !in s.values ==> r.values[k] == [owner]
    ensures |s.keys| <= |r.keys| && r.keys[..|s.keys|] == s.keys
    decreases |keys|
  {
    if keys == [] then s
    else
      var s1 := AddOwner(s, keys[0], owner);
      var r := AddOwnerToAll(s1, keys[1..], owner);
      assert forall k :: k in keys <==> k == keys[0] || k in keys[1..];
      assert forall i :: 0 <= i < |keys| ==> keys[i] in r.values && owner in r.values[keys[i]] by {
        forall i | 0 <= i < |keys| ensures keys[i] in r.values && owner in r.values[keys[i]] {
          if i > 0 {
            assert keys[i] == keys[1..][i - 1];
          }
        }
      }
      assert forall k :: k in s.values ==>
        r.values[k] == s.values[k] || (owner !in s.values[k] && r.values[k] == s.values[k] + [owner]) by {
        forall k | k in s.values
          ensures r.values[k] == s.values[k] || (owner !in s.values[k] && r.values[k] == s.values[k] + [owner])
        {
          if k == keys[0] && owner !in s.values[k] {
            assert owner in s1.values[k];
          }
        }
      }
      r
  }

  /** `after` is `before` with `owner` recorded for `keys`: an entry not
      recorded is untouched, a recorded one keeps its owners and at most
      gains `owner` at the end, no other key appears, and the old keys keep
      their order ahead of the new ones. */
  ghost predicate RecordedInto(before: Section, after: Section, keys: seq<string>, owner: string) {
    && |before.keys| <= |after.keys| && after.keys[..|before.keys|] == before.keys
    && (forall k :: k in after.values <==> k in before.values || k in keys)
    && (forall k :: k in before.values && k !in keys ==> after.values[k] == before.values[k])
    && (forall k :: k in before.values ==>
          after.values[k] == before.values[k] || after.values[k] == before.values[k] + [owner])
  }

  /** Recording keeps every owner list duplicate free. */
  lemma {:induction false} AddOwnerToAllWellFormed(s: Section, keys: seq<string>, owner: string)
    ensures WellFormedSection(s) ==> WellFormedSection(AddOwnerToAll(s, keys, owner))
    decreases |keys|
  {
    if keys != [] && WellFormedSection(s) {
      AddOwnerToAllWellFormed(AddOwner(s, keys[0], owner), keys[1..], owner);
    }
  }

  /** Once every key lists the owner, adding it again changes nothing. */
  lemma {:induction false} AddOwnerToAllNoop(s: Section, keys: seq<string>, owner: string)
    requires forall k :: k in keys ==> k in s.values && owner in s.values[k]
    ensures AddOwnerToAll(s, keys, owner) == s
    decreases |keys|
  {
    if keys != [] {
      assert keys[0] in keys;
      assert AddOwner(s, keys[0], owner) == s;
      forall k | k in keys[1..] ensures k in s.values && owner in s.values[k] {
        assert k in keys;
      }
      AddOwnerToAllNoop(s, keys[1..], owner);
    }
  }

  /** Recording the same keys twice is recording them once. */
  lemma AddOwnerToAllIdempotent(s: Section, keys: seq<string>, owner: string)
    ensures AddOwnerToAll(AddOwnerToAll(s, keys, owner), keys, owner) == AddOwnerToAll(s, keys, owner)
  {
    var once := AddOwnerToAll(s, keys, owner);
    forall k | k in keys ensures k in once.values && owner in once.values[k] {
      var i :| 0 <= i < |keys| && keys[i] == k;
    }
    AddOwnerToAllNoop(once, keys, owner);
  }

  /** `shouldSkipFile`: a path mentioning the component's own view directory
      is owned by the component itself and is not reference counted. */
  predicate ShouldSkipFile(path: string, name: string) {
    Contains(path, UiRoot + name)
  }

  /** The substring test also skips files of every component whose name
      starts with `name` (`button` skips `ui/button-group/...`). */
  lemma SkipCoversLongerNames(path: string, name: string, more: string)
    requires ShouldSkipFile(path, name + more)
    ensures ShouldSkipFile(path, name)
  {
    assert UiRoot + (name + more) == (UiRoot + name) + more;
    ContainsLongerNeedle(path, UiRoot + name, more);
  }

  /** The paths `updateFilesInLock` records for `name`, in order. */
  function RecordedPaths(files: seq<FileEntry>, name: string): (r: seq<string>)
    ensures forall p :: p in r <==> exists i :: 0 <= i < |files| && files[i].path == p && !ShouldSkipFile(p, name)
    decreases |files|
  {
    if files == [] then []
    else
      var rest := RecordedPaths(files[1..], name);
      assert forall i :: 1 <= i < |files| ==> files[i] == files[1..][i - 1];
      if ShouldSkipFile(files[0].path, name) then rest else [files[0].path] + rest
  }

  /** `updateFilesInLock`. */
  function UpdateFiles(lock: LockFile, files: seq<FileEntry>, name: string): (r: LockFile)
    // a falsy file list leaves the lock unchanged
    ensures files == [] ==> r == lock
    ensures files != [] ==> r.files.Some?
    ensures r.internalDependencies == lock.internalDependencies && r.helpers == lock.helpers
    ensures files != [] ==>
      forall i :: 0 <= i < |files| && !ShouldSkipFile(files[i].path, name) ==>
        files[i].path in r.files.value.values && name in r.files.value.values[files[i].path]
    ensures files != [] ==>
      var before := lock.files.GetOr(Empty());
      forall p ::
        (p in r.files.value.values && name in r.files.value.values[p] &&
         (p !in before.values || name !in before.values[p])) ==>
        exists i :: 0 <= i < |files| && files[i].path == p && !ShouldSkipFile(p, name)
    // every other entry, and every owner already listed, is kept
    ensures files != [] ==> RecordedInto(lock.files.GetOr(Empty()), r.files.value, RecordedPaths(files, name), name)
    ensures WellFormed(lock) ==> WellFormed(r)
  {
    if files == [] then lock
    else
      var paths := RecordedPaths(files, name);
      var r := lock.(files := Some(AddOwnerToAll(lock.files.GetOr(Empty()), paths, name)));
      AddOwnerToAllWellFormed(lock.files.GetOr(Empty()), paths, name);
      assert forall i :: 0 <= i < |files| && !ShouldSkipFile(files[i].path, name) ==> files[i].path in paths;
      r
  }

  /** `updateDependenciesInLock`: only the keys of `helpers` and `internal`
      are recorded, into `helpers` and `internalDependencies`. */
  function UpdateDependencies(lock: LockFile, deps: Option<Deps>, name: string): (r: LockFile)
    ensures NoDependencies(deps) ==> r == lock
    ensures r.files == lock.files
    ensures (NoDependencies(deps) || deps.value.helpers.None?) ==> r.helpers == lock.helpers
    ensures (NoDependencies(deps) || deps.value.internal.None?) ==> r.internalDependencies == lock.internalDependencies
    ensures !NoDependencies(deps) && deps.value.helpers.Some? ==>
      r.helpers.Some? &&
      forall h :: h in deps.value.helpers.value.keys ==> h in r.helpers.value.values && name in r.helpers.value.values[h]
    ensures !NoDependencies(deps) && deps.value.internal.Some? ==>
      r.internalDependencies.Some? &&
      forall d :: d in deps.value.internal.value.keys ==>
        d in r.internalDependencies.value.values && name in r.internalDependencies.value.values[d]
    // every other entry, and every owner already listed, is kept
    ensures !NoDependencies(deps) && deps.value.helpers.Some? ==>
      RecordedInto(lock.helpers.GetOr(Empty()), r.helpers.value, deps.value.helpers.value.keys, name)
    ensures !NoDependencies(deps) && deps.value.internal.Some? ==>
      RecordedInto(lock.internalDependencies.GetOr(Empty()), r.internalDependencies.value, deps.value.internal.value.keys, name)
    ensures WellFormed(lock) ==> WellFormed(r)
  {
    if NoDependencies(deps) then lock
    else
      var d := deps.value;
      AddOwnerToAllWellFormed(lock.helpers.GetOr(Empty()), if d.helpers.Some? then d.helpers.value.keys else [], name);
      AddOwnerToAllWellFormed(lock.internalDependencies.GetOr(Empty()),
        if d.internal.Some? then d.internal.value.keys else [], name);
      var withHelpers :=
        if d.helpers.Some? then
          lock.(helpers := Some(AddOwnerToAll(lock.helpers.GetOr(Empty()), d.helpers.value.keys, name)))
        else lock;
      if d.internal.Some? then
        withHelpers.(internalDependencies :=
          Some(AddOwnerToAll(withHelpers.internalDependencies.GetOr(Empty()), d.internal.value.keys, name)))
      else withHelpers
  }

  /** `updateSheafLock` without the load and save around it. */
  function Record(lock: LockFile, files: seq<FileEntry>, deps: Option<Deps>, name: string): LockFile {
    UpdateDependencies(UpdateFiles(lock, files, name), deps, name)
  }

  /** Recording a component twice leaves the same lock as recording it once:
      owner lists never gain a duplicate. */
  lemma {:induction false} RecordIdempotent(lock: LockFile, files: seq<FileEntry>, deps: Option<Deps>, name: string)
    ensures Record(Record(lock, files, deps, name), files, deps, name) == Record(lock, files, deps, name)
  {
    var once := Record(lock, files, deps, name);
    if files != [] {
      AddOwnerToAllIdempotent(lock.files.GetOr(Empty()), RecordedPaths(files, name), name);
    }
    if !NoDependencies(deps) {
      if deps.value.helpers.Some? {
        AddOwnerToAllIdempotent(lock.helpers.GetOr(Empty()), deps.value.helpers.value.keys, name);
      }
      if deps.value.internal.Some? {
        AddOwnerToAllIdempotent(lock.internalDependencies.GetOr(Empty()), deps.value.internal.value.keys, name);
      }
    }
  }
}

=== FILE: omap.dfy ===
/** PHP arrays with string keys are ordered maps: lookups behave like a map,
    iteration follows insertion order. `OMap` keeps both views. */
module OrderedMaps {
  import opened Seqs

  datatype OMap<V> = OMap(keys: seq<string>, values: map<string, V>) {

    /** The key order lists every key of the map exactly once. */
    ghost predicate Valid() {
      && (forall i :: 0 <= i < |keys| ==> keys[i] in values)
      && (forall k :: k in values ==> k in keys)
      && NoDuplicates(keys)
    }

    /** PHP `empty($array)` for an array. */
    predicate IsEmpty() {
      |keys| == 0
    }

    /** `$array[$k] = $v`: an existing key keeps its place, a new key goes last. */
    function Put(k: string, v: V): (r: OMap<V>)
      ensures r.values == values[k := v]
      ensures k in values ==> r.keys == keys
      ensures k !in values ==> r.keys == keys + [k]
      ensures Valid() ==> r.Valid()
    {
      if k in values then OMap(keys, values[k := v]) else OMap(keys + [k], values[k := v])
    }

    /** `unset($array[$k])`: the key goes, the others keep their order. */
    function Remove(k: string): (r: OMap<V>)
      ensures r.values == values - {k}
      ensures r.keys == RemoveAll(keys, k)
      ensures Valid() ==> r.Valid()
    {
      RemoveKeepsValid(this, k);
      OMap(RemoveAll(keys, k), values - {k})
    }
  }

  /** An ordered map whose key order and lookup agree: what a decoded PHP
      array always is. */
  type PhpArray<V> = m: OMap<V> | m.Valid() witness OMap([], map[])

  lemma RemoveKeepsValid<V>(m: OMap<V>, k: string)
    ensures m.Valid() ==> OMap(RemoveAll(m.keys, k), m.values - {k}).Valid()
  {
    if m.Valid() {
      var r := OMap(RemoveAll(m.keys, k), m.values - {k});
      SubsequenceNoDuplicates(r.keys, m.keys);
      SubsequenceMembers(r.keys, m.keys);
      forall j | j in r.values ensures j in r.keys {
        RemoveAllMembers(m.keys, k, j);
      }
      forall i | 0 <= i < |r.keys| ensures r.keys[i] in r.values {
        RemoveAllMembers(m.keys, k, r.keys[i]);
      }
    }
  }

  /** `[]`. */
  function Empty<V>(): (r: OMap<V>)
    ensures r.Valid() && r.IsEmpty() && r.values == map[]
  {
    OMap([], map[])
  }
}

=== FILE: registry.dfy ===
/** What the component registry hands back for a component name: its files
    and its dependency descriptor. The HTTP exchange itself is not modelled;
    a fetch is an oracle `string -> Option<Bundle>` whose `None` stands for
    every failure the client turns into an exception. */
module Registry {
  import opened Wrappers
  import opened OrderedMaps

  datatype FileEntry = FileEntry(path: string, content: string)

  /** An entry of `dependencies.external`: `[description, shellCommand]`. */
  datatype External = External(description: string, command: string)

  /** `dependencies`: `internal` maps a component name to its `lastModified`
      time, `external` maps a key to a shell command, `helpers` maps a helper
      name to a value nobody reads. `None` is an absent key. */
  datatype Deps = Deps(
    internal: Option<PhpArray<int>>,
    external: Option<PhpArray<External>>,
    helpers: Option<PhpArray<string>>)
  {
    /** PHP `!$dependencies`: an array with none of the three keys is empty. */
    predicate IsFalsy() {
      internal.None? && external.None? && helpers.None?
    }
  }

  /** The `data` of a successful fetch. */
  datatype Bundle = Bundle(files: seq<FileEntry>, dependencies: Option<Deps>, lastModified: int)

  /** PHP `!$dependencies` for a possibly missing descriptor. */
  predicate NoDependencies(deps: Option<Deps>) {
    deps.None? || deps.value.IsFalsy()
  }
}

=== FILE: remove_command.dfy ===
/** `sheaf:remove`: remove each named component that is present, skip the
    others with a notice, and print one summary line when anything was
    removed. With `threaded` false each removal is `remove` as written; with
    `threaded` true it is the corrected removal that threads the lock
    through nested removals. */
module RemoveCommand {
  import opened Strings
  import opened Files
  import opened SheafConfig
  import opened State
  import opened Remover

  /** `checkComponentExistence`: the view directory or the single-file view
      exists. */
  predicate ComponentExists(fs: Fs, name: string) {
    Exists(fs, ComponentDir(name)) || Exists(fs, ComponentView(name))
  }

  /** `getComponentName`: the arguments, or the one name typed at the
      prompt when there are none, wrapped into a list. */
  function ComponentNames(args: seq<string>, typed: string): (names: seq<string>)
    ensures args != [] ==> names == args
    ensures args == [] ==> names == [typed]
    ensures names != []
  {
    if args == [] then [typed] else args
  }

  function RemovalTitle(name: string): string {
    "Removing all " + name + " files"
  }

  /** The notices for a list of names none of which is present. */
  function NotInstalledNotices(names: seq<string>): (r: seq<Event>)
    ensures |r| == |names|
    ensures forall i :: 0 <= i < |names| ==> r[i] == NotInstalled(names[i])
  {
    seq(|names|, i requires 0 <= i < |names| => NotInstalled(names[i]))
  }

  /** The `foreach` of `handle`. `edited` is `$sheafFileEdited`. */
  function RemoveEach(env: Env, w: World, names: seq<string>, threaded: bool, fuel: nat): (r: (World, bool))
    ensures w.log <= r.0.log
    ensures OnlyDeleted(w.fs, r.0.fs)
    // every deleted path is a view of a named component or one the lock
    // loaded first reaches
    ensures LockValid(w.lock) ==> forall p :: p in w.fs && p !in r.0.fs ==>
      Reaches(w.lock, p) || exists i :: 0 <= i < |names| && InViews(p, names[i])
    ensures Installed(r.0.sheaf).Keys <= Installed(w.sheaf).Keys
    // something is removed exactly when some name is present to begin with
    ensures r.1 <==> exists i :: 0 <= i < |names| && ComponentExists(w.fs, names[i])
    ensures !r.1 ==> r.0 == w.(log := w.log + NotInstalledNotices(names))
    // afterwards no named component has a view left
    ensures forall i :: 0 <= i < |names| ==> ViewsGone(r.0.fs, names[i])
    ensures LockValid(w.lock) ==> LockValid(r.0.lock) && SubLock(r.0.lock, w.lock)
    ensures threaded && LockValid(w.lock) ==> RemovedFilesUnlisted(r.0.log, |w.log|, r.0.lock)
    decreases |names|
  {
    if names == [] then (w, false)
    else
      var n := names[0];
      var w1 :=
        if !ComponentExists(w.fs, n) then w.Emit(NotInstalled(n))
        else Remove(env, w.Emit(Banner(RemovalTitle(n))), n, threaded, fuel);
      var rest := RemoveEach(env, w1, names[1..], threaded, fuel);
      RemoveEachStep(w, w1, rest.0, names, ComponentExists(w.fs, n), rest.1, threaded);
      RemoveEachFrame(w, w1, rest.0, names);
      (rest.0, ComponentExists(w.fs, n) || rest.1)
  }

  lemma RemoveEachFrame(w: World, w1: World, w2: World, names: seq<string>)
    requires names != []
    requires OnlyDeleted(w.fs, w1.fs) && OnlyDeleted(w1.fs, w2.fs)
    requires LockValid(w.lock) ==> LockValid(w1.lock) && SubLock(w1.lock, w.lock)
    requires LockValid(w.lock) ==> forall p :: p in w.fs && p !in w1.fs ==> InViews(p, names[0]) || Reaches(w.lock, p)
    requires LockValid(w1.lock) ==> forall p :: p in w1.fs && p !in w2.fs ==>
      Reaches(w1.lock, p) || exists i :: 0 <= i < |names[1..]| && InViews(p, names[1..][i])
    ensures OnlyDeleted(w.fs, w2.fs)
    ensures LockValid(w.lock) ==> forall p :: p in w.fs && p !in w2.fs ==>
      Reaches(w.lock, p) || exists i :: 0 <= i < |names| && InViews(p, names[i])
  {
    if LockValid(w.lock) {
      forall p | p in w.fs && p !in w2.fs && !Reaches(w.lock, p) ensures exists i :: 0 <= i < |names| && InViews(p, names[i]) {
        if p !in w1.fs {
          assert InViews(p, names[0]);
        } else {
          if Reaches(w1.lock, p) {
            SubLockReaches(w1.lock, w.lock, p);
          }
          var i :| 0 <= i < |names[1..]| && InViews(p, names[1..][i]);
          assert InViews(p, names[i + 1]);
        }
      }
    }
  }

  lemma RemoveEachStep(w: World, w1: World, w2: World, names: seq<string>, present: bool, restEdited: bool, threaded: bool)
    requires names != []
    requires !present ==> w1 == w.Emit(NotInstalled(names[0]))
    requires present ==> ViewsGone(w1.fs, names[0])
    requires w.log <= w1.log && w1.log <= w2.log
    requires OnlyDeleted(w.fs, w1.fs) && OnlyDeleted(w1.fs, w2.fs)
    requires !present ==> !(Exists(w.fs, ComponentDir(names[0])) || Exists(w.fs, ComponentView(names[0])))
    requires restEdited <==> exists i :: 0 <= i < |names[1..]| && ComponentExists(w1.fs, names[1..][i])
    requires !restEdited ==> w2 == w1.(log := w1.log + NotInstalledNotices(names[1..]))
    requires forall i :: 0 <= i < |names[1..]| ==> ViewsGone(w2.fs, names[1..][i])
    requires present <==> ComponentExists(w.fs, names[0])
    requires LockValid(w.lock) ==> LockValid(w1.lock) && SubLock(w1.lock, w.lock)
    requires threaded && LockValid(w.lock) ==> RemovedFilesUnlisted(w1.log, |w.log|, w1.lock)
    requires LockValid(w1.lock) ==> LockValid(w2.lock) && SubLock(w2.lock, w1.lock)
    requires threaded && LockValid(w1.lock) ==> RemovedFilesUnlisted(w2.log, |w1.log|, w2.lock)
    ensures w.log <= w2.log
    ensures (present || restEdited) <==> exists i :: 0 <= i < |names| && ComponentExists(w.fs, names[i])
    ensures !(present || restEdited) ==> w2 == w.(log := w.log + NotInstalledNotices(names))
    ensures forall i :: 0 <= i < |names| ==> ViewsGone(w2.fs, names[i])
    ensures LockValid(w.lock) ==> LockValid(w2.lock) && SubLock(w2.lock, w.lock)
    ensures threaded && LockValid(w.lock) ==> RemovedFilesUnlisted(w2.log, |w.log|, w2.lock)
  {
    assert w2.log[..|w.log|] == w.log by {
      assert w2.log[..|w1.log|] == w1.log;
    }
    if !present {
      assert w1.fs == w.fs;
      forall i | 0 <= i < |names[1..]| ensures names[1..][i] == names[i + 1] {
      }
      if restEdited {
        var i :| 0 <= i < |names[1..]| && ComponentExists(w1.fs, names[1..][i]);
        assert ComponentExists(w.fs, names[i + 1]);
      } else {
        forall i | 0 <= i < |names| ensures !ComponentExists(w.fs, names[i]) {
          if i > 0 {
            assert names[i] == names[1..][i - 1];
          }
        }
        assert w.log + NotInstalledNotices(names) == w.log + [NotInstalled(names[0])] + NotInstalledNotices(names[1..]);
      }
    }
    forall i | 0 <= i < |names| ensures ViewsGone(w2.fs, names[i]) {
      if i > 0 {
        assert names[i] == names[1..][i - 1];
      }
    }
    if LockValid(w.lock) {
      SubLockTransitive(w2.lock, w1.lock, w.lock);
      if threaded {
        UnlistedCombine(w1.log, w2.log, |w.log|, w1.lock, w2.lock);
      }
    }
  }

  /** `handle`: always succeeds; the summary line closes the transcript
      exactly when some named component was present. */
  function Handle(env: Env, w: World, args: seq<string>, typed: string, threaded: bool, fuel: nat): (r: (World, Status))
    ensures r.1 == Success
    ensures w.log <= r.0.log
    ensures var names := ComponentNames(args, typed);
      && (|r.0.log| > |w.log| && r.0.log[|r.0.log| - 1] == LockUpdatedSummary
          <==> exists i :: 0 <= i < |names| && ComponentExists(w.fs, names[i]))
      && ((forall i :: 0 <= i < |names| ==> !ComponentExists(w.fs, names[i])) ==>
          r.0 == w.(log := w.log + NotInstalledNotices(names)))
      && (forall i :: 0 <= i < |names| ==> ViewsGone(r.0.fs, names[i]))
    ensures LockValid(w.lock) ==> LockValid(r.0.lock) && SubLock(r.0.lock, w.lock)
    ensures OnlyDeleted(w.fs, r.0.fs)
    ensures threaded && LockValid(w.lock) ==> RemovedFilesUnlisted(r.0.log, |w.log|, r.0.lock)
  {
    var names := ComponentNames(args, typed);
    var (w1, edited) := RemoveEach(env, w, names, threaded, fuel);
    assert !edited ==> |w1.log| > |w.log| && w1.log[|w1.log| - 1] == NotInstalled(names[|names| - 1]);
    (if edited then w1.Emit(LockUpdatedSummary) else w1, Success)
  }

  /** `banner`: the title indented by two spaces between two rules of `═`,
      `strlen` of the indented title plus four long. */
  function BannerLines(title: string): (lines: seq<string>)
    ensures |lines| == 3 && lines[0] == lines[2] && lines[1] == "  " + title
    ensures forall i :: 0 <= i < |lines[0]| ==> lines[0][i] == '═'
  {
    var rule := Repeat('═', Utf8Length("  " + title) + 4);
    [rule, "  " + title, rule]
  }

  /** For an ASCII title the rule overhangs the indented title by four
      columns; every multi-byte character widens it further, since `strlen`
      counts bytes. */
  lemma BannerWidth(title: string)
    ensures |BannerLines(title)[0]| >= |"  " + title| + 4
    ensures (forall i :: 0 <= i < |title| ==> title[i] as int < 0x80) ==>
      |BannerLines(title)[0]| == |title| + 6
  {
    if forall i :: 0 <= i < |title| ==> title[i] as int < 0x80 {
      Utf8LengthAscii("  " + title);
    }
  }
}

=== FILE: remover.dfy ===
/** `ComponentRemover`: delete a component's views, dereference it in every
    lock section, delete what nobody references any more, and optionally
    remove internal dependencies that became unused. */
module Remover {
  import opened Wrappers
  import opened Seqs
  import opened Strings
  import opened OrderedMaps
  import opened Files
  import opened SheafConfig
  import opened SheafLock
  import opened State

  /** The component's view directory and single-file view. */
  function ComponentDir(name: string): string { UiRoot + name }
  function ComponentView(name: string): string { UiRoot + name + ".blade.php" }

  /** The file backing an entry: a `files` key is a path, a `helpers` key
      names `ui/<helper>.blade.php`. */
  function Target(key: string, helper: bool): string {
    if helper then ComponentView(key) else key
  }

  /** `deleteComponentFiles`. */
  function DeleteComponentFiles(w: World, name: string): (r: World)
    ensures !IsDirectory(r.fs, ComponentDir(name)) && ComponentView(name) !in r.fs
    ensures forall k :: k in r.fs ==> k in w.fs && r.fs[k] == w.fs[k]
    ensures forall k :: k in w.fs && k != ComponentView(name) && !StartsWith(k, ComponentDir(name) + "/") ==> k in r.fs
    ensures r.sheaf == w.sheaf && r.lock == w.lock && w.log <= r.log
    ensures forall i :: |w.log| <= i < |r.log| ==> r.log[i] == DeletedDirectory(name)
  {
    var w1 :=
      if IsDirectory(w.fs, ComponentDir(name)) then w.(fs := DeleteDirectory(w.fs, ComponentDir(name))).Emit(DeletedDirectory(name))
      else w;
    var fs2 := if Exists(w1.fs, ComponentView(name)) && ComponentView(name) in w1.fs then Delete(w1.fs, ComponentView(name)) else w1.fs;
    w1.(fs := fs2)
  }

  /** `p` is `n`'s single-file view or lies in its view directory. */
  predicate InViews(p: string, n: string) {
    p == ComponentView(n) || StartsWith(p, ComponentDir(n) + "/")
  }

  /** `p` is none of `name`'s views and backs no entry of the lock `l` that
      only `name` owns. */
  predicate Untouched(l: LockFile, name: string, p: string) {
    && !InViews(p, name)
    && p !in EmptiedOptional(l.files, name)
    && forall h :: h in EmptiedOptional(l.helpers, name) ==> ComponentView(h) != p
  }

  /** Every `files` entry of `before` that owners other than `name` still
      need is in `after` with exactly those owners. */
  ghost predicate KeepsShared(before: LockFile, name: string, after: LockFile) {
    before.files.Some? ==>
      forall p :: p in before.files.value.values && RemoveOwner(before.files.value.values[p], name) != [] ==>
        && after.files.Some? && p in after.files.value.values
        && after.files.value.values[p] == RemoveOwner(before.files.value.values[p], name)
  }

  /** `after` is `before` with paths deleted and nothing written. */
  ghost predicate OnlyDeleted(before: Fs, after: Fs) {
    forall p :: p in after ==> p in before && after[p] == before[p]
  }

  /** Neither the component's view directory nor its single-file view is
      left. */
  predicate ViewsGone(fs: Fs, name: string) {
    !IsDirectory(fs, ComponentDir(name)) && ComponentView(name) !in fs
  }

  /** `removeComponentFromList`. */
  function RemoveOwner(owners: Owners, name: string): (r: Owners)
    ensures name !in r
    ensures forall x :: x in r <==> x in owners && x != name
    ensures IsSubsequence(r, owners)
    ensures name !in owners ==> r == owners
  {
    forall x ensures x in RemoveAll(owners, name) <==> x in owners && x != name {
      RemoveAllMembers(owners, name, x);
    }
    RemoveAll(owners, name)
  }

  /** The `foreach` of `cleaningFiles` / `cleaningHelpers` on the lock copy,
      over `keys` in order: the owner list loses `name`, and an emptied entry
      is unset. */
  function CleanSection(s: Section, keys: seq<string>, name: string): (r: Section)
    ensures forall k :: k in r.values ==> k in s.values
    ensures forall k :: k in s.values && k !in keys ==> k in r.values && r.values[k] == s.values[k]
    ensures forall k :: k in s.values && k in keys ==>
      && (k in r.values <==> RemoveOwner(s.values[k], name) != [])
      && (k in r.values ==> r.values[k] == RemoveOwner(s.values[k], name))
    decreases |keys|
  {
    if keys == [] then s
    else
      var k := keys[0];
      var s1 :=
        if k !in s.values then s
        else if RemoveOwner(s.values[k], name) == [] then s.Remove(k)
        else s.Put(k, RemoveOwner(s.values[k], name));
      var r := CleanSection(s1, keys[1..], name);
      assert forall j :: j in keys <==> j == k || j in keys[1..];
      assert forall j :: j in s1.values && j != k ==> j in s.values && s1.values[j] == s.values[j];
      assert k in s1.values ==> k in s.values && s1.values[k] == RemoveOwner(s.values[k], name);
      assert forall j :: j in s.values && j != k ==> j in s1.values;
      forall j | j in s.values && j in keys
        ensures && (j in r.values <==> RemoveOwner(s.values[j], name) != [])
                && (j in r.values ==> r.values[j] == RemoveOwner(s.values[j], name))
      {
        if j == k && k in s1.values {
          assert RemoveOwner(s1.values[k], name) == s1.values[k];
        }
      }
      r
  }

  lemma {:induction false} CleanSectionValid(s: Section, keys: seq<string>, name: string)
    ensures s.Valid() ==> CleanSection(s, keys, name).Valid()
    decreases |keys|
  {
    if keys != [] && s.Valid() {
      var k := keys[0];
      if k !in s.values {
        CleanSectionValid(s, keys[1..], name);
      } else if RemoveOwner(s.values[k], name) == [] {
        CleanSectionValid(s.Remove(k), keys[1..], name);
      } else {
        CleanSectionValid(s.Put(k, RemoveOwner(s.values[k], name)), keys[1..], name);
      }
    }
  }

  /** The entries of `keys` whose owner list `name` alone made up. */
  function Emptied(s: Section, keys: seq<string>, name: string): (r: seq<string>)
    ensures forall k :: k in r <==> k in keys && k in s.values && RemoveOwner(s.values[k], name) == []
    decreases |keys|
  {
    if keys == [] then []
    else
      var k := keys[0];
      assert forall j :: j in keys <==> j == k || j in keys[1..];
      (if k in s.values && RemoveOwner(s.values[k], name) == [] then [k] else []) + Emptied(s, keys[1..], name)
  }

  /** Deleting the backing files of the emptied entries, where present. */
  function DeleteTargets(fs: Fs, keys: seq<string>, helper: bool): (r: Fs)
    ensures forall k :: k in keys ==> Target(k, helper) !in r
    ensures forall p :: p in r ==> p in fs && r[p] == fs[p]
    ensures forall p :: p in fs && (forall k :: k in keys ==> Target(k, helper) != p) ==> p in r
    decreases |keys|
  {
    if keys == [] then fs
    else
      var p := Target(keys[0], helper);
      assert forall j :: j in keys <==> j == keys[0] || j in keys[1..];
      DeleteTargets(if p in fs then Delete(fs, p) else fs, keys[1..], helper)
  }

  /** One event per emptied entry. */
  function RemovalEvents(keys: seq<string>, helper: bool): (r: seq<Event>)
    ensures |r| == |keys|
    ensures forall i :: 0 <= i < |keys| ==> r[i] == (if helper then RemovedHelper(keys[i]) else RemovedFile(keys[i]))
    ensures helper ==> forall e :: e in r ==> e.RemovedHelper?
    ensures !helper ==> forall e :: e in r ==> e.RemovedFile? && e.path in keys
  {
    seq(|keys|, i requires 0 <= i < |keys| => if helper then RemovedHelper(keys[i]) else RemovedFile(keys[i]))
  }

  /** `updateSheafFile`: unset `components[name]` in the current manifest. */
  function UnsetComponent(file: SheafFile, name: string): (r: SheafFile)
    ensures name !in Installed(r)
    ensures Installed(r) == Installed(file) - {name}
    ensures r.Some? <==> file.Some?
  {
    match file
    case None => None
    case Some(doc) =>
      if doc.components.None? then file
      else Some(doc.(components := Some(doc.components.value - {name})))
  }

  /** Every present section is a valid ordered map. */
  ghost predicate LockValid(l: LockFile) {
    && (l.files.Some? ==> l.files.value.Valid())
    && (l.internalDependencies.Some? ==> l.internalDependencies.value.Valid())
    && (l.helpers.Some? ==> l.helpers.value.Valid())
  }

  /** `b` is `a` with entries dropped and owners dropped from lists. */
  ghost predicate SubSection(b: Option<Section>, a: Option<Section>) {
    && (b.Some? <==> a.Some?)
    && (b.Some? ==> forall k :: k in b.value.values ==>
          k in a.value.values && forall x :: x in b.value.values[k] ==> x in a.value.values[k])
  }

  ghost predicate SubLock(b: LockFile, a: LockFile) {
    && SubSection(b.files, a.files)
    && SubSection(b.internalDependencies, a.internalDependencies)
    && SubSection(b.helpers, a.helpers)
  }

  lemma SubLockTransitive(c: LockFile, b: LockFile, a: LockFile)
    requires SubLock(c, b) && SubLock(b, a)
    ensures SubLock(c, a)
  {
  }

  /** A path a removal that starts from the lock `l` can reach besides the
      removed component's own views: a path the `files` section lists, the
      view of a recorded helper, or a view of a recorded internal
      dependency. */
  ghost predicate Reaches(l: LockFile, p: string) {
    || (l.files.Some? && p in l.files.value.values)
    || (l.helpers.Some? && exists h :: h in l.helpers.value.values && p == ComponentView(h))
    || (l.internalDependencies.Some? && exists d :: d in l.internalDependencies.value.values && InViews(p, d))
  }

  lemma SubLockReaches(b: LockFile, a: LockFile, p: string)
    requires SubLock(b, a) && Reaches(b, p)
    ensures Reaches(a, p)
  {
    if b.helpers.Some? && exists h :: h in b.helpers.value.values && p == ComponentView(h) {
      var h :| h in b.helpers.value.values && p == ComponentView(h);
      assert h in a.helpers.value.values;
    } else if b.internalDependencies.Some? && exists d :: d in b.internalDependencies.value.values && InViews(p, d) {
      var d :| d in b.internalDependencies.value.values && InViews(p, d);
      assert d in a.internalDependencies.value.values;
    }
  }

  /** Some owner list of the section names `x`. */
  ghost predicate OccursIn(sec: Option<Section>, x: string) {
    sec.Some? && exists k :: k in sec.value.values && x in sec.value.values[k]
  }

  /** Some owner list of the lock names `x`. */
  ghost predicate Occurs(l: LockFile, x: string) {
    OccursIn(l.files, x) || OccursIn(l.internalDependencies, x) || OccursIn(l.helpers, x)
  }

  /** The lock's `files` section does not list `p`. */
  predicate NotListed(l: LockFile, p: string) {
    l.files.None? || p !in l.files.value.values
  }

  /** Every file the transcript since position `from` reports as removed is
      absent from the lock's `files` section. */
  ghost predicate RemovedFilesUnlisted(log: seq<Event>, from: nat, l: LockFile) {
    forall i :: from <= i < |log| && log[i].RemovedFile? ==> NotListed(l, log[i].path)
  }

  /** `cleaningFiles` or `cleaningHelpers` on a possibly missing section. */
  function CleanOptional(sec: Option<Section>, name: string): (r: Option<Section>)
    ensures SubSection(r, sec)
    ensures sec.Some? && sec.value.Valid() ==> r.Some? && r.value.Valid() && !OccursIn(r, name)
    // an entry other owners still need keeps them, in order
    ensures sec.Some? && sec.value.Valid() ==> forall k :: k in sec.value.values && RemoveOwner(sec.value.values[k], name) != [] ==>
      k in r.value.values && r.value.values[k] == RemoveOwner(sec.value.values[k], name)
  {
    if sec.None? then None
    else
      var c := CleanSection(sec.value, sec.value.keys, name);
      CleanSectionValid(sec.value, sec.value.keys, name);
      assert forall k :: k in c.values ==> forall x :: x in c.values[k] ==> x in sec.value.values[k];
      Some(c)
  }

  function EmptiedOptional(sec: Option<Section>, name: string): (r: seq<string>)
    ensures sec.Some? ==> forall k :: k in r ==> k !in CleanOptional(sec, name).value.values
    ensures forall k :: k in r ==> sec.Some? && k in sec.value.values
  {
    if sec.None? then [] else Emptied(sec.value, sec.value.keys, name)
  }

  /** `remove(name)`. With `threaded` false this is the code as written: the
      nested removal of a dependency loads and saves the lock on its own, and
      the outer call then saves the copy it loaded first. With `threaded`
      true the nested removal works on, and hands back, the outer copy. The
      lock of the returned world is the saved `sheaf-lock.json`. */
  function Remove(env: Env, w: World, name: string, threaded: bool, fuel: nat): (r: World)
    ensures w.log <= r.log
    ensures Installed(r.sheaf).Keys <= Installed(w.sheaf).Keys - {name}
    ensures LockValid(w.lock) ==> LockValid(r.lock) && SubLock(r.lock, w.lock) && !Occurs(r.lock, name)
    ensures threaded && LockValid(w.lock) ==> RemovedFilesUnlisted(r.log, |w.log|, r.lock)
    // files only disappear, and every file entry this component alone owned
    // is deleted from disk and no longer listed
    ensures OnlyDeleted(w.fs, r.fs)
    ensures forall p :: p in EmptiedOptional(w.lock.files, name) ==> p !in r.fs
    ensures LockValid(w.lock) ==> forall p :: p in EmptiedOptional(w.lock.files, name) ==> NotListed(r.lock, p)
    ensures ViewsGone(r.fs, name)
    // every deleted path is one of the component's views or one the saved
    // lock it starts from reaches
    ensures LockValid(w.lock) ==> forall p :: p in w.fs && p !in r.fs ==> InViews(p, name) || Reaches(w.lock, p)
    // with no fuel left, exactly the views and the emptied entries' files go
    ensures fuel == 0 ==> forall p :: p in w.fs && Untouched(w.lock, name, p) ==> p in r.fs
    // as written, or with no nested removal, the saved `files` section is
    // the outer cleaning alone
    ensures (!threaded || fuel == 0) ==> r.lock.files == CleanOptional(w.lock.files, name)
    decreases fuel, 2, 0
  {
    var w1 := DeleteComponentFiles(w, name);
    var r := CleaningSheafLock(env, w1, name, threaded, fuel);
    RemoveCompose(w, w1, r, name, threaded);
    r
  }

  /** As written, or with no nested removal, an entry other components
      still own keeps them, less `name`. */
  lemma RemoveKeepsShared(env: Env, w: World, name: string, threaded: bool, fuel: nat)
    ensures (!threaded || fuel == 0) && LockValid(w.lock) ==> KeepsShared(w.lock, name, Remove(env, w, name, threaded, fuel).lock)
  {
  }

  lemma RemoveCompose(w: World, w1: World, r: World, name: string, threaded: bool)
    requires w.log <= w1.log && w1.log <= r.log
    requires forall i :: |w.log| <= i < |w1.log| ==> w1.log[i] == DeletedDirectory(name)
    requires threaded && LockValid(w.lock) ==> RemovedFilesUnlisted(r.log, |w1.log|, r.lock)
    requires ViewsGone(w1.fs, name) && OnlyDeleted(w1.fs, r.fs)
    ensures w.log <= r.log
    ensures threaded && LockValid(w.lock) ==> RemovedFilesUnlisted(r.log, |w.log|, r.lock)
    ensures ViewsGone(r.fs, name)
  {
    assert r.log[..|w1.log|] == w1.log;
    forall i | |w.log| <= i < |w1.log| ensures r.log[i] == DeletedDirectory(name) {
      assert r.log[i] == w1.log[i];
    }
  }

  /** `cleaningSheafLock`: the lock copy loses the component in its
      `files`, `internalDependencies` and `helpers` sections, in that order;
      the component leaves `sheaf.json`; the copy is saved. */
  function CleaningSheafLock(env: Env, w: World, name: string, threaded: bool, fuel: nat): (r: World)
    ensures w.log <= r.log
    ensures Installed(r.sheaf).Keys <= Installed(w.sheaf).Keys - {name}
    ensures LockValid(w.lock) ==> LockValid(r.lock) && SubLock(r.lock, w.lock) && !Occurs(r.lock, name)
    ensures threaded && LockValid(w.lock) ==> RemovedFilesUnlisted(r.log, |w.log|, r.lock)
    ensures OnlyDeleted(w.fs, r.fs)
    ensures forall p :: p in EmptiedOptional(w.lock.files, name) ==> p !in r.fs
    ensures LockValid(w.lock) ==> forall p :: p in EmptiedOptional(w.lock.files, name) ==> NotListed(r.lock, p)
    // every deleted path is one the saved lock it starts from reaches
    ensures LockValid(w.lock) ==> forall p :: p in w.fs && p !in r.fs ==> Reaches(w.lock, p)
    ensures fuel == 0 ==> forall p :: p in w.fs && Untouched(w.lock, name, p) ==> p in r.fs
    ensures (!threaded || fuel == 0) ==> r.lock.files == CleanOptional(w.lock.files, name)
    decreases fuel, 1, 0
  {
    var (w2, copy1) := CleaningFiles(w, w.lock, name);
    var depKeys := if copy1.internalDependencies.Some? then copy1.internalDependencies.value.keys else [];
    var (w3, copy2) := CleanDeps(env, w2, copy1, name, depKeys, threaded, fuel);
    var (w4, copy3) := CleaningHelpers(w3, copy2, name);
    var r := w4.(sheaf := UnsetComponent(w4.sheaf, name), lock := copy3);
    RemoveProperties(w, name, threaded, w, copy1, w2, w3, copy2, copy3, r);
    RemoveFrame(w.lock, w.fs, w2.fs, w3.fs, w4.fs, EmptiedOptional(w.lock.files, name), copy1, copy2,
                EmptiedOptional(copy2.helpers, name));
    CleaningOutcome(w, name, threaded, fuel, w2, copy1, w3, copy2, w4, copy3, r);
    r
  }

  /** `cleaningFiles` on the lock copy: every entry loses `name`, and the
      file of an emptied entry is deleted and reported. */
  function CleaningFiles(w: World, copy: LockFile, name: string): (r: (World, LockFile))
    ensures r.1 == copy.(files := CleanOptional(copy.files, name))
    ensures r.0.sheaf == w.sheaf && r.0.lock == w.lock
    ensures r.0.log == w.log + RemovalEvents(EmptiedOptional(copy.files, name), false)
    ensures OnlyDeleted(w.fs, r.0.fs)
    // exactly the emptied entries' files go
    ensures forall p :: p in EmptiedOptional(copy.files, name) ==> p !in r.0.fs
    ensures forall p :: p in w.fs && p !in r.0.fs ==> p in EmptiedOptional(copy.files, name)
  {
    var emptied := EmptiedOptional(copy.files, name);
    assert forall p :: p in emptied ==> Target(p, false) == p;
    (w.(fs := DeleteTargets(w.fs, emptied, false), log := w.log + RemovalEvents(emptied, false)),
     copy.(files := CleanOptional(copy.files, name)))
  }

  /** `cleaningHelpers` on the lock copy: every entry loses `name`, and the
      view of an emptied helper is deleted and reported. */
  function CleaningHelpers(w: World, copy: LockFile, name: string): (r: (World, LockFile))
    ensures r.1 == copy.(helpers := CleanOptional(copy.helpers, name))
    ensures r.0.sheaf == w.sheaf && r.0.lock == w.lock
    ensures r.0.log == w.log + RemovalEvents(EmptiedOptional(copy.helpers, name), true)
    ensures OnlyDeleted(w.fs, r.0.fs)
    // exactly the emptied helpers' views go
    ensures forall h :: h in EmptiedOptional(copy.helpers, name) ==> ComponentView(h) !in r.0.fs
    ensures forall p :: p in w.fs && p !in r.0.fs ==> exists h :: h in EmptiedOptional(copy.helpers, name) && ComponentView(h) == p
  {
    var emptied := EmptiedOptional(copy.helpers, name);
    (w.(fs := DeleteTargets(w.fs, emptied, true), log := w.log + RemovalEvents(emptied, true)),
     copy.(helpers := CleanOptional(copy.helpers, name)))
  }

  lemma CleaningOutcome(w: World, name: string, threaded: bool, fuel: nat, w2: World, copy1: LockFile,
                        w3: World, copy2: LockFile, w4: World, copy3: LockFile, r: World)
    requires copy1 == w.lock.(files := CleanOptional(w.lock.files, name))
    requires w2.sheaf == w.sheaf && OnlyDeleted(w.fs, w2.fs)
    requires forall p :: p in EmptiedOptional(w.lock.files, name) ==> p !in w2.fs
    requires forall p :: p in w.fs && p !in w2.fs ==> p in EmptiedOptional(w.lock.files, name)
    requires Installed(w3.sheaf).Keys <= Installed(w2.sheaf).Keys && OnlyDeleted(w2.fs, w3.fs)
    requires !threaded ==> copy2.files == copy1.files
    requires fuel == 0 ==> w3.fs == w2.fs && copy2.files == copy1.files && copy2.helpers == copy1.helpers
    requires LockValid(copy1) ==> SubLock(copy2, copy1)
    requires copy3 == copy2.(helpers := CleanOptional(copy2.helpers, name))
    requires w4.sheaf == w3.sheaf && OnlyDeleted(w3.fs, w4.fs)
    requires forall p :: p in w3.fs && p !in w4.fs ==> exists h :: h in EmptiedOptional(copy2.helpers, name) && ComponentView(h) == p
    requires r == w4.(sheaf := UnsetComponent(w4.sheaf, name), lock := copy3)
    ensures Installed(r.sheaf).Keys <= Installed(w.sheaf).Keys - {name}
    ensures OnlyDeleted(w.fs, r.fs)
    ensures forall p :: p in EmptiedOptional(w.lock.files, name) ==> p !in r.fs
    ensures LockValid(w.lock) ==> forall p :: p in EmptiedOptional(w.lock.files, name) ==> NotListed(r.lock, p)
    ensures fuel == 0 ==> forall p :: p in w.fs && Untouched(w.lock, name, p) ==> p in r.fs
    ensures (!threaded || fuel == 0) ==> r.lock.files == CleanOptional(w.lock.files, name)
  {
    if LockValid(w.lock) {
      assert LockValid(copy1);
      forall p | p in EmptiedOptional(w.lock.files, name) ensures NotListed(r.lock, p) {
        assert p !in copy1.files.value.values;
      }
    }
    if fuel == 0 {
      forall p | p in w.fs && Untouched(w.lock, name, p) ensures p in r.fs {
        assert !exists h :: h in EmptiedOptional(copy2.helpers, name) && ComponentView(h) == p;
      }
    }
  }

  lemma RemoveFrame(lock: LockFile, fs1: Fs, fs2: Fs, fs3: Fs, fs4: Fs,
                    emptiedFiles: seq<string>, copy1: LockFile, copy2: LockFile, emptiedHelpers: seq<string>)
    requires OnlyDeleted(fs1, fs2) && OnlyDeleted(fs2, fs3) && OnlyDeleted(fs3, fs4)
    requires forall p :: p in fs1 && p !in fs2 ==> p in emptiedFiles
    requires forall k :: k in emptiedFiles ==> lock.files.Some? && k in lock.files.value.values
    requires LockValid(lock) ==> LockValid(copy1) && SubLock(copy1, lock)
    requires LockValid(copy1) && LockValid(lock) ==> forall p :: p in fs2 && p !in fs3 ==> Reaches(copy1, p) || Reaches(lock, p)
    requires LockValid(copy1) ==> LockValid(copy2) && SubLock(copy2, copy1)
    requires forall p :: p in fs3 && p !in fs4 ==> exists h :: h in emptiedHelpers && ComponentView(h) == p
    requires forall h :: h in emptiedHelpers ==> copy2.helpers.Some? && h in copy2.helpers.value.values
    ensures OnlyDeleted(fs1, fs4)
    ensures LockValid(lock) ==> forall p :: p in fs1 && p !in fs4 ==> Reaches(lock, p)
  {
    if LockValid(lock) {
      SubLockTransitive(copy2, copy1, lock);
      forall p | p in fs1 && p !in fs4 ensures Reaches(lock, p) {
        if p !in fs2 {
        } else if p !in fs3 {
          if Reaches(copy1, p) {
            SubLockReaches(copy1, lock, p);
          }
        } else {
          var h :| h in emptiedHelpers && ComponentView(h) == p;
          assert h in lock.helpers.value.values;
        }
      }
    }
  }

  lemma RemoveProperties(w: World, name: string, threaded: bool, w1: World, copy1: LockFile, w2: World,
                         w3: World, copy2: LockFile, copy3: LockFile, r: World)
    requires w1.lock == w.lock && w.log <= w1.log
    requires forall i :: |w.log| <= i < |w1.log| ==> w1.log[i] == DeletedDirectory(name)
    requires copy1 == w.lock.(files := CleanOptional(w.lock.files, name))
    requires w2.log == w1.log + RemovalEvents(EmptiedOptional(w.lock.files, name), false)
    requires w2.log <= w3.log
    requires LockValid(copy1) ==> LockValid(copy2) && SubLock(copy2, copy1)
    requires LockValid(copy1) && copy1.internalDependencies.Some? ==>
      forall k :: k in copy2.internalDependencies.value.values && name in copy2.internalDependencies.value.values[k] ==>
        k !in copy1.internalDependencies.value.keys
    requires threaded && LockValid(copy1) ==> RemovedFilesUnlisted(w3.log, |w2.log|, copy2)
    requires copy3 == copy2.(helpers := CleanOptional(copy2.helpers, name))
    requires r.lock == copy3
    requires r.log == w3.log + RemovalEvents(EmptiedOptional(copy2.helpers, name), true)
    ensures w.log <= r.log
    ensures LockValid(w.lock) ==> LockValid(r.lock) && SubLock(r.lock, w.lock) && !Occurs(r.lock, name)
    ensures threaded && LockValid(w.lock) ==> RemovedFilesUnlisted(r.log, |w.log|, r.lock)
  {
    assert r.log[..|w3.log|] == w3.log;
    assert w3.log[..|w2.log|] == w2.log;
    if LockValid(w.lock) {
      RemoveLockProperties(w.lock, name, copy1, copy2, copy3);
      if threaded {
        FilesSegmentUnlisted(w, name, w1, w2, copy1);
        UnlistedCombine(w2.log, w3.log, |w.log|, copy1, copy2);
        forall i | |w3.log| <= i < |r.log| ensures !r.log[i].RemovedFile? {
          assert r.log[i].RemovedHelper?;
        }
        UnlistedCombine(w3.log, r.log, |w.log|, copy2, copy3);
      }
    }
  }

  lemma RemoveLockProperties(lock: LockFile, name: string, copy1: LockFile, copy2: LockFile, copy3: LockFile)
    requires LockValid(lock)
    requires copy1 == lock.(files := CleanOptional(lock.files, name))
    requires LockValid(copy1) ==> LockValid(copy2) && SubLock(copy2, copy1)
    requires LockValid(copy1) && copy1.internalDependencies.Some? ==>
      forall k :: k in copy2.internalDependencies.value.values && name in copy2.internalDependencies.value.values[k] ==>
        k !in copy1.internalDependencies.value.keys
    requires copy3 == copy2.(helpers := CleanOptional(copy2.helpers, name))
    ensures LockValid(copy3) && SubLock(copy3, lock) && !Occurs(copy3, name)
  {
    assert SubLock(copy1, lock);
    assert SubLock(copy3, copy2);
    SubLockTransitive(copy2, copy1, lock);
    SubLockTransitive(copy3, copy2, lock);
    assert !OccursIn(copy1.files, name);
    assert !OccursIn(copy3.files, name);
    assert !OccursIn(copy3.internalDependencies, name);
  }

  lemma FilesSegmentUnlisted(w: World, name: string, w1: World, w2: World, copy1: LockFile)
    requires LockValid(w.lock)
    requires w.log <= w1.log
    requires forall i :: |w.log| <= i < |w1.log| ==> w1.log[i] == DeletedDirectory(name)
    requires copy1 == w.lock.(files := CleanOptional(w.lock.files, name))
    requires w2.log == w1.log + RemovalEvents(EmptiedOptional(w.lock.files, name), false)
    ensures RemovedFilesUnlisted(w2.log, |w.log|, copy1)
  {
    var e := EmptiedOptional(w.lock.files, name);
    assert forall k :: k in e ==> NotListed(copy1, k);
    RemovalEventsUnlisted(w1.log, e, |w.log|, copy1);
  }

  lemma RemovalEventsUnlisted(log: seq<Event>, keys: seq<string>, from: nat, l: LockFile)
    requires from <= |log|
    requires forall i :: from <= i < |log| ==> !log[i].RemovedFile?
    requires forall k :: k in keys ==> NotListed(l, k)
    ensures RemovedFilesUnlisted(log + RemovalEvents(keys, false), from, l)
  {
    var log2 := log + RemovalEvents(keys, false);
    forall i | from <= i < |log2| && log2[i].RemovedFile? ensures NotListed(l, log2[i].path) {
      if i >= |log| {
        assert log2[i] == RemovalEvents(keys, false)[i - |log|];
        assert keys[i - |log|] in keys;
      }
    }
  }

  lemma UnlistedCombine(log1: seq<Event>, log2: seq<Event>, from: nat, a: LockFile, b: LockFile)
    requires log1 <= log2 && from <= |log1|
    requires RemovedFilesUnlisted(log1, from, a) && RemovedFilesUnlisted(log2, |log1|, b)
    requires SubLock(b, a)
    ensures RemovedFilesUnlisted(log2, from, b)
  {
    forall i | from <= i < |log2| && log2[i].RemovedFile? ensures NotListed(b, log2[i].path) {
      if i < |log1| {
        assert log2[i] == log1[i];
      }
    }
  }

  /** The `foreach` of `cleaningDependencies` over `keys`, on the lock copy. */
  function CleanDeps(env: Env, w: World, copy: LockFile, name: string, keys: seq<string>, threaded: bool, fuel: nat): (r: (World, LockFile))
    ensures w.log <= r.0.log
    ensures Installed(r.0.sheaf).Keys <= Installed(w.sheaf).Keys
    ensures !threaded ==> r.1.files == copy.files
    ensures LockValid(copy) ==> LockValid(r.1) && SubLock(r.1, copy)
    ensures LockValid(copy) && copy.internalDependencies.Some? ==>
      forall k :: k in r.1.internalDependencies.value.values && name in r.1.internalDependencies.value.values[k] ==> k !in keys
    ensures threaded && LockValid(copy) ==> RemovedFilesUnlisted(r.0.log, |w.log|, r.1)
    ensures OnlyDeleted(w.fs, r.0.fs)
    // with no fuel left nothing is deleted and only dependency entries change
    ensures fuel == 0 ==> r.0.fs == w.fs && r.1.files == copy.files && r.1.helpers == copy.helpers
    // every deleted path is one the copy or the saved lock reaches
    ensures LockValid(copy) && LockValid(w.lock) ==>
      LockValid(r.0.lock) && (SubLock(r.0.lock, w.lock) || SubLock(r.0.lock, copy))
    ensures LockValid(copy) && LockValid(w.lock) ==>
      forall p :: p in w.fs && p !in r.0.fs ==> Reaches(copy, p) || Reaches(w.lock, p)
    decreases fuel, 0, |keys| + 1
  {
    if keys == [] then (w, copy)
    else
      var (w1, copy1) := CleanDep(env, w, copy, name, keys[0], threaded, fuel);
      var r := CleanDeps(env, w1, copy1, name, keys[1..], threaded, fuel);
      CleanDepsCompose(w, w1, r.0, copy, copy1, r.1, name, keys, threaded);
      CleanDepsFrame(w, w1, r.0, copy, copy1, r.1);
      r
  }

  lemma CleanDepsCompose(w: World, w1: World, w2: World, copy: LockFile, copy1: LockFile, copy2: LockFile,
                         name: string, keys: seq<string>, threaded: bool)
    requires keys != []
    requires w.log <= w1.log && w1.log <= w2.log
    requires LockValid(copy) ==> LockValid(copy1) && SubLock(copy1, copy)
    requires LockValid(copy1) ==> LockValid(copy2) && SubLock(copy2, copy1)
    requires LockValid(copy) && copy.internalDependencies.Some? && keys[0] in copy1.internalDependencies.value.values ==>
      name !in copy1.internalDependencies.value.values[keys[0]]
    requires LockValid(copy1) && copy1.internalDependencies.Some? ==>
      forall k :: k in copy2.internalDependencies.value.values && name in copy2.internalDependencies.value.values[k] ==> k !in keys[1..]
    requires threaded && LockValid(copy) ==> RemovedFilesUnlisted(w1.log, |w.log|, copy1)
    requires threaded && LockValid(copy1) ==> RemovedFilesUnlisted(w2.log, |w1.log|, copy2)
    ensures w.log <= w2.log
    ensures LockValid(copy) ==> LockValid(copy2) && SubLock(copy2, copy)
    ensures LockValid(copy) && copy.internalDependencies.Some? ==>
      forall k :: k in copy2.internalDependencies.value.values && name in copy2.internalDependencies.value.values[k] ==> k !in keys
    ensures threaded && LockValid(copy) ==> RemovedFilesUnlisted(w2.log, |w.log|, copy2)
  {
    assert w2.log[..|w.log|] == w.log by {
      assert w2.log[..|w1.log|] == w1.log;
    }
    if LockValid(copy) {
      SubLockTransitive(copy2, copy1, copy);
      if threaded {
        UnlistedCombine(w1.log, w2.log, |w.log|, copy1, copy2);
      }
      assert forall k :: k in keys <==> k == keys[0] || k in keys[1..];
    }
  }

  lemma CleanDepsFrame(w: World, w1: World, w2: World, copy: LockFile, copy1: LockFile, copy2: LockFile)
    requires LockValid(copy) ==> LockValid(copy1) && SubLock(copy1, copy)
    requires OnlyDeleted(w.fs, w1.fs)
    requires LockValid(copy) && LockValid(w.lock) ==>
      LockValid(w1.lock) && (SubLock(w1.lock, w.lock) || SubLock(w1.lock, copy))
    requires LockValid(copy) && LockValid(w.lock) ==>
      forall p :: p in w.fs && p !in w1.fs ==> Reaches(copy, p) || Reaches(w.lock, p)
    requires LockValid(copy1) && LockValid(w1.lock) ==>
      LockValid(w2.lock) && (SubLock(w2.lock, w1.lock) || SubLock(w2.lock, copy1))
    requires LockValid(copy1) && LockValid(w1.lock) ==>
      forall p :: p in w1.fs && p !in w2.fs ==> Reaches(copy1, p) || Reaches(w1.lock, p)
    ensures LockValid(copy) && LockValid(w.lock) ==>
      LockValid(w2.lock) && (SubLock(w2.lock, w.lock) || SubLock(w2.lock, copy))
    ensures LockValid(copy) && LockValid(w.lock) ==>
      forall p :: p in w.fs && p !in w2.fs ==> Reaches(copy, p) || Reaches(w.lock, p)
  {
    if LockValid(copy) && LockValid(w.lock) {
      if SubLock(w2.lock, copy1) {
        SubLockTransitive(w2.lock, copy1, copy);
      } else if SubLock(w1.lock, w.lock) {
        SubLockTransitive(w2.lock, w1.lock, w.lock);
      } else {
        SubLockTransitive(w2.lock, w1.lock, copy);
      }
      forall p | p in w.fs && p !in w2.fs ensures Reaches(copy, p) || Reaches(w.lock, p) {
        if p in w1.fs {
          if Reaches(copy1, p) {
            SubLockReaches(copy1, copy, p);
          } else if SubLock(w1.lock, w.lock) {
            SubLockReaches(w1.lock, w.lock, p);
          } else {
            SubLockReaches(w1.lock, copy, p);
          }
        }
      }
    }
  }

  /** `name` is the last component the lock records as needing `dep`. */
  predicate OnlyDependent(copy: LockFile, name: string, dep: string) {
    && copy.internalDependencies.Some?
    && dep in copy.internalDependencies.value.values
    && name in copy.internalDependencies.value.values[dep]
    && RemoveOwner(copy.internalDependencies.value.values[dep], name) == []
  }

  /** One round of that loop, for the dependency `dep`: entries that do not
      list `name` are left alone; an emptied entry is offered for removal,
      and on confirmation the dependency is removed and its key unset. */
  function CleanDep(env: Env, w: World, copy: LockFile, name: string, dep: string, threaded: bool, fuel: nat): (r: (World, LockFile))
    ensures w.log <= r.0.log
    ensures Installed(r.0.sheaf).Keys <= Installed(w.sheaf).Keys
    ensures !threaded ==> r.1.files == copy.files
    ensures LockValid(copy) ==> LockValid(r.1) && SubLock(r.1, copy)
    ensures LockValid(copy) && copy.internalDependencies.Some? && dep in r.1.internalDependencies.value.values ==>
      name !in r.1.internalDependencies.value.values[dep]
    ensures threaded && LockValid(copy) ==> RemovedFilesUnlisted(r.0.log, |w.log|, r.1)
    ensures OnlyDeleted(w.fs, r.0.fs)
    // a confirmed removal of a dependency only `name` needed deletes every
    // file entry the dependency alone owned in the lock it starts from
    ensures OnlyDependent(copy, name, dep) && env.op.removeDependency(dep) && fuel > 0 ==>
      forall p :: p in EmptiedOptional((if threaded then copy else w.lock).files, dep) ==> p !in r.0.fs
    ensures OnlyDependent(copy, name, dep) && env.op.removeDependency(dep) && fuel > 0 && threaded && LockValid(copy) ==>
      forall p :: p in EmptiedOptional(copy.files, dep) ==> NotListed(r.1, p)
    // with no fuel left nothing is deleted and only dependency entries change
    ensures fuel == 0 ==> r.0.fs == w.fs && r.1.files == copy.files && r.1.helpers == copy.helpers
    // every deleted path is one the copy or the saved lock reaches
    ensures LockValid(copy) && LockValid(w.lock) ==>
      LockValid(r.0.lock) && (SubLock(r.0.lock, w.lock) || SubLock(r.0.lock, copy))
    ensures LockValid(copy) && LockValid(w.lock) ==>
      forall p :: p in w.fs && p !in r.0.fs ==> Reaches(copy, p) || Reaches(w.lock, p)
    decreases fuel, 0, 1
  {
    if copy.internalDependencies.None? then (w, copy)
    else
      var sec := copy.internalDependencies.value;
      if dep !in sec.values || name !in sec.values[dep] then (w, copy)
      else
        var remaining := RemoveOwner(sec.values[dep], name);
        var copy1 := copy.(internalDependencies := Some(sec.Put(dep, remaining)));
        assert LockValid(copy) ==> LockValid(copy1) && SubLock(copy1, copy);
        if remaining != [] then (w, copy1)
        else
          if !env.op.removeDependency(dep) then (w.Emit(Prompted(RemoveDependency, dep)), copy1)
          else RemoveDependencyOf(env, w, copy, copy1, dep, threaded, fuel)
  }

  /** `unset($lock['internalDependencies'][$dep])`. */
  function UnsetDependency(l: LockFile, dep: string): LockFile {
    if l.internalDependencies.Some? then l.(internalDependencies := Some(l.internalDependencies.value.Remove(dep))) else l
  }

  /** The confirmed branch of that round: the dependency is removed (on the
      outer copy when `threaded`) and its key unset in the copy. */
  function RemoveDependencyOf(env: Env, w: World, copy: LockFile, copy1: LockFile, dep: string, threaded: bool, fuel: nat): (r: (World, LockFile))
    requires copy1.files == copy.files && copy1.helpers == copy.helpers
    requires copy.internalDependencies.Some? && dep in copy.internalDependencies.value.values
    requires LockValid(copy) ==> LockValid(copy1) && SubLock(copy1, copy)
    ensures w.log <= r.0.log
    ensures Installed(r.0.sheaf).Keys <= Installed(w.sheaf).Keys
    ensures !threaded ==> r.1.files == copy.files
    ensures LockValid(copy) ==> LockValid(r.1) && SubLock(r.1, copy)
    ensures LockValid(copy) && copy.internalDependencies.Some? ==> dep !in r.1.internalDependencies.value.values
    ensures threaded && LockValid(copy) ==> RemovedFilesUnlisted(r.0.log, |w.log|, r.1)
    ensures OnlyDeleted(w.fs, r.0.fs)
    // as written, the copy keeps nothing of what the nested removal did
    ensures !threaded ==> r.1 == UnsetDependency(copy1, dep)
    ensures fuel > 0 ==> forall p :: p in EmptiedOptional((if threaded then copy else w.lock).files, dep) ==> p !in r.0.fs
    ensures fuel > 0 && threaded && LockValid(copy) ==>
      forall p :: p in EmptiedOptional(copy.files, dep) ==> NotListed(r.1, p)
    // with no fuel left nothing is deleted and only dependency entries change
    ensures fuel == 0 ==> r.0.fs == w.fs && r.1.files == copy.files && r.1.helpers == copy.helpers
    // every deleted path is one the copy or the saved lock reaches
    ensures LockValid(copy) && LockValid(w.lock) ==>
      LockValid(r.0.lock) && (SubLock(r.0.lock, w.lock) || SubLock(r.0.lock, copy))
    ensures LockValid(copy) && LockValid(w.lock) ==>
      forall p :: p in w.fs && p !in r.0.fs ==> Reaches(copy, p) || Reaches(w.lock, p)
    decreases fuel, 0, 0
  {
    var w1 := w.Emit(Prompted(RemoveDependency, dep));
    var input := if threaded then w1.(lock := copy1) else w1;
    var w2 := if fuel == 0 then input.Emit(FuelExhausted(dep)) else Remove(env, input, dep, threaded, fuel - 1);
    var copy2 := if threaded then w2.lock else copy1;
    var copy3 := UnsetDependency(copy2, dep);
    var w3 := w2.Emit(RemovedDependency(dep));
    CleanDepProperties(w, w1, input, w2, copy, copy1, copy2, copy3, w3, dep, threaded, fuel > 0);
    DependencyRemovalFrame(w, input, w2, w3, copy, copy1, dep);
    assert input.lock.files == (if threaded then copy else w.lock).files;
    (w3, copy3)
  }

  lemma DependencyRemovalFrame(w: World, input: World, w2: World, w3: World, copy: LockFile, copy1: LockFile, dep: string)
    requires input.fs == w.fs && (input.lock == copy1 || input.lock == w.lock)
    requires copy.internalDependencies.Some? && dep in copy.internalDependencies.value.values
    requires LockValid(copy) ==> LockValid(copy1) && SubLock(copy1, copy)
    requires LockValid(input.lock) ==> LockValid(w2.lock) && SubLock(w2.lock, input.lock)
    requires LockValid(input.lock) ==> forall p :: p in input.fs && p !in w2.fs ==> InViews(p, dep) || Reaches(input.lock, p)
    requires w3.fs == w2.fs && w3.lock == w2.lock
    ensures LockValid(copy) && LockValid(w.lock) ==>
      LockValid(w3.lock) && (SubLock(w3.lock, w.lock) || SubLock(w3.lock, copy))
    ensures LockValid(copy) && LockValid(w.lock) ==>
      forall p :: p in w.fs && p !in w3.fs ==> Reaches(copy, p) || Reaches(w.lock, p)
  {
    if LockValid(copy) && LockValid(w.lock) {
      if input.lock == copy1 {
        SubLockTransitive(w2.lock, copy1, copy);
      }
      forall p | p in w.fs && p !in w3.fs ensures Reaches(copy, p) || Reaches(w.lock, p) {
        if InViews(p, dep) {
          assert Reaches(copy, p);
        } else if input.lock == copy1 {
          SubLockReaches(copy1, copy, p);
        }
      }
    }
  }

  lemma CleanDepProperties(w: World, w1: World, input: World, w2: World, copy: LockFile, copy1: LockFile,
                           copy2: LockFile, copy3: LockFile, w3: World, dep: string, threaded: bool, ran: bool)
    requires w1 == w.Emit(Prompted(RemoveDependency, dep))
    requires input == if threaded then w1.(lock := copy1) else w1
    requires input.log <= w2.log
    requires LockValid(copy) ==> LockValid(copy1) && SubLock(copy1, copy)
    requires copy1.files == copy.files
    requires threaded && LockValid(input.lock) ==> LockValid(w2.lock) && SubLock(w2.lock, input.lock)
    requires threaded && LockValid(input.lock) ==> RemovedFilesUnlisted(w2.log, |input.log|, w2.lock)
    requires copy2 == if threaded then w2.lock else copy1
    requires copy3 == UnsetDependency(copy2, dep)
    requires w3 == w2.Emit(RemovedDependency(dep))
    requires OnlyDeleted(input.fs, w2.fs)
    requires ran ==> forall p :: p in EmptiedOptional(input.lock.files, dep) ==> p !in w2.fs
    requires ran && threaded && LockValid(input.lock) ==>
      forall p :: p in EmptiedOptional(input.lock.files, dep) ==> NotListed(w2.lock, p)
    ensures w.log <= w3.log
    ensures OnlyDeleted(w.fs, w3.fs)
    ensures ran ==> forall p :: p in EmptiedOptional(input.lock.files, dep) ==> p !in w3.fs
    ensures ran && threaded && LockValid(copy) ==>
      forall p :: p in EmptiedOptional(input.lock.files, dep) ==> NotListed(copy3, p)
    ensures !threaded ==> copy3.files == copy.files
    ensures LockValid(copy) ==> LockValid(copy3) && SubLock(copy3, copy)
    ensures LockValid(copy) && copy.internalDependencies.Some? ==> dep !in copy3.internalDependencies.value.values
    ensures threaded && LockValid(copy) ==> RemovedFilesUnlisted(w3.log, |w.log|, copy3)
  {
    assert w3.log[..|w.log|] == w.log by {
      assert w2.log[..|input.log|] == input.log;
    }
    if LockValid(copy) {
      assert SubLock(copy3, copy2);
      SubLockTransitive(copy2, copy1, copy);
      SubLockTransitive(copy3, copy2, copy);
      if threaded {
        forall i | |w.log| <= i < |w3.log| && w3.log[i].RemovedFile? ensures NotListed(copy3, w3.log[i].path) {
          if |input.log| <= i < |w2.log| {
            assert w3.log[i] == w2.log[i];
          }
        }
      }
    }
  }

  /** `remove` as written. */
  function RemoveAsWritten(env: Env, w: World, name: string, fuel: nat): (r: World)
    ensures w.log <= r.log
    ensures name !in Installed(r.sheaf)
    // after the removal no owner list of the saved lock names the component
    ensures LockValid(w.lock) ==> LockValid(r.lock) && SubLock(r.lock, w.lock) && !Occurs(r.lock, name)
    // the saved `files` section is the outer cleaning alone
    ensures r.lock.files == CleanOptional(w.lock.files, name)
    ensures LockValid(w.lock) ==> KeepsShared(w.lock, name, r.lock)
    // the views are gone, files only disappear, the ones only this component
    // owned among them, and nothing the lock does not reach goes
    ensures ViewsGone(r.fs, name) && OnlyDeleted(w.fs, r.fs)
    ensures forall p :: p in EmptiedOptional(w.lock.files, name) ==> p !in r.fs
    ensures LockValid(w.lock) ==> forall p :: p in w.fs && p !in r.fs ==> InViews(p, name) || Reaches(w.lock, p)
    ensures fuel == 0 ==> forall p :: p in w.fs && Untouched(w.lock, name, p) ==> p in r.fs
  {
    Remove(env, w, name, false, fuel)
  }

  /** `remove` with the lock threaded through the nested removals. */
  function RemoveThreaded(env: Env, w: World, name: string, fuel: nat): (r: World)
    ensures w.log <= r.log
    ensures name !in Installed(r.sheaf)
    ensures LockValid(w.lock) ==> LockValid(r.lock) && SubLock(r.lock, w.lock) && !Occurs(r.lock, name)
    // no file the removal deleted through the lock is still listed in it
    ensures LockValid(w.lock) ==> RemovedFilesUnlisted(r.log, |w.log|, r.lock)
    ensures OnlyDeleted(w.fs, r.fs)
    ensures ViewsGone(r.fs, name)
    ensures forall p :: p in EmptiedOptional(w.lock.files, name) ==> p !in r.fs
    ensures LockValid(w.lock) ==> forall p :: p in w.fs && p !in r.fs ==> InViews(p, name) || Reaches(w.lock, p)
    ensures fuel == 0 ==> forall p :: p in w.fs && Untouched(w.lock, name, p) ==> p in r.fs
    ensures fuel == 0 && LockValid(w.lock) ==> KeepsShared(w.lock, name, r.lock)
  {
    RemoveKeepsShared(env, w, name, true, fuel);
    Remove(env, w, name, true, fuel)
  }

  /** As written, the saved lock is computed from the lock loaded at the
      start and the operator's answers alone: whatever the nested removals
      do, and however deep they go, is overwritten. */
  lemma {:induction false} AsWrittenLockIgnoresNested(env: Env, w: World, name: string, fuel: nat)
    ensures RemoveAsWritten(env, w, name, fuel).lock == RemoveAsWritten(env, w, name, 0).lock
  {
    var w1 := DeleteComponentFiles(w, name);
    var (w2, copy1) := CleaningFiles(w1, w1.lock, name);
    var keys := if copy1.internalDependencies.Some? then copy1.internalDependencies.value.keys else [];
    CleanDepsCopyIgnoresWorld(env, w2, w2, copy1, name, keys, fuel, 0);
    var c := CleanDeps(env, w2, copy1, name, keys, false, fuel).1;
    assert CleaningSheafLock(env, w1, name, false, fuel).lock == CleaningHelpers(w2, c, name).1;
    assert CleaningSheafLock(env, w1, name, false, 0).lock == CleaningHelpers(w2, c, name).1;
  }

  lemma {:induction false} CleanDepsCopyIgnoresWorld(env: Env, w: World, v: World, copy: LockFile, name: string,
                                                     keys: seq<string>, fuel: nat, fuel': nat)
    ensures CleanDeps(env, w, copy, name, keys, false, fuel).1 == CleanDeps(env, v, copy, name, keys, false, fuel').1
    decreases |keys|
  {
    if keys != [] {
      var (w1, c1) := CleanDep(env, w, copy, name, keys[0], false, fuel);
      var (v1, d1) := CleanDep(env, v, copy, name, keys[0], false, fuel');
      assert c1 == d1;
      CleanDepsCopyIgnoresWorld(env, w1, v1, c1, name, keys[1..], fuel, fuel');
    }
  }

  /** A lock where `radio` needs `icon`, and only `icon` owns a shared file. */
  const SharedPath: string := "resources/js/shared.js"

  function SampleLock(): LockFile {
    LockFile(
      Some(OMap([SharedPath], map[SharedPath := ["icon"]])),
      Some(OMap(["icon"], map["icon" := ["radio"]])),
      None)
  }

  /** Removing `radio` and confirming the removal of `icon`: as written, the
      nested removal deletes the shared file but the saved lock still lists
      it, owned by the removed `icon`; threaded, the entry is gone. */
  lemma StaleLockSaveCounterexample(env: Env, w: World)
    requires w.lock == SampleLock() && SharedPath in w.fs
    requires env.op.removeDependency("icon")
    ensures var r := RemoveAsWritten(env, w, "radio", 1);
      && SharedPath !in r.fs
      && r.lock.files.Some? && SharedPath in r.lock.files.value.values
      && r.lock.files.value.values[SharedPath] == ["icon"]
    ensures var r := RemoveThreaded(env, w, "radio", 1);
      SharedPath !in r.fs && r.lock.files.Some? && SharedPath !in r.lock.files.value.values
  {
    SampleFacts();
    ChainedRemoval(env, w, "radio", "icon", SharedPath, false);
    ChainedRemoval(env, w, "radio", "icon", SharedPath, true);
    AsWrittenKeepsEntry(env, w, "radio", "icon", SharedPath, 1);
  }

  /** As written, an entry the removed component does not own survives in
      the saved lock with its owner list unchanged. */
  lemma AsWrittenKeepsEntry(env: Env, w: World, name: string, dep: string, path: string, fuel: nat)
    requires name != dep
    requires w.lock.files == Some(OMap([path], map[path := [dep]]))
    ensures var r := RemoveAsWritten(env, w, name, fuel);
      r.lock.files.Some? && path in r.lock.files.value.values && r.lock.files.value.values[path] == [dep]
  {
    assert RemoveOwner([dep], name) == [dep];
  }

  /** The sample's paths and owner lists, spelled out. */
  lemma SampleFacts()
    ensures SharedPath != ComponentView("radio") && !StartsWith(SharedPath, ComponentDir("radio") + "/")
    ensures "radio" != "icon"
    ensures SampleLock().files.value.keys == [SharedPath]
    ensures SampleLock().files.value.values == map[SharedPath := ["icon"]]
    ensures SampleLock().internalDependencies == Some(OMap(["icon"], map["icon" := ["radio"]]))
    ensures LockValid(SampleLock())
  {
    assert SharedPath[10] == 'j';
    assert ComponentView("radio")[10] == 'v';
    assert (ComponentDir("radio") + "/")[10] == 'v';
    assert "radio"[0] != "icon"[0];
    assert NoDuplicates(SampleLock().files.value.keys);
    assert NoDuplicates(SampleLock().internalDependencies.value.keys);
  }

  lemma RemoveOwnerSole(x: string)
    ensures RemoveOwner([x], x) == []
  {
  }

  /** `name` needs `dep` alone, and `dep` alone owns the file at `path`
      outside `name`'s views: removing `name` at depth one with the removal
      of `dep` confirmed deletes the file. */
  lemma ChainedRemoval(env: Env, w: World, name: string, dep: string, path: string, threaded: bool)
    requires name != dep
    requires path != ComponentView(name) && !StartsWith(path, ComponentDir(name) + "/") && path in w.fs
    requires w.lock.files == Some(OMap([path], map[path := [dep]]))
    requires w.lock.internalDependencies == Some(OMap([dep], map[dep := [name]]))
    requires LockValid(w.lock)
    requires env.op.removeDependency(dep)
    ensures var r := Remove(env, w, name, threaded, 1);
      && path !in r.fs
      && (threaded ==> NotListed(r.lock, path))
  {
    var w1 := DeleteComponentFiles(w, name);
    var copy1 := w1.lock.(files := CleanOptional(w1.lock.files, name));
    var emptied := EmptiedOptional(w1.lock.files, name);
    var w2 := w1.(fs := DeleteTargets(w1.fs, emptied, false), log := w1.log + RemovalEvents(emptied, false));
    assert copy1.files.value.values[path] == RemoveOwner([dep], name);
    var step := CleanDep(env, w2, copy1, name, dep, threaded, 1);
    DependencyStep(env, w2, copy1, name, dep, path, threaded);
    var deps := CleanDeps(env, w2, copy1, name, [dep], threaded, 1);
    assert deps == CleanDeps(env, step.0, step.1, name, [], threaded, 1);
  }

  /** The round of the loop for `dep`: the emptied entry is confirmed for
      removal and the nested removal deletes the file only `dep` owned. */
  lemma DependencyStep(env: Env, w2: World, copy1: LockFile, name: string, dep: string, path: string, threaded: bool)
    requires copy1.internalDependencies == Some(OMap([dep], map[dep := [name]]))
    requires copy1.files.Some? && path in copy1.files.value.keys
    requires path in copy1.files.value.values && copy1.files.value.values[path] == [dep]
    requires LockValid(copy1)
    requires w2.lock.files.Some? && path in w2.lock.files.value.keys
    requires path in w2.lock.files.value.values && w2.lock.files.value.values[path] == [dep]
    requires env.op.removeDependency(dep)
    ensures var step := CleanDep(env, w2, copy1, name, dep, threaded, 1);
      && path !in step.0.fs
      && (threaded ==> NotListed(step.1, path))
  {
    RemoveOwnerSole(name);
    assert OnlyDependent(copy1, name, dep);
    SoleOwnerEmptied(copy1.files, dep, path);
    SoleOwnerEmptied(w2.lock.files, dep, path);
  }

  /** An entry whose only owner is `dep` is emptied by removing `dep`. */
  lemma SoleOwnerEmptied(files: Option<Section>, dep: string, path: string)
    requires files.Some? && path in files.value.keys
    requires path in files.value.values && files.value.values[path] == [dep]
    ensures path in EmptiedOptional(files, dep)
  {
    RemoveOwnerSole(dep);
  }
}

=== FILE: seqs.dfy ===
/** Sequence helpers: removing every occurrence of a value, duplicate
    freedom, and the subsequence order. */
module Seqs {

  /** No value occurs twice in `s`. */
  predicate NoDuplicates<T(==)>(s: seq<T>) {
    forall i, j :: 0 <= i < j < |s| ==> s[i] != s[j]
  }

  /** `sub` is `s` with some elements dropped and the rest kept in order. */
  ghost predicate IsSubsequence<T>(sub: seq<T>, s: seq<T>)
    decreases |s|
  {
    if sub == [] then true
    else if s == [] then false
    else if sub[0] == s[0] then IsSubsequence(sub[1..], s[1..])
    else IsSubsequence(sub, s[1..])
  }

  /** `array_values(array_filter(s, fn($c) => $c !== x))`: every strictly-equal
      occurrence of `x` is dropped, the other elements keep their order. */
  function RemoveAll<T(==)>(s: seq<T>, x: T): (r: seq<T>)
    ensures x !in r
    ensures multiset(r) == multiset(s)[x := 0]
    ensures IsSubsequence(r, s)
    ensures |r| <= |s|
    ensures x !in s ==> r == s
  {
    if s == [] then []
    else
      assert s == [s[0]] + s[1..];
      if s[0] == x then RemoveAll(s[1..], x)
      else [s[0]] + RemoveAll(s[1..], x)
  }

  /** Membership after removal: exactly the other members remain. */
  lemma RemoveAllMembers<T>(s: seq<T>, x: T, y: T)
    ensures y in RemoveAll(s, x) <==> y in s && y != x
  {
    var r := RemoveAll(s, x);
    assert y in r <==> y in multiset(r);
    assert y in s <==> y in multiset(s);
  }

  /** A subsequence of a duplicate-free sequence is duplicate free. */
  lemma {:induction false} SubsequenceNoDuplicates<T>(sub: seq<T>, s: seq<T>)
    requires IsSubsequence(sub, s)
    requires NoDuplicates(s)
    ensures NoDuplicates(sub)
    decreases |s|
  {
    if sub != [] && s != [] {
      assert NoDuplicates(s[1..]) by {
        forall i, j | 0 <= i < j < |s[1..]| ensures s[1..][i] != s[1..][j] {
          assert s[1..][i] == s[i + 1] && s[1..][j] == s[j + 1];
        }
      }
      if sub[0] == s[0] {
        SubsequenceNoDuplicates(sub[1..], s[1..]);
        SubsequenceMembers(sub[1..], s[1..]);
        forall j | 0 < j < |sub| ensures sub[0] != sub[j] {
          assert sub[j] == sub[1..][j - 1];
          assert sub[j] in s[1..];
          var k :| 0 <= k < |s[1..]| && s[1..][k] == sub[j];
          assert s[k + 1] == sub[j];
        }
      } else {
        SubsequenceNoDuplicates(sub, s[1..]);
      }
    }
  }

  /** Every member of a subsequence is a member of the sequence. */
  lemma {:induction false} SubsequenceMembers<T>(sub: seq<T>, s: seq<T>)
    requires IsSubsequence(sub, s)
    ensures forall y :: y in sub ==> y in s
    decreases |s|
  {
    if sub != [] && s != [] {
      if sub[0] == s[0] {
        SubsequenceMembers(sub[1..], s[1..]);
        forall y | y in sub ensures y in s {
          if y != sub[0] {
            assert y in sub[1..];
          }
        }
      } else {
        SubsequenceMembers(sub, s[1..]);
      }
    }
  }
}

=== FILE: sheafconfig.dfy ===
/** The installed-components manifest (`sheaf.json`) and the staleness
    rule read from it (`SheafConfig`, `shouldInstallDependency`,
    `needsUpdate`). The file is kept decoded; JSON text is not modelled. */
module SheafConfig {
  import opened Wrappers

  /** `sheaf.json` decoded. `components` maps each installed component to its
      installation time; `project_hash` and `user` are the other top-level
      keys the file carries. `None` is a key missing from the document. */
  datatype SheafDoc = SheafDoc(
    components: Option<map<string, int>>,
    projectHash: Option<string>,
    user: Option<string>)
  {
    /** PHP `!$doc`: the decoded array has no key at all. */
    predicate IsFalsy() {
      components.None? && projectHash.None? && user.None?
    }
  }

  /** The file on disk; `None` when it does not exist. */
  type SheafFile = Option<SheafDoc>

  const EmptyDoc: SheafDoc := SheafDoc(None, None, None)

  /** `getInstalledComponents`: the decoded document, or `[]` without a file. */
  function GetInstalledComponents(file: SheafFile): (doc: SheafDoc)
    ensures file.None? ==> doc.IsFalsy()
    ensures file.Some? ==> doc == file.value
  {
    if file.Some? then file.value else EmptyDoc
  }

  /** The `components` map, empty when the file or the key is missing. */
  function Installed(file: SheafFile): map<string, int> {
    GetInstalledComponents(file).components.GetOr(map[])
  }

  /** `saveInstalledComponent`: upsert `components[name].installationTime`. */
  function SaveInstalledComponent(file: SheafFile, name: string, now: int): (r: SheafFile)
    ensures r.Some? && r.value.components.Some?
    ensures Installed(r) == Installed(file)[name := now]
    ensures r.value.projectHash == GetInstalledComponents(file).projectHash
    ensures r.value.user == GetInstalledComponents(file).user
  {
    var doc := GetInstalledComponents(file);
    Some(doc.(components := Some(doc.components.GetOr(map[])[name := now])))
  }

  /** Saving a name again only replaces its timestamp. */
  lemma SaveInstalledComponentUpsert(file: SheafFile, name: string, t1: int, t2: int)
    ensures SaveInstalledComponent(SaveInstalledComponent(file, name, t1), name, t2)
         == SaveInstalledComponent(file, name, t2)
  {
    var doc := GetInstalledComponents(file);
    assert doc.components.GetOr(map[])[name := t1][name := t2] == doc.components.GetOr(map[])[name := t2];
  }

  /** Saving two different components commutes. */
  lemma SaveInstalledComponentCommutes(file: SheafFile, a: string, ta: int, b: string, tb: int)
    requires a != b
    ensures SaveInstalledComponent(SaveInstalledComponent(file, a, ta), b, tb)
         == SaveInstalledComponent(SaveInstalledComponent(file, b, tb), a, ta)
  {
    var m := GetInstalledComponents(file).components.GetOr(map[]);
    assert m[a := ta][b := tb] == m[b := tb][a := ta];
  }

  /** `saveProjectHash` with the new UUID as a parameter: set the hash if
      the key is absent and return it; otherwise write nothing and return
      null. */
  function SaveProjectHash(file: SheafFile, uuid: string): (r: (SheafFile, Option<string>))
    ensures file.Some? && file.value.projectHash.Some? ==> r == (file, None)
    ensures !(file.Some? && file.value.projectHash.Some?) ==>
      && r.1 == Some(uuid)
      && r.0 == Some(GetInstalledComponents(file).(projectHash := Some(uuid)))
  {
    if file.Some? && file.value.projectHash.Some? then (file, None)
    else (Some(GetInstalledComponents(file).(projectHash := Some(uuid))), Some(uuid))
  }

  /** The hash is set once: a second call never replaces it. */
  lemma SaveProjectHashOnce(file: SheafFile, first: string, second: string)
    ensures var (f1, h1) := SaveProjectHash(file, first);
            var (f2, h2) := SaveProjectHash(f1, second);
            f2 == f1 && h2 == None && f1.Some? && f1.value.projectHash.Some?
  {
  }

  /** `shouldInstallDependency` exactly as written: `!$doc` short-cuts to
      true, then `array_key_exists($dep, $doc['components'])` runs, and with
      no `components` key that call receives null and throws a TypeError. */
  function ShouldInstallAsWritten(file: SheafFile, dep: string, lastModified: int): (r: Result<bool>)
    ensures r.Err? <==> file.Some? && !file.value.IsFalsy() && file.value.components.None?
  {
    var doc := GetInstalledComponents(file);
    if doc.IsFalsy() then Ok(true)
    else if doc.components.None? then Err("array_key_exists(): Argument #2 ($array) must be of type array, null given")
    else if dep !in doc.components.value then Ok(true)
    else Ok(doc.components.value[dep] < lastModified)
  }

  /** The staleness rule the engine uses: install when the component was
      never recorded, or was installed strictly before the registry's
      `lastModified`. A document without `components` has recorded nothing. */
  predicate IsStale(file: SheafFile, dep: string, lastModified: int) {
    dep !in Installed(file) || Installed(file)[dep] < lastModified
  }

  /** Wherever the code as written returns, it returns the corrected answer. */
  lemma IsStaleAgreesWithSource(file: SheafFile, dep: string, lastModified: int)
    ensures ShouldInstallAsWritten(file, dep, lastModified).Ok? ==>
      ShouldInstallAsWritten(file, dep, lastModified).value == IsStale(file, dep, lastModified)
  {
  }

  /** A `sheaf.json` holding only a project hash (what `saveProjectHash`
      leaves in a fresh project) makes the check as written throw, while
      the dependency is plainly missing. */
  lemma ShouldInstallFaultsOnHashOnlyFile()
    ensures var file := SaveProjectHash(None, "hash").0;
            && ShouldInstallAsWritten(file, "icon", 1).Err?
            && IsStale(file, "icon", 1)
  {
  }

  /** Staleness is the strict comparison: a recorded time `t0` is stale for
      `t1` exactly when `t0 < t1`. */
  lemma StalenessStrict(file: SheafFile, dep: string, lastModified: int)
    requires dep in Installed(file)
    ensures IsStale(file, dep, lastModified) <==> Installed(file)[dep] < lastModified
  {
  }

  /** Recording an installation at time `now` makes the component current
      for every `lastModified <= now`. */
  lemma SavedIsCurrent(file: SheafFile, name: string, now: int, lastModified: int)
    requires lastModified <= now
    ensures !IsStale(SaveInstalledComponent(file, name, now), name, lastModified)
  {
  }
}

=== FILE: state.dfy ===
/** Everything an installation, update or removal reads and writes: the file
    tree, `sheaf.json`, `sheaf-lock.json` and the console transcript, plus
    the inputs from outside (registry, clock, operator). */
module State {
  import opened Wrappers
  import opened Files
  import opened Registry
  import opened SheafConfig
  import opened SheafLock
  import opened FileInstaller

  /** The questions the commands put to the operator. */
  datatype Question =
    | OverwriteFile
    | InstallInternal
    | InstallExternal
    | ExistingComponent
    | ConfirmDestructive
    | RemoveDependency
    | ConfirmUpdate
    | InstallMissing

  /** The answers to "Component already exists. What would you like to do?". */
  datatype Choice = Interactive | DependenciesOnly | OverwriteAll | Cancel

  /** The console transcript, one event per line or prompt that matters. */
  datatype Event =
    | Fetched(name: string)
    | FetchFailed(name: string)
    | Prompted(question: Question, subject: string)
    | Reported(name: string, reports: seq<Report>)
    | WillCreate(path: string)
    | HasNoDependencies(name: string)
    | DepsUpToDate(name: string)
    | OnlyDependencies(name: string)
    | InstallingDeps(name: string)
    | DepsFinished(name: string, installedAny: bool)
    | SkipDepsWarning(name: string)
    | InstallingExternal(name: string)
    | RanProcess(key: string, command: string)
    | FuelExhausted(name: string)
    | SkippingFiles
    | OverwriteAllWarning
    | Cancelled
    | NotInstalled(name: string)
    | DeletedDirectory(name: string)
    | RemovedFile(path: string)
    | RemovedHelper(helper: string)
    | RemovedDependency(dep: string)
    | Banner(title: string)
    | LockUpdatedSummary
    | AlreadyUpToDate(name: string)
    | UpdateCanceled(name: string)
    | FilesUpdated(name: string)
    | UpdatingDependencies(name: string)

  datatype World = World(fs: Fs, sheaf: SheafFile, lock: LockFile, log: seq<Event>)
  {
    function Emit(e: Event): (w: World)
      ensures w.fs == fs && w.sheaf == sheaf && w.lock == lock && w.log == log + [e]
    {
      this.(log := log + [e])
    }
  }

  /** The operator's answers, each keyed by what the question names (a path
      or a component name). */
  datatype Operator = Operator(
    overwriteFile: string -> bool,
    installInternal: string -> bool,
    installExternal: string -> bool,
    existingComponent: string -> Choice,
    confirmDestructive: string -> bool,
    removeDependency: string -> bool,
    confirmUpdate: string -> bool,
    installMissing: string -> bool)

  /** The registry (`None` for any failed fetch), the operator, the clock
      (`time()` during the run) and `base_path()` as a path prefix. */
  datatype Env = Env(registry: string -> Option<Bundle>, op: Operator, now: int, base: string)

  datatype Status = Success | Failure | Invalid
}

=== FILE: strings.dfy ===
/** The PHP string functions the engine relies on, over Dafny strings
    (sequences of Unicode scalar values). */
module Strings {

  /** `str_starts_with(s, prefix)`. */
  predicate StartsWith(s: string, prefix: string) {
    |prefix| <= |s| && s[..|prefix|] == prefix
  }

  /** `str_ends_with(s, suffix)`. */
  predicate EndsWith(s: string, suffix: string) {
    |suffix| <= |s| && s[|s| - |suffix|..] == suffix
  }

  /** `str_contains(s, needle)`, equivalently `strpos(s, needle) !== false`. */
  predicate Contains(s: string, needle: string) {
    exists i | 0 <= i <= |s| :: OccursAt(s, needle, i)
  }

  /** `needle` occurs in `s` starting at index `i`. */
  predicate OccursAt(s: string, needle: string, i: int) {
    0 <= i <= |s| - |needle| && s[i..i + |needle|] == needle
  }

  /** A string contains every prefix of itself. */
  lemma StartsWithContains(s: string, prefix: string)
    requires StartsWith(s, prefix)
    ensures Contains(s, prefix)
  {
    assert OccursAt(s, prefix, 0);
  }

  /** Whatever contains `a + b` contains `a`. */
  lemma ContainsLongerNeedle(s: string, a: string, b: string)
    requires Contains(s, a + b)
    ensures Contains(s, a)
  {
    var i :| 0 <= i <= |s| && OccursAt(s, a + b, i);
    assert i + |a + b| <= |s| && s[i..i + |a + b|] == a + b;
    assert s[i..i + |a|] == s[i..i + |a + b|][..|a|] == (a + b)[..|a|] == a;
    assert OccursAt(s, a, i);
  }

  /** Prepending text keeps every occurrence. */
  lemma ContainsAfterPrepend(s: string, front: string, needle: string)
    requires Contains(s, needle)
    ensures Contains(front + s, needle)
  {
    var i :| 0 <= i <= |s| && OccursAt(s, needle, i);
    assert i + |needle| <= |s| && s[i..i + |needle|] == needle;
    var j := |front| + i;
    assert (front + s)[j..j + |needle|] == s[i..i + |needle|];
    assert OccursAt(front + s, needle, j);
  }

  /** A prefix of a concatenation is found at its start. */
  lemma ContainsOwnPrefix(front: string, rest: string)
    ensures Contains(front + rest, front)
  {
    assert (front + rest)[0..|front|] == front;
    assert OccursAt(front + rest, front, 0);
  }

  /** PHP 8 `strtolower`: ASCII letters only, independent of the locale. */
  function Lower(s: string): (r: string)
    ensures |r| == |s|
    ensures forall i :: 0 <= i < |s| ==> r[i] == LowerChar(s[i])
  {
    if s == [] then [] else [LowerChar(s[0])] + Lower(s[1..])
  }

  function LowerChar(c: char): char {
    if 'A' <= c <= 'Z' then (c as int - 'A' as int + 'a' as int) as char else c
  }

  /** The number of bytes the UTF-8 encoding of `s` takes: PHP's `strlen`. */
  function Utf8Length(s: string): (n: nat)
    ensures n >= |s|
    ensures n <= 4 * |s|
  {
    if s == [] then 0 else Utf8Width(s[0]) + Utf8Length(s[1..])
  }

  function Utf8Width(c: char): nat {
    if c as int < 0x80 then 1
    else if c as int < 0x800 then 2
    else if c as int < 0x10000 then 3
    else 4
  }

  /** A string of ASCII characters takes one byte per character. */
  lemma {:induction false} Utf8LengthAscii(s: string)
    requires forall i :: 0 <= i < |s| ==> s[i] as int < 0x80
    ensures Utf8Length(s) == |s|
  {
    if s != [] {
      Utf8LengthAscii(s[1..]);
    }
  }

  /** `str_repeat(c, n)` for a one-character string. */
  function Repeat(c: char, n: nat): (r: string)
    ensures |r| == n
    ensures forall i :: 0 <= i < n ==> r[i] == c
  {
    if n == 0 then [] else [c] + Repeat(c, n - 1)
  }
}

=== FILE: updater.dfy ===
/** `ComponentUpdater::handleUpdate`: reinstall a component's files from the
    registry when the manifest says it is stale and the operator agrees. */
module Updater {
  import opened Wrappers
  import opened Files
  import opened Registry
  import opened SheafConfig
  import opened SheafLock
  import opened Config
  import opened State
  import opened Engine

  /** How `handleUpdate` ends: a returned status, falling off the end after
      an accepted update (`null`), or an exception from the fetch. */
  datatype UpdateResult = Returned(status: Status) | FellThrough | Threw

  /** `isComponentInstalled`: the component's view directory exists. */
  predicate IsComponentInstalled(fs: Fs, name: string) {
    IsDirectory(fs, UiRoot + name)
  }

  /** The paths of a file list. */
  function Paths(files: seq<FileEntry>): (r: set<string>)
    ensures forall p :: p in r <==> exists i :: 0 <= i < |files| && files[i].path == p
  {
    set i | 0 <= i < |files| :: files[i].path
  }

  /** `replaceFiles`: `File::put` for every file in order, no question
      asked. */
  function ReplaceFiles(fs: Fs, files: seq<FileEntry>): (r: Fs)
    ensures r.Keys == fs.Keys + Paths(files)
    ensures forall k :: k in fs && k !in Paths(files) ==> r[k] == fs[k]
    decreases |files|
  {
    if files == [] then fs
    else
      var n := |files| - 1;
      assert Paths(files) == Paths(files[..n]) + {files[n].path} by {
        assert forall i :: 0 <= i < n ==> files[..n][i] == files[i];
      }
      ReplaceFiles(fs, files[..n])[files[n].path := files[n].content]
  }

  /** A path listed twice keeps its last content. */
  lemma {:induction false} ReplaceFilesLastWins(fs: Fs, files: seq<FileEntry>, i: nat)
    requires i < |files|
    requires forall j :: i < j < |files| ==> files[j].path != files[i].path
    ensures ReplaceFiles(fs, files)[files[i].path] == files[i].content
    decreases |files|
  {
    var n := |files| - 1;
    var prefix := files[..n];
    ReplaceFilesStep(fs, files);
    if i < n {
      assert prefix[i] == files[i];
      forall j | i < j < n ensures prefix[j].path != prefix[i].path {
        assert prefix[j] == files[j];
      }
      ReplaceFilesLastWins(fs, prefix, i);
    }
  }

  lemma ReplaceFilesStep(fs: Fs, files: seq<FileEntry>)
    requires files != []
    ensures ReplaceFiles(fs, files)
         == ReplaceFiles(fs, files[..|files| - 1])[files[|files| - 1].path := files[|files| - 1].content]
  {
  }

  /** `updateDependencies`: with a descriptor, the trait's resolver runs under
      a configuration holding just this component's name. */
  function UpdateDependencies(env: Env, w: World, name: string, deps: Option<Deps>, fuel: nat): (r: World)
    ensures Keeps(w, ForComponent(name), r, Engine.InstallDependencies(env, w.Emit(UpdatingDependencies(name)), ForComponent(name), deps, fuel).cfg)
    ensures NoDependencies(deps) ==> r == w.Emit(HasNoDependencies(name))
  {
    if NoDependencies(deps) then w.Emit(HasNoDependencies(name))
    else
      var w1 := w.Emit(UpdatingDependencies(name));
      var p := InstallDependencies(env, w1, ForComponent(name), deps, fuel);
      KeepsTransitive(w, ForComponent(name), w1, ForComponent(name), p.world, p.cfg);
      p.world
  }

  /** `installComponent`: ask, then install under a fresh configuration. */
  function InstallMissingComponent(env: Env, w: World, name: string, fuel: nat): (r: (World, UpdateResult))
    ensures |r.0.log| > |w.log| && r.0.log[|w.log|] == Prompted(InstallMissing, name)
    ensures !env.op.installMissing(name) ==> r == (w.Emit(Prompted(InstallMissing, name)), Returned(Failure))
    ensures env.op.installMissing(name) ==> r.1 == Returned(Success)
    ensures r.0.lock == w.lock
  {
    var w1 := w.Emit(Prompted(InstallMissing, name));
    if !env.op.installMissing(name) then (w1, Returned(Failure))
    else
      var run := ComponentInstall(env, w1, ForComponent(name), name, fuel);
      assert run.world.log[..|w1.log|] == w1.log;
      (run.world, Returned(Success))
  }

  /** `handleUpdate`. */
  function HandleUpdate(env: Env, w: World, name: string, fuel: nat): (r: (World, UpdateResult))
    ensures r.0.lock == w.lock
    // a missing directory goes straight to the install question, no fetch
    ensures !IsComponentInstalled(w.fs, name) ==> r == InstallMissingComponent(env, w, name, fuel)
    ensures IsComponentInstalled(w.fs, name) && env.registry(name).None? ==> r == (w.Emit(FetchFailed(name)), Threw)
    // current, or declined: SUCCESS with no file and no manifest change
    ensures (IsComponentInstalled(w.fs, name) && env.registry(name).Some? &&
      (!IsStale(w.sheaf, name, env.registry(name).value.lastModified) || !env.op.confirmUpdate(name))) ==>
      r.1 == Returned(Success) && r.0.fs == w.fs && r.0.sheaf == w.sheaf
    // accepted: the manifest records the update time last
    ensures (IsComponentInstalled(w.fs, name) && env.registry(name).Some? &&
      IsStale(w.sheaf, name, env.registry(name).value.lastModified) && env.op.confirmUpdate(name)) ==>
      r.1 == FellThrough && name in Installed(r.0.sheaf) && Installed(r.0.sheaf)[name] == env.now
  {
    if !IsComponentInstalled(w.fs, name) then InstallMissingComponent(env, w, name, fuel)
    else match env.registry(name)
      case None => (w.Emit(FetchFailed(name)), Threw)
      case Some(b) =>
        var w1 := w.Emit(Fetched(name));
        if !IsStale(w.sheaf, name, b.lastModified) then (w1.Emit(AlreadyUpToDate(name)), Returned(Success))
        else
          var w2 := w1.Emit(Prompted(ConfirmUpdate, name));
          if !env.op.confirmUpdate(name) then (w2.Emit(UpdateCanceled(name)), Returned(Success))
          else
            var w3 := w2.(fs := ReplaceFiles(w2.fs, b.files)).Emit(FilesUpdated(name));
            var w4 := UpdateDependencies(env, w3, name, b.dependencies, fuel);
            (w4.(sheaf := SaveInstalledComponent(w4.sheaf, name, env.now)), FellThrough)
  }

  /** Without dependencies an accepted update writes exactly the fetched
      files, asks nothing per file and records the update time. */
  lemma AcceptedUpdateOverwritesAll(env: Env, w: World, name: string, fuel: nat)
    requires IsComponentInstalled(w.fs, name) && env.registry(name).Some?
    requires IsStale(w.sheaf, name, env.registry(name).value.lastModified) && env.op.confirmUpdate(name)
    requires NoDependencies(env.registry(name).value.dependencies)
    ensures var r := HandleUpdate(env, w, name, fuel);
      && r.0.fs == ReplaceFiles(w.fs, env.registry(name).value.files)
      && Installed(r.0.sheaf) == Installed(w.sheaf)[name := env.now]
      && r.0.log == w.log + [Fetched(name), Prompted(ConfirmUpdate, name), FilesUpdated(name), HasNoDependencies(name)]
  {
    var b := env.registry(name).value;
    var w3 := w.Emit(Fetched(name)).Emit(Prompted(ConfirmUpdate, name));
    var w4 := w3.(fs := ReplaceFiles(w3.fs, b.files)).Emit(FilesUpdated(name));
    assert UpdateDependencies(env, w4, name, b.dependencies, fuel) == w4.Emit(HasNoDependencies(name));
  }
}

=== FILE: wrappers.dfy ===
/** Failure-compatible wrappers used across the model: an optional value and
    a success-or-error result. */
module Wrappers {

  datatype Option<+T> = None | Some(value: T) {

    /** Returns the wrapped value, or `default` when there is none. */
    function GetOr(default: T): T {
      match this
      case Some(v) => v
      case None => default
    }
  }

  /** An operation that either produces a value or fails with a message,
      standing for a PHP exception or a PHP error raised at run time. */
  datatype Result<+R> = Ok(value: R) | Err(message: string)
}
